=== FILE: README.md ===
# Chat plugin logic of the MindX web UI, modelled in Dafny

The web UI of MindX loads plugin scripts ("functions") into its chat pipeline. A *filter* sees
the request body on the way in (`inlet`) and the response body on the way out (`outlet`). It may
change the body's `messages` list in place. A *handler* or *pipe* may instead answer with a dict or
text of its own. This project models the plugins under `backend/apps/webui/functions/` that carry
logic beyond fixed HTML:

- **The note-detection filter.** It scores user messages for note intent. For assistant replies it
  extracts action items, key points and a title.
- **JARVIS Notes.** The browser-side script the handler ships covers tags, word count, the
  extractive summary, Jaccard similarity, related notes, task lines and the `saveNote` upsert. The
  Python handler answers "open notes" and "save this".
- **The note action buttons.** These cover task extraction, the CSV export with its RFC 4180 quoting,
  tag splitting, and the outcome of each button.
- **Message-list filters:**
  - "Thinking Claude": adds a system prompt and folds `<thinking>` sections;
  - the adaptive memory: a per-user fact map learnt from "my name is";
  - the MindX branding handler;
  - the two Notesnook "complete" plugins and their conversation preview;
  - the Notesnook integration and lightweight handlers;
  - the OMI filter, the two dashboards and the test filter.

There is one Dafny module per plugin file. Shared modules hold the common pieces:

- `Wrappers`: `Option`, Python-style errors and `Py<T>`.
- `Text`: ASCII case mapping, whitespace as the six characters space, `\t`, `\n`, `\r`, `\v` and `\f`, `strip`, search, `split`, `replace`, `capitalize`, `title`.
- `Scan`: hand-written scanners for the regular expressions.
- `Seqs`: first-occurrence deduplication.
- `Ranking`: a stable descending sort, as JavaScript's `sort` with `(a, b) => b.score - a.score`.
- `Chat`: messages, the request body as a class, and the backward search for the previous
  assistant message.
- `Preview`: the conversation preview shared by the two "complete" plugins.
- `Url`: `urllib.parse.quote`, that is UTF-8 (RFC 3629) followed by the percent-encoding of
  section 2.1 of RFC 3986, with a decoder as its partner.

How the source is modelled:

- A plugin method that changes the body in place becomes a method of a class. It has
  `modifies body`messages` and is proved equal to a specification function on the old message list.
- A loop in the source (the cleaning loops, the `+=` string builders, the backward search, the
  `forEach` frequency table) is a method with its invariants. It is proved equal to the function
  that the lemmas are about.
- Pure dispatch is a function returning a `Reply` datatype.
- Scores (similarity, summary) are exact rationals (`real`), compared exactly.

Fixed page texts over 200 characters are not spelled out. They are represented by a stand-in: the
text's first line, its heading line for pages with one, and its last line, joined by
`"\n…\n"`. Pages of different plugins and branches therefore stay distinct. Every piece of
text that depends on the input is exact: prefills, previews, conversation text, quoted URLs, saved
content, titles and ids.

## Model

| member | source | states |
|---|---|---|
| NotesnookFilter.ActionMatchesOrder | backend/apps/webui/functions/notesnook_filter.py:103-112 | the raw action matches are all matches of the first pattern, then of the second, then of the third, each in text order |
| NotesnookFilter.CollectActionMatches | backend/apps/webui/functions/notesnook_filter.py:109-112 | the `extend` loop over the three patterns collects exactly that ordered match list |
| NotesnookFilter.KeptAppend | backend/apps/webui/functions/notesnook_filter.py:115-119 | the length filter on cleaned matches distributes over concatenation, so each pattern's survivors stay in their block |
| NotesnookFilter.ActionItems | backend/apps/webui/functions/notesnook_filter.py:114-121 | at most 5 action items, none twice |
| NotesnookFilter.ActionItemsFromMatches | backend/apps/webui/functions/notesnook_filter.py:115-119 | every item is some match stripped and `capitalize`d (first letter upper, the rest lower), longer than 10 characters, with no upper bound |
| NotesnookFilter.EarlierMatchesLead | backend/apps/webui/functions/notesnook_filter.py:110-121 | adding later matches never changes the items already chosen from earlier ones; it can only add more after them |
| NotesnookFilter.ActionItemsFirstPattern | backend/apps/webui/functions/notesnook_filter.py:103-121 | the items from the first pattern come first, as a prefix of the result |
| NotesnookFilter.CleanMatches | backend/apps/webui/functions/notesnook_filter.py:114-119 | the cleaning loop keeps the first occurrence of each cleaned match longer than 10 characters, in match order |
| NotesnookFilter.ExtractActionItems | backend/apps/webui/functions/notesnook_filter.py:101-121 | `extract_action_items` as written (collect, clean, cap) computes the action items |
| NotesnookFilter.KeyPointsOf | backend/apps/webui/functions/notesnook_filter.py:136-140 | each kept sentence is stripped, names an importance keyword in lower case and has 21 to 199 characters; order is text order |
| NotesnookFilter.KeyPointsOfNoPunct | backend/apps/webui/functions/notesnook_filter.py:127-140 | sentences split at `.!?` never carry sentence punctuation into a key point |
| NotesnookFilter.KeyPoints | backend/apps/webui/functions/notesnook_filter.py:142 | at most 5 key points |
| NotesnookFilter.KeyPointsShape | backend/apps/webui/functions/notesnook_filter.py:127-142 | every key point is a stripped keyword sentence of 21 to 199 characters with no `.!?` in it |
| NotesnookFilter.ExtractKeyPoints | backend/apps/webui/functions/notesnook_filter.py:124-142 | `extract_key_points` as written computes the key points |
| NotesnookFilter.CollectKeyPoints | backend/apps/webui/functions/notesnook_filter.py:135-140 | the appending loop keeps exactly the key-point sentences, in order |
| NotesnookFilter.HeadingTitle | backend/apps/webui/functions/notesnook_filter.py:148-155 | a title found among the lines is non-empty, shorter than 100, stripped and free of `#`, `*` and backquote |
| NotesnookFilter.HeadingTitleFromPrefix | backend/apps/webui/functions/notesnook_filter.py:149-155 | the first usable line wins: lines after it never change the title |
| NotesnookFilter.GenerateTitle | backend/apps/webui/functions/notesnook_filter.py:145-163 | the title is never empty and is shorter than 100 characters unless it is the dated fallback |
| NotesnookFilter.ExtractActionItemsAsWritten | backend/apps/webui/functions/notesnook_filter.py:101-111 | with `re` bound at module scope the function gives the action items; otherwise it raises |
| NotesnookFilter.ActionItemsRaiseAsWritten | backend/apps/webui/functions/notesnook_filter.py:101-112 | `re` is imported only inside `handler` (line 11), so under the module's real globals every call raises `NameError` for `re` |
| NotesnookFilter.GenerateTitleAsWritten | backend/apps/webui/functions/notesnook_filter.py:145-163 | whenever it returns, it returns the intended title |
| NotesnookFilter.TitleFallbackRaisesAsWritten | backend/apps/webui/functions/notesnook_filter.py:158-163 | even with `re` bound, the empty text reaches the dated fallback and raises `NameError` for `datetime` |
| NotesnookFilter.Detected | backend/apps/webui/functions/notesnook_filter.py:45-48 | the detected indicators are exactly the indicators that occur in the text, in `NOTE_INDICATORS` order |
| NotesnookFilter.AutoNoteFor | backend/apps/webui/functions/notesnook_filter.py:42-56 | an auto-note records the detected indicators, and its score is their count |
| NotesnookFilter.AutoNoteTrigger | backend/apps/webui/functions/notesnook_filter.py:50 | an auto-note is made if and only if at least 2 indicators occur or a strong phrase occurs |
| NotesnookFilter.StrongPhrasesAny | backend/apps/webui/functions/notesnook_filter.py:50 | the `any(...)` over the strong phrases holds exactly when one of the three occurs |
| NotesnookFilter.ImportantNoteTwoIndicators | backend/apps/webui/functions/notesnook_filter.py:15-19 | "important note" alone already counts two indicators, so the strong-phrase test adds nothing for it |
| NotesnookFilter.BuildActionSummary | backend/apps/webui/functions/notesnook_filter.py:81-84 | the `+=` loop builds the heading, one bullet per item and the closing hint |
| NotesnookFilter.AssistantContent | backend/apps/webui/functions/notesnook_filter.py:60-86 | the new content always extends the old content; with action items it is exactly the old content plus the action summary |
| NotesnookFilter.NoteUiDiscarded | backend/apps/webui/functions/notesnook_filter.py:76-86 | when action items exist, the note UI appended for a confident auto-note is lost |
| NotesnookFilter.SummaryFor | backend/apps/webui/functions/notesnook_filter.py:88-96 | a note summary exists only for content over 1000 characters with 1 to 5 key points, and always then; it holds the key points and the word count |
| NotesnookFilter.NoteBody.constructor | backend/apps/webui/functions/notesnook_filter.py:6 | a body holding the messages and none of the three note keys |
| NotesnookFilter.UserTurn | backend/apps/webui/functions/notesnook_filter.py:33-56 | `__note_command` is set exactly for content starting with "!note" or "/note"; `__auto_note` is set exactly when an auto-note is made; nothing else changes |
| NotesnookFilter.AssistantTurn | backend/apps/webui/functions/notesnook_filter.py:59-96 | the last message's content becomes the assistant content; the summary key is set when a summary exists; nothing else changes |
| NotesnookFilter.RewriteReply | backend/apps/webui/functions/notesnook_filter.py:60-86 | only the last message changes, and its content becomes the assistant content |
| NotesnookFilter.RecordSummary | backend/apps/webui/functions/notesnook_filter.py:88-96 | the summary key is replaced exactly when the content has a summary and kept otherwise |
| NotesnookFilter.AnnotateReply | backend/apps/webui/functions/notesnook_filter.py:63-86 | the note-detection text and the later action summary leave the assistant content |
| NotesnookFilter.SummarizeReply | backend/apps/webui/functions/notesnook_filter.py:88-96 | the key points, word count and title computed by the branch are the content's summary |
| NotesnookFilter.Handler | backend/apps/webui/functions/notesnook_filter.py:6-98 | an empty body is left unchanged; otherwise the user turn or the assistant turn runs by the last role, and any other role changes nothing |
| JarvisNotes.KeywordTagsMember | backend/apps/webui/functions/jarvis_notes_final.py:115-118 | a keyword tag is present if and only if its keyword occurs |
| JarvisNotes.ExtractTags | backend/apps/webui/functions/jarvis_notes_final.py:106-121 | the tags have no duplicates |
| JarvisNotes.ExtractTagsHashtagsFirst | backend/apps/webui/functions/jarvis_notes_final.py:110-120 | the hashtags of the lower-cased text, deduplicated in text order, come first |
| JarvisNotes.ExtractTagsKeyword | backend/apps/webui/functions/jarvis_notes_final.py:115-118 | `'#' + keyword` is a tag if and only if the keyword occurs in the lower-cased text |
| JarvisNotes.TaggedKeywordPresent | backend/apps/webui/functions/jarvis_notes_final.py:107-118 | whether `'#' + kw` came from a hashtag or from the keyword list, `kw` occurs in the lower-cased text |
| JarvisNotes.NoWordsIff | backend/apps/webui/functions/jarvis_notes_final.py:125 | splitting on whitespace runs leaves no non-empty word if and only if the text is all whitespace |
| JarvisNotes.CountWordsZero | backend/apps/webui/functions/jarvis_notes_final.py:123-126 | the word count is 0 if and only if nothing but whitespace is left once `<...>` spans are removed |
| JarvisNotes.TokenSet | backend/apps/webui/functions/jarvis_notes_final.py:249-250 | a token set is never empty, because a split always yields a piece |
| JarvisNotes.Similarity | backend/apps/webui/functions/jarvis_notes_final.py:247-256 | the Jaccard similarity lies between 0 and 1 |
| JarvisNotes.SimilaritySymmetric | backend/apps/webui/functions/jarvis_notes_final.py:247-256 | the similarity is symmetric |
| JarvisNotes.SimilarityOne | backend/apps/webui/functions/jarvis_notes_final.py:247-256 | the similarity is 1 if and only if the two texts have the same token set |
| JarvisNotes.CandidatesSound | backend/apps/webui/functions/jarvis_notes_final.py:200-206 | every candidate is a note other than the current one, scored by the similarity measure it is given (the Jaccard similarity in `FindRelated`) against the editor text, with a score above 0.1 |
| JarvisNotes.CandidatesComplete | backend/apps/webui/functions/jarvis_notes_final.py:200-206 | every other note scoring above 0.1 is a candidate |
| JarvisNotes.FindRelated | backend/apps/webui/functions/jarvis_notes_final.py:198-208 | at most 3 related notes, in descending score order, each one a candidate |
| JarvisNotes.FindRelatedDominates | backend/apps/webui/functions/jarvis_notes_final.py:207-208 | every related note scores at least as high as any candidate ranked after the cut |
| JarvisNotes.FindRelatedAll | backend/apps/webui/functions/jarvis_notes_final.py:206-208 | with at most 3 candidates, every candidate is related |
| JarvisNotes.CountIsMultiplicity | backend/apps/webui/functions/jarvis_notes_final.py:229-232 | a word's frequency is its multiplicity among the words |
| JarvisNotes.Summary | backend/apps/webui/functions/jarvis_notes_final.py:222-225 | a text with at most 3 terminated sentences, none included, is its own summary |
| JarvisNotes.SummaryPicksBest | backend/apps/webui/functions/jarvis_notes_final.py:227-244 | otherwise the summary is the three best-scoring sentences joined by spaces, best first; no sentence left out scores higher |
| JarvisNotes.RankedAreSentences | backend/apps/webui/functions/jarvis_notes_final.py:224-243 | every ranked item is one of the text's sentences |
| JarvisNotes.WordFrequencies | backend/apps/webui/functions/jarvis_notes_final.py:228-232 | the `forEach` fills a table whose entries are exactly the words longer than 3 characters, each with its number of occurrences |
| JarvisNotes.LookupSumAgrees | backend/apps/webui/functions/jarvis_notes_final.py:234-236 | summing table lookups over a sentence equals summing the word frequencies |
| JarvisNotes.GenerateSummary | backend/apps/webui/functions/jarvis_notes_final.py:222-245 | `generateSummary` as written (table, scores, sort, join) computes the summary |
| JarvisNotes.TaskLines | backend/apps/webui/functions/jarvis_notes_final.py:184-189 | every listed line is a task line (a bullet, or mentions "todo" or "task" in any case) of the note |
| JarvisNotes.TaskLinesComplete | backend/apps/webui/functions/jarvis_notes_final.py:185-189 | every task line of the note is listed |
| JarvisNotes.ExtractTasks | backend/apps/webui/functions/jarvis_notes_final.py:182-195 | the "Tasks" panel (no tasks) is shown if and only if no line is a task line |
| JarvisNotes.TaskEntryOfBullet | backend/apps/webui/functions/jarvis_notes_final.py:192 | a bullet line loses exactly its two marker characters to the check box, keeping its length |
| JarvisNotes.IndexOfId | backend/apps/webui/functions/jarvis_notes_final.py:86 | `findIndex` gives the first note with the id, or -1 when there is none |
| JarvisNotes.FindIndex | backend/apps/webui/functions/jarvis_notes_final.py:86 | the scan returns that index |
| JarvisNotes.UpsertExisting | backend/apps/webui/functions/jarvis_notes_final.py:86-88 | for a known id only the first note with that id is replaced, and the length is unchanged |
| JarvisNotes.UpsertNew | backend/apps/webui/functions/jarvis_notes_final.py:89-91 | for a new id the note is put in front and the old notes shift by one, unchanged |
| JarvisNotes.UpsertKeepsUniqueIds | backend/apps/webui/functions/jarvis_notes_final.py:85-91 | saving never creates two notes with the same id |
| JarvisNotes.UpsertFinds | backend/apps/webui/functions/jarvis_notes_final.py:85-91 | after saving, looking the id up finds the saved note |
| JarvisNotes.NewNote | backend/apps/webui/functions/jarvis_notes_final.py:70-83 | the note has a non-empty title, tags and word count from its HTML, keeps the current note's id and its creation stamp when set, and takes `updated` from the second clock reading |
| JarvisNotes.NotesApp.constructor | backend/apps/webui/functions/jarvis_notes_final.py:61-62 | the stored notes are loaded and no note is open |
| JarvisNotes.NotesApp.SaveNote | backend/apps/webui/functions/jarvis_notes_final.py:70-97 | the notes become the upsert of the new note, which becomes the current note |
| JarvisNotes.Handle | backend/apps/webui/functions/jarvis_notes_final.py:17-345 | no messages key returns the body; an empty list raises IndexError; the notes app answers exactly an open trigger; the save message is sent exactly when there is no open trigger, a save phrase occurs and the most recent assistant message before the last is non-empty, and it is the script built from that message, its MD5 id and the clock reading |
| JarvisNotes.AnswerId | backend/apps/webui/functions/jarvis_notes_final.py:312 | the note id is at most the first eight hex digits of the answer's digest |
| JarvisNotes.SavedScriptTitle | backend/apps/webui/functions/jarvis_notes_final.py:314-321 | the save message starts with the heading and the note's id, and holds the title dated by the clock reading |
| JarvisNotes.SavedScriptAnswer | backend/apps/webui/functions/jarvis_notes_final.py:322-323 | the answer appears verbatim, unescaped, inside a backquoted template literal |
| JarvisNotes.SavedScriptCount | backend/apps/webui/functions/jarvis_notes_final.py:327 | the note records the answer's whitespace word count in decimal |
| JarvisNotes.Handler | backend/apps/webui/functions/jarvis_notes_final.py:302-345 | the handler with its backward search computes that reply |
| Chat.PreviousAssistantContent | backend/apps/webui/functions/jarvis_notes_final.py:305-309 | the result is the content of the most recent assistant message before the last, with no assistant message between them, and "" when there is none |
| Chat.FindPreviousAssistant | backend/apps/webui/functions/notesnook_optimal.py:201-205 | the reversed loop with `break` finds the most recent assistant message before the last |
| Chat.UserId | backend/apps/webui/functions/adaptive_memory.py:50 | a missing `__user__` or a missing id is the user "default" |
| Scan.HashtagsOccur | backend/apps/webui/functions/jarvis_notes_final.py:111 | every hashtag found occurs in the text |
| Scan.StripTagsTagFree | backend/apps/webui/functions/notesnook_complete_filter.py:145 | after removing `<...>` spans no complete tag span is left |
| Scan.StripTagsIdempotent | backend/apps/webui/functions/notesnook_complete_filter.py:145 | removing tag spans twice is the same as once |
| Ranking.SortDescStable | backend/apps/webui/functions/jarvis_notes_final.py:207 | sorting by descending score keeps items of equal score in their original order |
| Ranking.TopDominates | backend/apps/webui/functions/jarvis_notes_final.py:207-208 | the items kept by the cut score at least as high as every item after it |
| Seqs.Distinct | backend/apps/webui/functions/jarvis_notes_final.py:120 | `[...new Set(xs)]` has no duplicates and the same members as `xs` |
| Seqs.DistinctPrefix | backend/apps/webui/functions/notesnook_filter.py:116-119 | deduplicating a longer list extends the deduplication of its prefix |
| NotesnookActions.TaskMatchesOrder | backend/apps/webui/functions/notesnook_actions.py:312-321 | the matches are all bullet items, then numbered items, then `TODO:`, then `Task:` |
| NotesnookActions.TodoCaseSensitive | backend/apps/webui/functions/notesnook_actions.py:315 | a `TODO:` match starts exactly where "TODO:" is written as is |
| NotesnookActions.TaskCaseSensitive | backend/apps/webui/functions/notesnook_actions.py:316 | a `Task:` match starts exactly where "Task:" is written as is |
| NotesnookActions.KeptTasksAppend | backend/apps/webui/functions/notesnook_actions.py:324-328 | cleaning distributes over concatenation and nothing is deduplicated, so one line can give two tasks |
| NotesnookActions.Tasks | backend/apps/webui/functions/notesnook_actions.py:330 | at most 10 tasks |
| NotesnookActions.TasksShape | backend/apps/webui/functions/notesnook_actions.py:305-330 | every task is some match, stripped, of 6 to 199 characters, and holds no newline, since every pattern stops at the end of its line |
| NotesnookActions.TasksBulletsFirst | backend/apps/webui/functions/notesnook_actions.py:312-330 | the bullet tasks lead the list |
| NotesnookActions.ExtractTasks | backend/apps/webui/functions/notesnook_actions.py:305-330 | `extract_tasks` as written computes the tasks |
| NotesnookActions.CollectTaskMatches | backend/apps/webui/functions/notesnook_actions.py:319-321 | the `extend` loop collects the ordered match list |
| NotesnookActions.CleanTasks | backend/apps/webui/functions/notesnook_actions.py:324-328 | the cleaning loop keeps the stripped matches of 6 to 199 characters, in order |
| NotesnookActions.CsvRowsSnoc | backend/apps/webui/functions/notesnook_actions.py:372-373 | one more line adds one more row, numbered after the others |
| NotesnookActions.ExportCsv | backend/apps/webui/functions/notesnook_actions.py:369-374 | the `+=` loop builds the header and one numbered row per line |
| NotesnookActions.ExportContent | backend/apps/webui/functions/notesnook_actions.py:333-374 | every format other than markdown, text and json gets the CSV text, starting with "Line Number,Content\n" |
| NotesnookActions.ParseQuotedOf | backend/apps/webui/functions/notesnook_actions.py:373 | a field quoted by doubling its `"` (section 2 of RFC 4180) reads back as the line itself |
| NotesnookActions.ParseRowOf | backend/apps/webui/functions/notesnook_actions.py:373 | a row reads back as its number and its line |
| NotesnookActions.ParseRowsOf | backend/apps/webui/functions/notesnook_actions.py:372-373 | the rows read back as the lines, numbered from the first number |
| NotesnookActions.CsvRoundTrip | backend/apps/webui/functions/notesnook_actions.py:369-374 | parsing the export gives the message's `\n`-separated lines numbered from 1, and those lines joined by `\n` are the message |
| NotesnookActions.TagsOf | backend/apps/webui/functions/notesnook_actions.py:164 | one tag per comma-separated piece |
| NotesnookActions.TagsOfShape | backend/apps/webui/functions/notesnook_actions.py:164 | each tag is its piece stripped, holding no comma, and the pieces rejoined by commas are the input |
| NotesnookActions.Handle | backend/apps/webui/functions/notesnook_actions.py:6-205 | the buttons come back if and only if there is no dialogue channel; an unknown action returns the body; an export answers only the export action |
| NotesnookActions.ButtonsWithoutDialogue | backend/apps/webui/functions/notesnook_actions.py:17-46 | without a dialogue channel the reply is exactly the four buttons save_note, create_task, add_tags and export_note, in this order |
| NotesnookActions.NoTasksNotice | backend/apps/webui/functions/notesnook_actions.py:117-149 | a message with no tasks gets "No tasks found in this message", whatever the answers |
| NotesnookActions.CreatedTasksNotice | backend/apps/webui/functions/notesnook_actions.py:119-147 | with tasks, the count is reported only after confirmation; without it the body is returned |
| NotesnookActions.TagsNotice | backend/apps/webui/functions/notesnook_actions.py:151-170 | entered tags are reported as one badge per stripped comma-separated piece |
| NotesnookActions.SavedNoteNotice | backend/apps/webui/functions/notesnook_actions.py:53-113 | a note is saved only under a non-empty title, into the selected notebook or the newly named one |
| NotesnookActions.ExportFallsToCsv | backend/apps/webui/functions/notesnook_actions.py:172-203 | an unlisted format shows the CSV export, which reads back as the message's lines |
| NotesnookActions.HelpersUnbound | backend/apps/webui/functions/notesnook_actions.py:6-14 | `datetime` and `hashlib` are imported inside `handler` only, so neither is bound at module scope |
| NotesnookActions.HelperGlobal | backend/apps/webui/functions/notesnook_actions.py:208-374 | the storing and exporting helpers first look up `datetime`, except `save_tags`, which looks up `hashlib`, and only when tags were entered |
| NotesnookActions.HandleAsWritten | backend/apps/webui/functions/notesnook_actions.py:6-374 | `handler` raises `NameError` exactly when an answered dialogue reaches a helper whose name is unbound; otherwise, and always when both names are bound, it replies as the corrected handler |
| NotesnookActions.StoringRaisesAsWritten | backend/apps/webui/functions/notesnook_actions.py:208-374 | as written, a titled save, a confirmed task list, entered tags and a markdown, text or json export each raise `NameError` |
| NotesnookActions.OnlyNoTasksNoticeAsWritten | backend/apps/webui/functions/notesnook_actions.py:113-170 | as written, the only notice `handler` can return is "No tasks found in this message", for a message without tasks |
| NotesnookActions.OnlyCsvExportAsWritten | backend/apps/webui/functions/notesnook_actions.py:187-374 | as written, an export that succeeds shows the CSV text |
| ThinkingClaude.FirstSystem | backend/apps/webui/functions/thinking_claude.py:37-42 | the loop with `break` stops at the first system message, or finds none |
| ThinkingClaude.WithPrompt | backend/apps/webui/functions/thinking_claude.py:36-48 | only the first system message gets "\n\n" and the prompt, with the length unchanged; with no system message one is put at index 0 |
| ThinkingClaude.WithPromptFirstSystem | backend/apps/webui/functions/thinking_claude.py:36-48 | after `inlet` the first system message is the one holding the prompt |
| ThinkingClaude.WithPromptNotIdempotent | backend/apps/webui/functions/thinking_claude.py:38-41 | a second `inlet` appends the prompt again |
| ThinkingClaude.Rewrite | backend/apps/webui/functions/thinking_claude.py:68-83 | the text before the first `<thinking>` and after the first `</thinking>` is kept |
| ThinkingClaude.RewriteWellFormed | backend/apps/webui/functions/thinking_claude.py:68-83 | for a reply `pre <thinking> x </thinking> post` where neither `pre` nor `x` holds either tag, the rewrite keeps `pre` and `post` and the block holds exactly `x` |
| ThinkingClaude.UntaggedOf | backend/apps/webui/functions/thinking_claude.py:78 | the block holds the section's text without either tag |
| ThinkingClaude.RewriteClosingFirst | backend/apps/webui/functions/thinking_claude.py:68-83 | when `</thinking>` comes first, the block is empty and the text between the tags is kept twice |
| ThinkingClaude.WithThinkingBlock | backend/apps/webui/functions/thinking_claude.py:62-84 | only an assistant last message holding both tags is rewritten; every other message is unchanged |
| ThinkingClaude.ThinkingFilter.constructor | backend/apps/webui/functions/thinking_claude.py:11-17 | the valves' defaults |
| ThinkingClaude.ThinkingFilter.Inlet | backend/apps/webui/functions/thinking_claude.py:19-50 | disabled or empty leaves the messages unchanged; otherwise the prompt is added |
| ThinkingClaude.ThinkingFilter.Outlet | backend/apps/webui/functions/thinking_claude.py:52-86 | disabled or empty leaves the messages unchanged; otherwise the thinking section of the last message is folded |
| AdaptiveMemory.Lookup | backend/apps/webui/functions/adaptive_memory.py:51 | a key is absent exactly when it is not among the dict's keys |
| AdaptiveMemory.PutLookup | backend/apps/webui/functions/adaptive_memory.py:89 | after the assignment the key maps to the value and every other key keeps its value |
| AdaptiveMemory.PutKeys | backend/apps/webui/functions/adaptive_memory.py:89 | the assignment keeps the key order and adds a new key last |
| AdaptiveMemory.Get | backend/apps/webui/functions/adaptive_memory.py:51 | an unknown user has no facts |
| AdaptiveMemory.MemoryContext | backend/apps/webui/functions/adaptive_memory.py:55-57 | the context starts with the header |
| AdaptiveMemory.MemoryContextFirstFive | backend/apps/webui/functions/adaptive_memory.py:56 | facts after the first five in insertion order never reach the context, despite the "Last 5" comment |
| AdaptiveMemory.LinesOf | backend/apps/webui/functions/adaptive_memory.py:56-57 | every shown fact has its own `- key: value` line, in order |
| AdaptiveMemory.BuildMemoryContext | backend/apps/webui/functions/adaptive_memory.py:55-57 | the `+=` loop builds the context |
| AdaptiveMemory.InletMessages | backend/apps/webui/functions/adaptive_memory.py:40-65 | exactly one system message holding the context is put at index 0, if and only if the filter is on, there are messages and the user has facts; otherwise nothing changes |
| AdaptiveMemory.ScanName | backend/apps/webui/functions/adaptive_memory.py:85-86 | a name is looked for exactly when the lower-cased text holds "my name is"; a name found is one non-empty word |
| AdaptiveMemory.ScanNameIgnoringCase | backend/apps/webui/functions/adaptive_memory.py:85-86 | the reference reading of the same test and split, both ignoring case |
| AdaptiveMemory.ScanNameAgrees | backend/apps/webui/functions/adaptive_memory.py:85-86 | the two readings agree whenever the first match is written in lower case |
| AdaptiveMemory.CapitalisedPhraseStoresMy | backend/apps/webui/functions/adaptive_memory.py:85-86 | "My name is Al" is remembered as "My", because the split is case-sensitive |
| AdaptiveMemory.CapitalisedPhraseIgnoringCase | backend/apps/webui/functions/adaptive_memory.py:85-86 | the reference reading gives "Al" for it |
| AdaptiveMemory.PhraseAtEndRaises | backend/apps/webui/functions/adaptive_memory.py:86 | a message ending at its first "my name is" raises IndexError and stores nothing |
| AdaptiveMemory.LearnOne | backend/apps/webui/functions/adaptive_memory.py:81-90 | an error leaves the memory as it was |
| AdaptiveMemory.LearnStopsAtError | backend/apps/webui/functions/adaptive_memory.py:80-90 | after an IndexError the later messages are never looked at |
| AdaptiveMemory.OutletMemory | backend/apps/webui/functions/adaptive_memory.py:67-92 | disabled or empty changes nothing and raises nothing |
| AdaptiveMemory.LearnOtherUsers | backend/apps/webui/functions/adaptive_memory.py:87-89 | other users' facts are untouched |
| AdaptiveMemory.LearnOtherKeys | backend/apps/webui/functions/adaptive_memory.py:89 | no key of the user but "name" changes |
| AdaptiveMemory.LearnNothing | backend/apps/webui/functions/adaptive_memory.py:80-85 | messages naming nobody leave the memory as it was |
| AdaptiveMemory.LearnLastName | backend/apps/webui/functions/adaptive_memory.py:80-89 | the last naming user message wins |
| AdaptiveMemory.MemoryFilter.constructor | backend/apps/webui/functions/adaptive_memory.py:14-17 | the filter is on and holds the loaded memory |
| AdaptiveMemory.MemoryFilter.Inlet | backend/apps/webui/functions/adaptive_memory.py:40-65 | the messages become the inlet's message list |
| AdaptiveMemory.MemoryFilter.Outlet | backend/apps/webui/functions/adaptive_memory.py:67-92 | the memory learns from the last five messages, or keeps what was learnt before the IndexError it reports |
| MindX.Signed | backend/apps/webui/functions/mindx_function.py:95-98 | the content is either unchanged or gets the signature once at the end |
| MindX.Enhance | backend/apps/webui/functions/mindx_function.py:95-102 | after both steps the content is the signed content, possibly followed by the insight |
| MindX.UserReply | backend/apps/webui/functions/mindx_function.py:24-88 | a canned assistant answer exists if and only if the message asks about MindX or its capabilities |
| MindX.Handle | backend/apps/webui/functions/mindx_function.py:17-106 | the length and every message but the last are kept; empty or non-assistant lists are unchanged; a fresh body comes back exactly for an answered user question |
| MindX.SignatureAppendedIff | backend/apps/webui/functions/mindx_function.py:95-98 | the signature is appended if and only if the reply names a keyword or exceeds 1500 characters and lacks the signature |
| MindX.LongSignedNamesMindX | backend/apps/webui/functions/mindx_function.py:96-101 | a signed reply over 2000 characters carries the signature and so names MindX |
| MindX.InsightNeverAppended | backend/apps/webui/functions/mindx_function.py:100-102 | the insight branch is dead: enhancing never adds it |
| MindX.EnhanceIdempotent | backend/apps/webui/functions/mindx_function.py:91-104 | enhancing twice is the same as once |
| MindX.InfoBeforeCapabilities | backend/apps/webui/functions/mindx_function.py:28-58 | an info question wins over a capabilities question |
| MindX.CapabilitiesAnswer | backend/apps/webui/functions/mindx_function.py:58-88 | a capabilities question that does not ask about MindX gets the capabilities answer |
| MindX.AssistantSigned | backend/apps/webui/functions/mindx_function.py:91-106 | an assistant reply is signed in place and the same body is returned |
| MindX.HandleIdempotent | backend/apps/webui/functions/mindx_function.py:17-106 | handling the resulting messages again changes nothing |
| MindX.Handler | backend/apps/webui/functions/mindx_function.py:7-106 | the handler computes that reply and message list |
| Preview.Entries | backend/apps/webui/functions/notesnook_complete_filter.py:140-146 | at most one entry per message |
| Preview.EntryShape | backend/apps/webui/functions/notesnook_complete_filter.py:141-146 | an entry is the title-cased role in bold, then at most 500 characters of content with tag spans removed |
| Preview.Shown500 | backend/apps/webui/functions/notesnook_complete_filter.py:175 | the shown preview is the first 500 characters followed by "...", always |
| Preview.SavePageShowsPreview | backend/apps/webui/functions/notesnook_complete_filter.py:150-177 | the save page contains that preview |
| Preview.BuildConversationText | backend/apps/webui/functions/notesnook_complete_filter.py:139-148 | the loop over the last 10 messages and the join by the four characters `\n\n` build the conversation text |
| Preview.OlderMessagesIgnored | backend/apps/webui/functions/notesnook_complete_filter.py:140 | messages older than the last 10 have no influence |
| Preview.EntriesSnoc | backend/apps/webui/functions/notesnook_complete_filter.py:143-146 | messages with an empty role or empty cut content add no entry |
| NotesnookCompleteFilter.InletMessages | backend/apps/webui/functions/notesnook_complete_filter.py:36-185 | the length and all but the last message are kept; a change happens only when enabled and puts an assistant message last; disabled or empty is unchanged |
| NotesnookCompleteFilter.OpenBeforeSave | backend/apps/webui/functions/notesnook_complete_filter.py:60-134 | an open trigger puts the notes page in place of the last message, whatever save phrase it also holds |
| NotesnookCompleteFilter.SaveShowsPreview | backend/apps/webui/functions/notesnook_complete_filter.py:137-183 | a save phrase alone puts the save page showing the preview in place of the last message |
| NotesnookCompleteFilter.NoTriggerUnchanged | backend/apps/webui/functions/notesnook_complete_filter.py:185 | without trigger or save phrase the messages are unchanged |
| NotesnookCompleteFilter.PreviewEndsWithTrigger | backend/apps/webui/functions/notesnook_complete_filter.py:140-146 | the trigger message itself is the last entry of the preview |
| NotesnookCompleteFilter.CompleteFilter.constructor | backend/apps/webui/functions/notesnook_complete_filter.py:31-34 | the filter is on |
| NotesnookCompleteFilter.CompleteFilter.Inlet | backend/apps/webui/functions/notesnook_complete_filter.py:36-185 | the messages become the inlet's message list |
| NotesnookCompleteFilter.CompleteFilter.Outlet | backend/apps/webui/functions/notesnook_complete_filter.py:187-192 | the body is returned as it is |
| NotesnookCompleteClass.Choose | backend/apps/webui/functions/notesnook_complete_class.py:28-158 | no messages echoes the user message; the save answer carries the conversation text of the messages |
| NotesnookCompleteClass.OpenBeforeSave | backend/apps/webui/functions/notesnook_complete_class.py:41-114 | an open trigger gives the notes page, whatever save phrase it also holds |
| NotesnookCompleteClass.DispatchOnUserMessage | backend/apps/webui/functions/notesnook_complete_class.py:32-41 | which kind of answer is chosen depends on the user message alone, not on the message list |
| NotesnookCompleteClass.SaveShowsPreview | backend/apps/webui/functions/notesnook_complete_class.py:114-156 | the save page shows the preview cut at 500 characters |
| NotesnookCompleteClass.Pipe | backend/apps/webui/functions/notesnook_complete_class.py:20-158 | `pipe` returns the rendered answer and changes nothing it is given |
| NotesnookIntegration.Prefill | backend/apps/webui/functions/notesnook_integration.py:30-34 | the prefill is stripped and no longer than the message |
| NotesnookIntegration.PrefillPrefersNoteThis | backend/apps/webui/functions/notesnook_integration.py:31-32 | with "note this:" present the prefill is the stripped text after its first occurrence |
| NotesnookIntegration.NoPrefillBareUrl | backend/apps/webui/functions/notesnook_integration.py:30-34 | with neither prefix the frame shows the bare notes URL |
| NotesnookIntegration.UrlChoice | backend/apps/webui/functions/notesnook_integration.py:37-40 | the tailnet URL is used if and only if the base URL contains "https://", localhost:3001 otherwise |
| NotesnookIntegration.Handle | backend/apps/webui/functions/notesnook_integration.py:11-126 | empty returns the body; a fresh assistant message comes back if and only if there is an open trigger or a save phrase |
| NotesnookIntegration.OpenBeforeSave | backend/apps/webui/functions/notesnook_integration.py:28-78 | an open trigger gives the notes page with the prefill, whatever save phrase it also holds |
| NotesnookIntegration.SaveRequestPage | backend/apps/webui/functions/notesnook_integration.py:81-124 | a save phrase alone gives the save page, whose frame URL carries the quoted first 1000 characters of the conversation text |
| NotesnookIntegration.LinesSnoc | backend/apps/webui/functions/notesnook_integration.py:84-91 | only user and assistant messages with non-empty cut content add a line |
| NotesnookIntegration.OlderMessagesIgnored | backend/apps/webui/functions/notesnook_integration.py:84 | messages older than the last 10 have no influence |
| NotesnookIntegration.SaveSrcCarriesFirst1000 | backend/apps/webui/functions/notesnook_integration.py:94-107 | text past the first 1000 characters never reaches the URL, and unquoting the URL's content gives those 1000 characters back |
| NotesnookIntegration.BuildConversationText | backend/apps/webui/functions/notesnook_integration.py:83-91 | the `+=` loop builds the conversation text |
| NotesnookIntegration.Handler | backend/apps/webui/functions/notesnook_integration.py:11-126 | the handler with its loop computes that reply |
| Url.Utf8RoundTrip | backend/apps/webui/functions/notesnook_integration.py:95 | UTF-8 decoding undoes the encoding `quote` starts with |
| Url.QuoteRoundTrip | backend/apps/webui/functions/notesnook_integration.py:95 | unquoting the quoted text gives the text back, non-ASCII included |
| Url.QuoteBytesAlphabet | backend/apps/webui/functions/notesnook_integration.py:95 | the quoted text uses only unreserved characters, `%` and hex digits |
| Url.QuoteUnreserved | backend/apps/webui/functions/notesnook_integration.py:95 | text of unreserved ASCII characters is left as it is |
| NotesnookOptimal.NoteId | backend/apps/webui/functions/notesnook_optimal.py:221 | the id has at most 8 characters |
| NotesnookOptimal.Handle | backend/apps/webui/functions/notesnook_optimal.py:6-235 | no messages key returns the body; IndexError is raised exactly for an empty list; a fresh message comes back exactly for an open trigger, or a save phrase with a previous answer |
| NotesnookOptimal.OpenBeforeSave | backend/apps/webui/functions/notesnook_optimal.py:22-196 | an open trigger gives the editor page, whatever save phrase it also holds |
| NotesnookOptimal.SavedNoteKeepsWholeContent | backend/apps/webui/functions/notesnook_optimal.py:213-232 | the saved note shows the first 100 characters and stores the whole previous answer |
| NotesnookOptimal.SaveTakesPreviousAnswer | backend/apps/webui/functions/notesnook_optimal.py:199-233 | the note is made from an assistant message before the last with no assistant message after it, that is the most recent one |
| NotesnookOptimal.SaveWithoutAnswerReturnsBody | backend/apps/webui/functions/notesnook_optimal.py:207-235 | with no earlier assistant message the body is returned |
| NotesnookOptimal.SaveEmptyAnswerReturnsBody | backend/apps/webui/functions/notesnook_optimal.py:207-235 | when the most recent earlier assistant message is empty the body is returned |
| NotesnookOptimal.Handler | backend/apps/webui/functions/notesnook_optimal.py:6-235 | the handler with its backward loop computes that reply |
| Omi.Answer | backend/apps/webui/functions/omi_mcp_integration_fixed.py:68-199 | there is an answer if and only if the message holds a trigger, "save to omi" or "search memories:" |
| Omi.InletMessages | backend/apps/webui/functions/omi_mcp_integration_fixed.py:43-201 | the length and all but the last message are kept; a change happens only when enabled and puts an assistant message last; disabled is unchanged |
| Omi.SearchUnreachable | backend/apps/webui/functions/omi_mcp_integration_fixed.py:174 | a search request always gets the OMI page, since "search memories" is itself a trigger (line 64) |
| Omi.SaveContentAfterPrefix | backend/apps/webui/functions/omi_mcp_integration_fixed.py:136 | with "save to omi:" present the content is the stripped text after it |
| Omi.SaveContentWithoutPrefix | backend/apps/webui/functions/omi_mcp_integration_fixed.py:136 | without that prefix the content is the whole message stripped when it has a `:`, and empty otherwise |
| Omi.PreviewShowsStart | backend/apps/webui/functions/omi_mcp_integration_fixed.py:163 | the page shows the first 300 characters, with "..." if and only if the content is longer |
| Omi.SaveReplacesLast | backend/apps/webui/functions/omi_mcp_integration_fixed.py:135-171 | a save request puts the save page in place of the last message |
| Omi.OmiFilter.constructor | backend/apps/webui/functions/omi_mcp_integration_fixed.py:21-41 | the valves' defaults |
| Omi.OmiFilter.Inlet | backend/apps/webui/functions/omi_mcp_integration_fixed.py:43-201 | the messages become the inlet's message list |
| Omi.OmiFilter.Outlet | backend/apps/webui/functions/omi_mcp_integration_fixed.py:203-208 | the body is returned as it is |
| Dashboard.InletMessages | backend/apps/webui/functions/dashboard_filter.py:33-100 | the length and all but the last message are kept; a change happens only when enabled with a trigger, and then the command list is last |
| Dashboard.CaseInsensitive | backend/apps/webui/functions/dashboard_filter.py:44-49 | messages equal up to case trigger alike, and the earlier messages are kept |
| Dashboard.DashboardFilter.constructor | backend/apps/webui/functions/dashboard_filter.py:21-31 | the filter is on |
| Dashboard.DashboardFilter.Inlet | backend/apps/webui/functions/dashboard_filter.py:33-100 | the messages become the inlet's message list |
| Dashboard.DashboardFilter.Outlet | backend/apps/webui/functions/dashboard_filter.py:102-104 | the body is returned as it is |
| WebuiDashboard.InletMessages | backend/apps/webui/functions/openwebui_dashboard.py:17-78 | either unchanged or one assistant message appended, the latter if and only if enabled with a trigger |
| WebuiDashboard.CommandsShared | backend/apps/webui/functions/openwebui_dashboard.py:29 | every message that opens this dashboard would also open the MindX one |
| WebuiDashboard.WebuiDashboardFilter.constructor | backend/apps/webui/functions/openwebui_dashboard.py:11-15 | the filter is on |
| WebuiDashboard.WebuiDashboardFilter.Inlet | backend/apps/webui/functions/openwebui_dashboard.py:17-78 | the messages become the inlet's message list |
| WebuiDashboard.WebuiDashboardFilter.Outlet | backend/apps/webui/functions/openwebui_dashboard.py:80-81 | the body is returned as it is |
| TestSimple.InletMessages | backend/apps/webui/functions/test_simple.py:11-18 | either unchanged or the confirmation appended, the latter if and only if there are messages and the last one mentions "test" |
| TestSimple.CapitalisedTestMentionsTest | backend/apps/webui/functions/test_simple.py:13 | "Test" in any message is found by the lower-cased test |
| TestSimple.ConfirmationMentionsTest | backend/apps/webui/functions/test_simple.py:13-16 | the confirmation itself mentions "test" |
| TestSimple.InletRepeats | backend/apps/webui/functions/test_simple.py:13-16 | `inlet` is not idempotent: each pass appends the confirmation again |
| TestSimple.TestFilter.Inlet | backend/apps/webui/functions/test_simple.py:11-18 | the messages become the inlet's message list |
| TestSimple.TestFilter.Outlet | backend/apps/webui/functions/test_simple.py:20-21 | the body is returned as it is |

## Left out

- Fixed page text: every fixed text over 200 characters is a stand-in made of its first line, heading line and last line. This covers the HTML pages, the JARVIS script page, the editor page and the two MindX canned answers. Properties of the middle of those texts are not stated. Texts of 200 characters or less, and every part built from the input, are exact.
- Clock and hashes: `datetime.now()` stamps, the `Date.now()` id, ISO time stamps and MD5 digests are parameters of the functions that use them. The two ISO readings of a new JARVIS note (`created` and `updated`) are separate parameters.
- NotesnookActions.ExportContent: the markdown, text and json branches depend on the clock, and on `datetime`, which is not imported at module scope. They are `None`; only the CSV branch is modelled.
- The SQLite helpers `save_note_to_db`, `save_task_to_db` and `save_tags` of notesnook_actions.py are storage I/O. Their writes are left out; only the module-level name each looks up first is modelled (`NotesnookActions.HelperGlobal`).
- NotesnookActions.Handle: models the handler with `datetime` and `hashlib` available to its helpers. As written those helpers raise `NameError` first (see Findings and `NotesnookActions.HandleAsWritten`). The markdown, text and json exports carry a timestamp and are not modelled (`None`).
- SavedNoteNotice: states the corrected handler's save notice. As written, `save_note_to_db` raises `NameError` for `datetime` before it (see Findings).
- CreatedTasksNotice: states the corrected handler's task notice. As written, `save_task_to_db` raises `NameError` for `datetime` before it (see Findings).
- TagsNotice: states the corrected handler's tags notice. As written, `save_tags` raises `NameError` for `hashlib` before it (see Findings).
- NotesnookActions.Handle: the `__event_call__` dialogue is not modelled. Its answers (title, notebook, confirmation, tags, format) are inputs, and the notifications it shows are left out.
- File loading and saving of adaptive_memory.py (lines 24-38) is left out. The memory is the constructor's argument, and a save that fails is ignored as in the source.
- The `print` logging in the filters is left out.
- DOM, `localStorage`, `postMessage`, timers, `showSaveIndicator`, `autoSave`, `loadRecentNotes` HTML, `showAIInsight` rendering and `exportNotes` in the JARVIS script are left out. The notes array is a sequence field of a class.
- The scripts that notesnook_optimal.py and jarvis_notes_final.py ship to store a saved answer in the browser run there, not in the model. Only their text is modelled, and fixed stretches of it over 200 characters are represented by their first and last lines.
- Case mapping is ASCII only: Python's and JavaScript's Unicode `lower` and `upper` are not modelled, nor are a Unicode `\w` and `\d`: digits are the ASCII `0`-`9` only, so a line numbered with other decimal digits is not a listed item in the model.
- Whitespace is the six characters space, `\t`, `\n`, `\r`, `\v` and `\f`. Python's `split`, `strip` and `\s` also count `\x1c` to `\x1f`, `\x85` and the Unicode spaces, and JavaScript's `\s` the Unicode spaces; text holding those is split and stripped differently in the model.
- Lengths count Unicode scalar values, as Python does. JavaScript's UTF-16 lengths differ for characters outside the basic plane.
- JavaScript objects used as maps (`wordFreq`) are modelled as maps. Keys that clash with `Object.prototype` names are not modelled.
- The note-intent confidence `min(note_score * 0.3, 1.0) > 0.6` is a float test. It is modelled as `note_score >= 3`, which it equals for every count.
- Similarity and summary scores are exact rationals, not doubles. Rounding that could reorder near-equal doubles is not modelled.
- `Math.round(score * 100)` in the related-notes display is not modelled.
- A missing message key ("role", "content") is read as the empty string, as `.get(key, "")` does.
- ThinkingClaude.WithPrompt: thinking_claude.py:40 reads the first system message's content by subscript, `msg["content"]`, the one such read in these plugins. A system message without a "content" key makes `inlet` raise `KeyError` there; the model reads the missing key as the empty string and appends the prompt to it.
- Content values that are not strings are not modelled.
- Unused configuration is not modelled: `show_thinking` (thinking_claude.py:15), `max_memories` (adaptive_memory.py:21), `priority` and the `UserValves` of the complete and OMI filters, `priority` (dashboard_filter.py:18) and `UserValves.show_commands` (dashboard_filter.py:25-28) of the dashboard filter, and the `memory_file` name.
- Memory values other than strings are not modelled.
- Url.Unquote: it is a strict decoder that accepts exactly what `quote` can produce. Python's `unquote` also accepts malformed escapes and replaces bad UTF-8. The round trip is stated for quoted text only.
- The OMI search branch (omi_mcp_integration_fixed.py:173-199) is kept in the model and shown unreachable.
- The notesnook_integration prefill goes into the frame URL without percent-encoding, as written (line 50).
- The CSV f-string at notesnook_actions.py:373 uses backslashes inside braces, which Python accepts from 3.12 on. The model follows its evident meaning.
- The network plugins are left out: live_web_search.py, n8n_integration.py and anthropic_pipe.py. They are HTTP clients.
- data_visualization.py is left out. It is a wrapper over a plotting library.
- Full regular-expression semantics are not modelled. Each pattern the plugins use has its own scanner.

## Findings

| source | as written | input that shows it | evidently intended | confidence | as-written member | corrected member |
|---|---|---|---|---|---|---|
| backend/apps/webui/functions/notesnook_filter.py:101-121 | `re` is imported inside `handler` only (line 11), so the module-level `extract_action_items` raises `NameError` at its first `re.findall`. Every assistant turn of `handler` calls it (line 79), so every assistant turn fails. | any assistant message, e.g. content "Hello" | the action items of the text, using `re` | not executed | NotesnookFilter.ActionItemsRaiseAsWritten | NotesnookFilter.ExtractActionItems |
| backend/apps/webui/functions/notesnook_filter.py:163 | `datetime` is also imported inside `handler` only (line 12). Even with `re` available, `generate_title`'s last fallback raises `NameError`. | text "" (no usable line, empty first sentence) | the dated title "Note from <date>" | not executed | NotesnookFilter.TitleFallbackRaisesAsWritten | NotesnookFilter.GenerateTitle |
| backend/apps/webui/functions/notesnook_actions.py:233-268 | `datetime` is imported inside `handler` only (line 12). `save_note_to_db` and `save_task_to_db` call `datetime.now()`, so a titled save and a confirmed task list raise `NameError` instead of returning their notices. `save_task_to_db` also connects to SQLite (line 252) without creating the directory first, so on a fresh home it may raise `sqlite3.OperationalError` before that; it raises either way. | action "save_note" with title "a"; action "create_task" on content "- buy milk now" with the confirmation given | the notices "✅ Note saved: …" and "✅ Created <n> tasks" | not executed | NotesnookActions.StoringRaisesAsWritten | NotesnookActions.Handle |
| backend/apps/webui/functions/notesnook_actions.py:293 | `save_tags` imports only `Path` and `sqlite3`, and `hashlib` is local to `handler` (line 11), so entered tags raise `NameError`. It also connects to SQLite (line 280) without creating the directory first, so on a fresh home it may raise `sqlite3.OperationalError` before that; it raises either way. | action "add_tags" with tags "x" | the notice "Added tags: 🏷️ x" | not executed | NotesnookActions.StoringRaisesAsWritten | NotesnookActions.Handle |
| backend/apps/webui/functions/notesnook_actions.py:340-364 | `export_content` uses `datetime` for the markdown, text and json formats, so only the CSV export succeeds. | action "export_note" answered with format "markdown" | the timestamped markdown export | not executed | NotesnookActions.OnlyCsvExportAsWritten | NotesnookActions.Handle |

=== FILE: chat.dfy ===
/**
 * The chat host's data: messages, the request body whose "messages" list the filters change in
 * place, the `__user__` argument, and lookups over the message list that several plugins share.
 */
module Chat {
  import opened Wrappers
  import opened Text

  /**
   * A message dict. A missing "role" or "content" key is modelled as the empty string, which is
   * what `msg.get(key, "")` gives and which no trigger or role test accepts.
   */
  datatype Message = Message(role: string, content: string)

  /** A request body: the dict holding the "messages" list that a filter may change in place. */
  class Body {
    var messages: seq<Message>

    constructor (ms: seq<Message>)
      ensures messages == ms
    {
      messages := ms;
    }
  }

  /** The `__user__` dict: `None` stands for a falsy argument (`None` or `{}`). */
  datatype User = User(id: Option<string>)

  /** `__user__.get("id", "default") if __user__ else "default"`. */
  function UserId(user: Option<User>): (uid: string)
    ensures user.None? ==> uid == "default"
    ensures user.Some? && user.value.id.None? ==> uid == "default"
    ensures user.Some? && user.value.id.Some? ==> uid == user.value.id.value
  {
    match user
    case None => "default"
    case Some(u) => match u.id case None => "default" case Some(id) => id
  }

  /** The lower-cased content of the last message: `messages[-1].get("content", "").lower()`. */
  function LastContentLower(ms: seq<Message>): (r: string)
    requires ms != []
    ensures |r| == |ms[|ms| - 1].content| && IsLowerCase(r)
  {
    LowerStr(ms[|ms| - 1].content)
  }

  /** `messages[-1] = m`: the last message replaced, everything before it kept. */
  function ReplaceLast(ms: seq<Message>, m: Message): (r: seq<Message>)
    requires ms != []
    ensures |r| == |ms| && r[|r| - 1] == m
    ensures r[..|r| - 1] == ms[..|ms| - 1]
  {
    ms[..|ms| - 1] + [m]
  }

  /** `messages[-n:]`: the last `n` messages, or all of them when there are fewer. */
  function LastN(ms: seq<Message>, n: nat): (r: seq<Message>)
    ensures |r| == if |ms| < n then |ms| else n
    ensures r == ms[|ms| - |r|..]
  {
    if |ms| <= n then ms else ms[|ms| - n..]
  }

  /** The index of the most recent assistant message among the first `n` messages. */
  function LastAssistantBelow(ms: seq<Message>, n: nat): (r: Option<nat>)
    requires n <= |ms|
    ensures r.Some? ==> r.value < n && ms[r.value].role == "assistant"
    ensures r.Some? ==> forall j :: r.value < j < n ==> ms[j].role != "assistant"
    ensures r.None? ==> forall j :: 0 <= j < n ==> ms[j].role != "assistant"
    decreases n
  {
    if n == 0 then None
    else if ms[n - 1].role == "assistant" then Some(n - 1)
    else LastAssistantBelow(ms, n - 1)
  }

  /**
   * The content of the most recent assistant message strictly before the last message, or ""
   * when there is none: the `for msg in reversed(messages[:-1])` loop that breaks at the first
   * assistant message.
   */
  function PreviousAssistantContent(ms: seq<Message>): (r: string)
    ensures r != "" ==> exists k :: (0 <= k < |ms| - 1 && ms[k].role == "assistant" && ms[k].content == r
      && forall j :: k < j < |ms| - 1 ==> ms[j].role != "assistant")
    ensures ms != [] && LastAssistantBelow(ms, |ms| - 1).Some? ==>
      r == ms[LastAssistantBelow(ms, |ms| - 1).value].content
    ensures (ms == [] || LastAssistantBelow(ms, |ms| - 1).None?) ==> r == ""
  {
    if ms == [] then ""
    else match LastAssistantBelow(ms, |ms| - 1)
      case Some(k) => ms[k].content
      case None => ""
  }

  /** The backward search itself, proved to find the message `PreviousAssistantContent` names. */
  method FindPreviousAssistant(ms: seq<Message>) returns (content: string)
    ensures content == PreviousAssistantContent(ms)
  {
    content := "";
    if ms == [] {
      return;
    }
    var i := |ms| - 1;
    while i > 0
      invariant 0 <= i <= |ms| - 1
      invariant forall j :: i <= j < |ms| - 1 ==> ms[j].role != "assistant"
      invariant content == ""
    {
      if ms[i - 1].role == "assistant" {
        content := ms[i - 1].content;
        LastAssistantFound(ms, |ms| - 1, i - 1);
        return;
      }
      i := i - 1;
    }
    LastAssistantAbsent(ms, |ms| - 1);
  }

  /** The search below `n` stops at `k` when `k` is an assistant message and none follows it below `n`. */
  lemma {:induction false} LastAssistantFound(ms: seq<Message>, n: nat, k: nat)
    requires k < n <= |ms| && ms[k].role == "assistant"
    requires forall j :: k < j < n ==> ms[j].role != "assistant"
    ensures LastAssistantBelow(ms, n) == Some(k)
    decreases n
  {
    if n - 1 != k {
      LastAssistantFound(ms, n - 1, k);
    }
  }

  lemma {:induction false} LastAssistantAbsent(ms: seq<Message>, n: nat)
    requires n <= |ms|
    requires forall j :: 0 <= j < n ==> ms[j].role != "assistant"
    ensures LastAssistantBelow(ms, n) == None
    decreases n
  {
    if n > 0 {
      LastAssistantAbsent(ms, n - 1);
    }
  }
}

=== FILE: dashboard.dfy ===
/** The MindX dashboard filter (dashboard_filter.py): a command replaces the last message by the command list. */
module Dashboard {
  import opened Text
  import opened Chat

  const Triggers: seq<string> := ["/dashboard", "/help", "/commands", "/tools", "show commands"]

  /** The command list, represented by its first line and its last line around an ellipsis. */
  const CommandCenter: string :=
    "# \U{1F3AF} MindX Command Center\n\U{2026}\n*MindX Dashboard v1.0 - Type any command to get started!*"

  predicate Asks(ms: seq<Message>) {
    ms != [] && ContainsAny(LastContentLower(ms), Triggers)
  }

  /** The message list after `inlet`: the last message replaced by the command list on a command. */
  function InletMessages(enabled: bool, ms: seq<Message>): (r: seq<Message>)
    ensures |r| == |ms|
    ensures ms != [] ==> r[..|r| - 1] == ms[..|ms| - 1]
    ensures r != ms ==> enabled && Asks(ms)
    ensures enabled && Asks(ms) ==> r[|r| - 1] == Message("assistant", CommandCenter)
  {
    if enabled && Asks(ms) then ReplaceLast(ms, Message("assistant", CommandCenter)) else ms
  }

  /** Commands are matched case-insensitively: only the lower-cased last message matters. */
  lemma CaseInsensitive(prefix: seq<Message>, m1: Message, m2: Message)
    requires LowerStr(m1.content) == LowerStr(m2.content)
    ensures Asks(prefix + [m1]) <==> Asks(prefix + [m2])
    ensures InletMessages(true, prefix + [m1])[..|prefix|] == InletMessages(true, prefix + [m2])[..|prefix|] == prefix
  {
    assert LastContentLower(prefix + [m1]) == LowerStr(m1.content);
    assert LastContentLower(prefix + [m2]) == LowerStr(m2.content);
    assert (prefix + [m1])[..|prefix|] == prefix == (prefix + [m2])[..|prefix|];
  }

  /** The filter with its `enabled` valve. */
  class DashboardFilter {
    var enabled: bool

    constructor ()
      ensures enabled
    {
      enabled := true;
    }

    /** `inlet`: the command list put in place of the last message of the body's own list. */
    method Inlet(body: Body)
      modifies body`messages
      ensures body.messages == InletMessages(enabled, old(body.messages))
    {
      var ms := body.messages;
      if !enabled || ms == [] {
        return;
      }
      var lower := LastContentLower(ms);
      if ContainsAny(lower, Triggers) {
        body.messages := ReplaceLast(ms, Message("assistant", CommandCenter));
      }
    }

    /** `outlet` of dashboard_filter.py (lines 102-104): an identity, `return body`. */
    method Outlet(body: Body) returns (r: Body)
      ensures r == body
    {
      return body;
    }
  }
}

=== FILE: jarvis_notes.dfy ===
/**
 * JARVIS Notes (jarvis_notes_final.py): the browser-side note logic that the handler ships as a
 * script (tags, word count, summary, similarity, related notes, task extraction and the upsert of
 * `saveNote`), and the Python handler that answers "open notes" and "save this".
 *
 * The script's regexes are written inside a Python string, so `\\s` in the file is `\s` in the
 * browser.
 */
module JarvisNotes {
  import opened Wrappers
  import opened Text
  import opened Scan
  import opened Seqs
  import opened Ranking
  import opened Chat

  // ---------------------------------------------------------------------------
  // extractTags
  // ---------------------------------------------------------------------------

  const TagKeywords: seq<string> := ["todo", "important", "idea", "meeting", "project"]

  /** `'#' + keyword` for each keyword of `kws` that occurs in `text`, in list order. */
  function KeywordTags(text: string, kws: seq<string>): (r: seq<string>)
    ensures |r| <= |kws|
    decreases |kws|
  {
    if kws == [] then []
    else (if Contains(text, kws[0]) then ["#" + kws[0]] else []) + KeywordTags(text, kws[1..])
  }

  /** A keyword tag is present exactly when its keyword occurs. */
  lemma {:induction false} KeywordTagsMember(text: string, kws: seq<string>, t: string)
    ensures t in KeywordTags(text, kws) <==> exists j :: 0 <= j < |kws| && t == "#" + kws[j] && Contains(text, kws[j])
    decreases |kws|
  {
    if kws != [] {
      KeywordTagsMember(text, kws[1..], t);
      if exists j :: 0 <= j < |kws| && t == "#" + kws[j] && Contains(text, kws[j]) {
        var j :| 0 <= j < |kws| && t == "#" + kws[j] && Contains(text, kws[j]);
        if j > 0 {
          assert kws[1..][j - 1] == kws[j];
        }
      }
    }
  }

  /** `extractTags`: the hashtags of the lower-cased text, then the keyword tags, each once. */
  function ExtractTags(content: string): (r: seq<string>)
    ensures NoDup(r)
  {
    var text := LowerStr(content);
    var all := Hashtags(text) + KeywordTags(text, TagKeywords);
    DistinctProps(all);
    Distinct(all)
  }

  /** The hashtags come first, in text order, before any keyword tag. */
  lemma ExtractTagsHashtagsFirst(content: string)
    ensures Distinct(Hashtags(LowerStr(content))) <= ExtractTags(content)
  {
    var text := LowerStr(content);
    DistinctPrefix(Hashtags(text), KeywordTags(text, TagKeywords));
  }

  /** `'#' + keyword` is a tag exactly when the keyword occurs in the lower-cased text. */
  lemma ExtractTagsKeyword(content: string, j: nat)
    requires j < |TagKeywords|
    ensures "#" + TagKeywords[j] in ExtractTags(content) <==> Contains(LowerStr(content), TagKeywords[j])
  {
    if Contains(LowerStr(content), TagKeywords[j]) {
      KeywordPresentTagged(content, j);
    }
    if "#" + TagKeywords[j] in ExtractTags(content) {
      TaggedKeywordPresent(content, TagKeywords[j]);
    }
  }

  lemma KeywordPresentTagged(content: string, j: nat)
    requires j < |TagKeywords| && Contains(LowerStr(content), TagKeywords[j])
    ensures "#" + TagKeywords[j] in ExtractTags(content)
  {
    var text := LowerStr(content);
    var hs := Hashtags(text);
    var ks := KeywordTags(text, TagKeywords);
    KeywordTagsMember(text, TagKeywords, "#" + TagKeywords[j]);
    var i :| 0 <= i < |ks| && ks[i] == "#" + TagKeywords[j];
    assert (hs + ks)[|hs| + i] == ks[i];
    DistinctMember(hs + ks, ks[i]);
  }

  /** A tag `'#' + kw` is either a hashtag of the text or a keyword tag; either way `kw` occurs. */
  lemma TaggedKeywordPresent(content: string, kw: string)
    requires "#" + kw in ExtractTags(content)
    ensures Contains(LowerStr(content), kw)
  {
    var text := LowerStr(content);
    var hs := Hashtags(text);
    var ks := KeywordTags(text, TagKeywords);
    var all := hs + ks;
    var t := "#" + kw;
    DistinctMember(all, t);
    var i :| 0 <= i < |all| && all[i] == t;
    assert t == ['#'] + kw;
    if i < |hs| {
      assert hs[i] == t;
      HashtagsOccur(text, 0, i);
      ContainsTail(text, '#', kw);
    } else {
      assert ks[i - |hs|] == t;
      KeywordTagsMember(text, TagKeywords, t);
      var k :| 0 <= k < |TagKeywords| && t == "#" + TagKeywords[k] && Contains(text, TagKeywords[k]);
      assert t[1..] == kw && ("#" + TagKeywords[k])[1..] == TagKeywords[k];
    }
  }

  // ---------------------------------------------------------------------------
  // countWords
  // ---------------------------------------------------------------------------

  /** `html.replace(/<[^>]*>/g, '').split(/\s+/).filter(word => word.length > 0).length`. */
  function CountWords(html: string): nat {
    |NonEmpty(SplitRuns(StripTags(html, false), Ws))|
  }

  /** A text has no whitespace-separated word exactly when it is all whitespace. */
  lemma {:induction false} NoWordsIff(s: string)
    ensures NonEmpty(SplitRuns(s, Ws)) == [] <==> forall i :: 0 <= i < |s| ==> s[i] in Ws
    decreases |s|
  {
    var i := FirstIn(s, Ws, 0);
    if i < |s| {
      var j := FirstNotIn(s, Ws, i);
      var rest := s[j..];
      assert SplitRuns(s, Ws) == [s[..i]] + SplitRuns(rest, Ws);
      NoWordsIff(rest);
      if i == 0 {
        assert NonEmpty(SplitRuns(s, Ws)) == NonEmpty(SplitRuns(rest, Ws));
        if forall k :: 0 <= k < |rest| ==> rest[k] in Ws {
          assert rest == [];
        }
      } else {
        assert s[0] !in Ws;
      }
    } else if s != [] {
      assert s[0] !in Ws;
    }
  }

  /** Text made only of tags and whitespace has no words. */
  lemma CountWordsZero(html: string)
    ensures var s := StripTags(html, false);
      CountWords(html) == 0 <==> forall i :: 0 <= i < |s| ==> s[i] in Ws
  {
    var s := StripTags(html, false);
    var words := NonEmpty(SplitRuns(s, Ws));
    NoWordsIff(s);
    assert CountWords(html) == |words|;
    assert |words| == 0 <==> words == [];
  }

  // ---------------------------------------------------------------------------
  // calculateSimilarity
  // ---------------------------------------------------------------------------

  /** `new Set(text.toLowerCase().split(/\s+/))`: never empty, since a split yields a piece. */
  function TokenSet(text: string): (r: set<string>)
    ensures r != {}
  {
    var ws := SplitRuns(LowerStr(text), Ws);
    ElemsNonEmpty(ws);
    Elems(ws)
  }

  /** The set of the pieces of a split. */
  function Elems(ws: seq<string>): set<string> {
    if ws == [] then {} else {ws[0]} + Elems(ws[1..])
  }

  lemma ElemsNonEmpty(ws: seq<string>)
    requires ws != []
    ensures Elems(ws) != {}
  {
    assert ws[0] in Elems(ws);
  }

  /** Jaccard similarity `|A ∩ B| / |A ∪ B|` of the two token sets, as an exact ratio. */
  function Similarity(text1: string, text2: string): (r: real)
    ensures 0.0 <= r <= 1.0
  {
    var a := TokenSet(text1);
    var b := TokenSet(text2);
    SubsetCard(a * b, a + b);
    NonEmptyCard(a + b);
    RatioBounds(|a * b|, |a + b|);
    (|a * b| as real) / (|a + b| as real)
  }

  /** A count over a larger positive count is a ratio between 0 and 1. */
  lemma RatioBounds(n: nat, d: nat)
    requires n <= d && d >= 1
    ensures 0.0 <= (n as real) / (d as real) <= 1.0
  {
    var num := n as real;
    var den := d as real;
    var q := num / den;
    assert q * den == num;
    assert (1.0 - q) * den == den - num;
  }

  lemma SubsetCard(x: set<string>, y: set<string>)
    requires x <= y
    ensures |x| <= |y|
  {
    assert y == x + (y - x);
  }

  lemma NonEmptyCard(x: set<string>)
    requires x != {}
    ensures |x| >= 1
  {
    var e :| e in x;
    SubsetCard({e}, x);
  }

  lemma SimilaritySymmetric(text1: string, text2: string)
    ensures Similarity(text1, text2) == Similarity(text2, text1)
  {
    var a := TokenSet(text1);
    var b := TokenSet(text2);
    assert a * b == b * a && a + b == b + a;
  }

  /** The similarity is 1 exactly when the two texts have the same token set. */
  lemma SimilarityOne(text1: string, text2: string)
    ensures Similarity(text1, text2) == 1.0 <==> TokenSet(text1) == TokenSet(text2)
  {
    var a := TokenSet(text1);
    var b := TokenSet(text2);
    NonEmptyCard(a + b);
    if a != b {
      var e;
      if !(a <= b) {
        e :| e in a && e !in b;
      } else {
        assert !(b <= a);
        e :| e in b && e !in a;
      }
      SubsetCard(a * b, (a + b) - {e});
      assert |(a + b) - {e}| == |a + b| - 1;
      assert |a * b| < |a + b|;
      assert (|a * b| as real) < (|a + b| as real);
    } else {
      assert a * b == a + b;
      var d := |a + b| as real;
      assert d > 0.0 && d / d == 1.0;
    }
  }

  // ---------------------------------------------------------------------------
  // findRelated
  // ---------------------------------------------------------------------------

  /** A stored note. Ids, titles and time stamps are strings, as in the script. */
  datatype Note = Note(
    id: string, title: string, content: string, plainText: string,
    created: string, updated: string, tags: seq<string>, wordCount: nat)

  /** `note.plainText || note.content`. */
  function CompareText(n: Note): string {
    if n.plainText != "" then n.plainText else n.content
  }

  /** `note.id !== JarvisNotes.currentNote?.id`: with no current note, every note passes. */
  predicate OtherThan(n: Note, currentId: Option<string>) {
    currentId.None? || n.id != currentId.value
  }

  /** The related threshold `0.1`. */
  const Threshold: real := 0.1

  /** A score of the editor text against a note's text. */
  type Scoring = (string, string) -> real

  /** One note's contribution to the candidates: itself and its score when eligible. */
  function Entry(n: Note, currentId: Option<string>, current: string, sim: Scoring): (r: seq<Scored<Note>>)
    ensures r == [] || r == [Scored(n, sim(current, CompareText(n)))]
  {
    var sc := sim(current, CompareText(n));
    if OtherThan(n, currentId) && sc > Threshold then [Scored(n, sc)] else []
  }

  /**
   * The notes other than the current one that score above 0.1 against `current`, in note order.
   * The score is a parameter, `calculateSimilarity` in the script; the properties below hold for
   * any scoring.
   */
  function Candidates(notes: seq<Note>, currentId: Option<string>, current: string, sim: Scoring): (r: seq<Scored<Note>>)
    ensures |r| <= |notes|
    decreases |notes|
  {
    if notes == [] then []
    else Entry(notes[0], currentId, current, sim) + Candidates(notes[1..], currentId, current, sim)
  }

  /** Every candidate is a note other than the current one, with its own score, above 0.1. */
  lemma {:induction false} CandidatesSound(notes: seq<Note>, currentId: Option<string>, current: string, sim: Scoring, k: nat)
    requires k < |Candidates(notes, currentId, current, sim)|
    ensures var c := Candidates(notes, currentId, current, sim)[k];
      && c.item in notes
      && OtherThan(c.item, currentId)
      && c.score == sim(current, CompareText(c.item))
      && c.score > Threshold
    decreases |notes|
  {
    var head := Entry(notes[0], currentId, current, sim);
    var rest := Candidates(notes[1..], currentId, current, sim);
    var cs := Candidates(notes, currentId, current, sim);
    assert cs == head + rest;
    if k < |head| {
      assert cs[k] == head[0];
    } else {
      assert cs[k] == rest[k - |head|];
      CandidatesSound(notes[1..], currentId, current, sim, k - |head|);
      assert rest[k - |head|].item in notes[1..];
    }
  }

  /** An eligible note contributes itself with its score. */
  lemma EntryEligible(n: Note, currentId: Option<string>, current: string, sim: Scoring)
    requires OtherThan(n, currentId) && sim(current, CompareText(n)) > Threshold
    ensures Scored(n, sim(current, CompareText(n))) in Entry(n, currentId, current, sim)
  {
  }

  /** Every eligible note is a candidate. */
  lemma {:induction false} CandidatesComplete(notes: seq<Note>, currentId: Option<string>, current: string, sim: Scoring, i: nat)
    requires i < |notes| && OtherThan(notes[i], currentId)
    requires sim(current, CompareText(notes[i])) > Threshold
    ensures Scored(notes[i], sim(current, CompareText(notes[i]))) in Candidates(notes, currentId, current, sim)
    decreases |notes|
  {
    var n := notes[i];
    var c := Scored(n, sim(current, CompareText(n)));
    var head := Entry(notes[0], currentId, current, sim);
    var tail := notes[1..];
    var rest := Candidates(tail, currentId, current, sim);
    if i == 0 {
      EntryEligible(n, currentId, current, sim);
      assert c in head;
    } else {
      assert tail[i - 1] == n;
      CandidatesComplete(tail, currentId, current, sim, i - 1);
      assert c in rest;
    }
    Seqs.InAppend(head, rest, c);
  }

  /** `findRelated`: the at most 3 best candidates, best first, ties in note order. */
  function FindRelated(notes: seq<Note>, currentId: Option<string>, current: string): (r: seq<Scored<Note>>)
    ensures |r| <= 3 && SortedDesc(r)
    ensures forall k :: 0 <= k < |r| ==>
      && r[k].item in notes
      && OtherThan(r[k].item, currentId)
      && r[k].score == Similarity(current, CompareText(r[k].item))
      && r[k].score > Threshold
  {
    var cs := Candidates(notes, currentId, current, Similarity);
    var r := Top(cs, 3);
    forall k | 0 <= k < |r|
      ensures r[k].item in notes && OtherThan(r[k].item, currentId)
      ensures r[k].score == Similarity(current, CompareText(r[k].item)) && r[k].score > Threshold
    {
      var j :| 0 <= j < |cs| && cs[j] == r[k];
      CandidatesSound(notes, currentId, current, Similarity, j);
    }
    r
  }

  /** A candidate left out of the related notes scores no higher than any note kept. */
  lemma FindRelatedDominates(notes: seq<Note>, currentId: Option<string>, current: string, i: nat, j: nat)
    requires i < |FindRelated(notes, currentId, current)|
    requires 3 <= j < |Candidates(notes, currentId, current, Similarity)|
    ensures FindRelated(notes, currentId, current)[i].score >= SortDesc(Candidates(notes, currentId, current, Similarity))[j].score
  {
    var cs := Candidates(notes, currentId, current, Similarity);
    TopDominates(cs, 3, i, j);
  }

  /** With at most 3 candidates, every candidate is related. */
  lemma FindRelatedAll(notes: seq<Note>, currentId: Option<string>, current: string, c: Scored<Note>)
    requires c in Candidates(notes, currentId, current, Similarity)
    requires |Candidates(notes, currentId, current, Similarity)| <= 3
    ensures c in FindRelated(notes, currentId, current)
  {
    TopAll(Candidates(notes, currentId, current, Similarity), 3, c);
  }

  // ---------------------------------------------------------------------------
  // generateSummary
  // ---------------------------------------------------------------------------

  /** `text.toLowerCase().split(/\s+/)`. */
  function LowerTokens(text: string): (r: seq<string>)
    ensures |r| >= 1
  {
    SplitRuns(LowerStr(text), Ws)
  }

  /** The number of occurrences of `w` in `ws`. */
  function Count(ws: seq<string>, w: string): nat
    decreases |ws|
  {
    if ws == [] then 0 else Count(ws[..|ws| - 1], w) + (if ws[|ws| - 1] == w then 1 else 0)
  }

  lemma CountSnoc(ws: seq<string>, x: string, w: string)
    ensures Count(ws + [x], w) == Count(ws, w) + (if x == w then 1 else 0)
  {
    assert (ws + [x])[..|ws|] == ws;
  }

  /** `Count` is the multiplicity of the word in the multiset of words. */
  lemma {:induction false} CountIsMultiplicity(ws: seq<string>, w: string)
    ensures Count(ws, w) == multiset(ws)[w]
    decreases |ws|
  {
    if ws != [] {
      var init := ws[..|ws| - 1];
      CountIsMultiplicity(init, w);
      AppendSnoc([], ws);
      assert multiset(ws) == multiset(init) + multiset{ws[|ws| - 1]};
    }
  }

  /** `wordFreq[word] || 0`: the frequency of a word of more than 3 characters, 0 for any other. */
  function Weight(ws: seq<string>, w: string): nat {
    if |w| > 3 then Count(ws, w) else 0
  }

  /** `sentWords.reduce((sum, word) => sum + (wordFreq[word] || 0), 0)`. */
  function WeightSum(ws: seq<string>, sentWords: seq<string>): nat
    decreases |sentWords|
  {
    if sentWords == [] then 0
    else WeightSum(ws, sentWords[..|sentWords| - 1]) + Weight(ws, sentWords[|sentWords| - 1])
  }

  /** The mean frequency of a sentence's words. A sentence always splits into at least one piece. */
  function SentenceScore(ws: seq<string>, sentence: string): real {
    var sentWords := LowerTokens(sentence);
    (WeightSum(ws, sentWords) as real) / (|sentWords| as real)
  }

  /** Every sentence with its score, in text order. */
  function ScoreSentences(ws: seq<string>, sentences: seq<string>): seq<Scored<string>> {
    seq(|sentences|, k requires 0 <= k < |sentences| => Scored(sentences[k], SentenceScore(ws, sentences[k])))
  }

  function Items(s: seq<Scored<string>>): seq<string> {
    seq(|s|, k requires 0 <= k < |s| => s[k].item)
  }

  /**
   * `generateSummary`: the text itself when it has at most 3 terminated sentences, otherwise
   * the 3 sentences of highest mean word frequency joined by spaces, best first.
   */
  function Summary(text: string): (r: string)
    ensures |Sentences(text)| <= 3 ==> r == text
  {
    var sentences := Sentences(text);
    if |sentences| <= 3 then text
    else Join(Items(Top(ScoreSentences(LowerTokens(text), sentences), 3)), " ")
  }

  /**
   * A text of more than 3 sentences is summarised by exactly 3 of its sentences, best first,
   * each scoring at least as high as every sentence left out. Ties keep text order
   * (`Ranking.SortDescStable`).
   */
  lemma SummaryPicksBest(text: string)
    requires |Sentences(text)| > 3
    ensures var ranked := SortDesc(ScoreSentences(LowerTokens(text), Sentences(text)));
      && Summary(text) == ranked[0].item + " " + ranked[1].item + " " + ranked[2].item
      && ranked[0].score >= ranked[1].score >= ranked[2].score
      && (forall j :: 3 <= j < |ranked| ==> ranked[j].score <= ranked[2].score)
  {
    var scored := ScoreSentences(LowerTokens(text), Sentences(text));
    var ranked := SortDesc(scored);
    var top := Top(scored, 3);
    assert top == ranked[..3];
    JoinThree(Items(top), " ");
  }

  lemma JoinThree(items: seq<string>, sep: string)
    requires |items| == 3
    ensures Join(items, sep) == items[0] + sep + items[1] + sep + items[2]
  {
    assert Join(items[2..], sep) == items[2];
    assert Join(items[1..], sep) == items[1] + sep + Join(items[2..], sep);
  }

  /** The sentences ranked are the text's sentences. */
  lemma RankedAreSentences(text: string, k: nat)
    requires k < |Sentences(text)|
    ensures SortDesc(ScoreSentences(LowerTokens(text), Sentences(text)))[k].item in Sentences(text)
  {
    var sentences := Sentences(text);
    var scored := ScoreSentences(LowerTokens(text), sentences);
    var ranked := SortDesc(scored);
    var i :| 0 <= i < |scored| && scored[i] == ranked[k];
    assert scored[i].item == sentences[i];
  }

  /** `wordFreq[word] || 0` on the frequency table. */
  function Lookup(freq: map<string, nat>, w: string): nat {
    if w in freq then freq[w] else 0
  }

  /** The `forEach` that fills `wordFreq`: the frequency of every word longer than 3 characters. */
  method WordFrequencies(words: seq<string>) returns (freq: map<string, nat>)
    ensures forall w :: Lookup(freq, w) == Weight(words, w)
    ensures forall w :: w in freq ==> |w| > 3 && freq[w] > 0
  {
    freq := map[];
    var i := 0;
    while i < |words|
      invariant 0 <= i <= |words|
      invariant forall w :: Lookup(freq, w) == Weight(words[..i], w)
      invariant forall w :: w in freq ==> |w| > 3 && freq[w] > 0
    {
      var word := words[i];
      PrefixSnoc(words, i);
      forall w ensures Count(words[..i + 1], w) == Count(words[..i], w) + (if word == w then 1 else 0) {
        CountSnoc(words[..i], word, w);
      }
      var prev := freq;
      if |word| > 3 {
        freq := freq[word := Lookup(freq, word) + 1];
      }
      forall w ensures Lookup(freq, w) == Weight(words[..i + 1], w) {
        if w != word {
          assert Lookup(freq, w) == Lookup(prev, w);
        }
      }
      i := i + 1;
    }
    assert words[..i] == words;
  }

  /** The reduce over a sentence's words, reading the frequency table. */
  function LookupSum(freq: map<string, nat>, sentWords: seq<string>): nat
    decreases |sentWords|
  {
    if sentWords == [] then 0
    else LookupSum(freq, sentWords[..|sentWords| - 1]) + Lookup(freq, sentWords[|sentWords| - 1])
  }

  lemma {:induction false} LookupSumAgrees(freq: map<string, nat>, ws: seq<string>, sentWords: seq<string>)
    requires forall w :: Lookup(freq, w) == Weight(ws, w)
    ensures LookupSum(freq, sentWords) == WeightSum(ws, sentWords)
    decreases |sentWords|
  {
    if sentWords != [] {
      LookupSumAgrees(freq, ws, sentWords[..|sentWords| - 1]);
    }
  }

  /** `generateSummary` as the script runs it: fill the table, score each sentence, rank, join. */
  method GenerateSummary(text: string) returns (summary: string)
    ensures summary == Summary(text)
  {
    var sentences := Sentences(text);
    if |sentences| <= 3 {
      return text;
    }
    var words := LowerTokens(text);
    var freq := WordFrequencies(words);
    var scored := seq(|sentences|, k requires 0 <= k < |sentences| =>
      var sw := LowerTokens(sentences[k]);
      Scored(sentences[k], (LookupSum(freq, sw) as real) / (|sw| as real)));
    forall k | 0 <= k < |sentences|
      ensures scored[k] == ScoreSentences(words, sentences)[k]
    {
      LookupSumAgrees(freq, words, LowerTokens(sentences[k]));
    }
    assert scored == ScoreSentences(words, sentences);
    summary := Join(Items(Top(scored, 3)), " ");
  }

  // ---------------------------------------------------------------------------
  // extractTasks
  // ---------------------------------------------------------------------------

  const Bullets: set<char> := {'-', '*', '\U{2022}'}

  /** `/^[-*•]\s/.test(line)`. */
  predicate BulletLine(line: string) {
    |line| >= 2 && line[0] in Bullets && line[1] in Ws
  }

  /** A task line: a bullet line, or a line naming "todo" or "task" in any case. */
  predicate IsTaskLine(line: string) {
    BulletLine(line) || Contains(LowerStr(line), "todo") || Contains(LowerStr(line), "task")
  }

  /** `lines.filter(...)`: the task lines, in order. */
  function TaskLines(lines: seq<string>): (r: seq<string>)
    ensures |r| <= |lines|
    ensures forall k :: 0 <= k < |r| ==> IsTaskLine(r[k]) && r[k] in lines
    decreases |lines|
  {
    if lines == [] then []
    else (if IsTaskLine(lines[0]) then [lines[0]] else []) + TaskLines(lines[1..])
  }

  /** Every task line is listed. */
  lemma {:induction false} TaskLinesComplete(lines: seq<string>, i: nat)
    requires i < |lines| && IsTaskLine(lines[i])
    ensures lines[i] in TaskLines(lines)
    decreases |lines|
  {
    if i > 0 {
      TaskLinesComplete(lines[1..], i - 1);
      assert lines[1..][i - 1] == lines[i];
    }
  }

  /** `'☐ ' + t.replace(/^[-*•]\s/, '')`. */
  function TaskEntry(line: string): string {
    "\U{2610} " + (if BulletLine(line) then line[2..] else line)
  }

  /** An insight panel: its title and its content. */
  datatype Insight = Insight(title: string, content: string)

  const NoTasks: string := "No tasks found. Use \"- \" or \"TODO:\" to mark tasks."

  /** `extractTasks` on the editor's plain text. */
  function ExtractTasks(content: string): (r: Insight)
    ensures r.title == "Tasks" <==> forall k :: 0 <= k < |SplitChar(content, '\n')| ==> !IsTaskLine(SplitChar(content, '\n')[k])
  {
    var tasks := TaskLines(SplitChar(content, '\n'));
    if tasks != [] then
      assert tasks[0] in SplitChar(content, '\n');
      Insight("Extracted Tasks", Join(seq(|tasks|, k requires 0 <= k < |tasks| => TaskEntry(tasks[k])), "<br>"))
    else
      assert forall k :: 0 <= k < |SplitChar(content, '\n')| ==> !IsTaskLine(SplitChar(content, '\n')[k]) by {
        forall k | 0 <= k < |SplitChar(content, '\n')| && IsTaskLine(SplitChar(content, '\n')[k]) ensures false {
          TaskLinesComplete(SplitChar(content, '\n'), k);
        }
      }
      Insight("Tasks", NoTasks)
  }

  /** A bullet loses exactly its two marker characters. */
  lemma TaskEntryOfBullet(line: string)
    requires BulletLine(line)
    ensures TaskEntry(line) == "\U{2610} " + line[2..]
    ensures |TaskEntry(line)| == |line|
  {
  }

  // ---------------------------------------------------------------------------
  // saveNote
  // ---------------------------------------------------------------------------

  /** The first index whose note has `id`, or -1: `this.notes.findIndex(n => n.id === note.id)`. */
  function IndexOfId(notes: seq<Note>, id: string): (r: int)
    ensures -1 <= r < |notes|
    ensures r >= 0 ==> notes[r].id == id && forall j :: 0 <= j < r ==> notes[j].id != id
    ensures r == -1 ==> forall j :: 0 <= j < |notes| ==> notes[j].id != id
    decreases |notes|
  {
    if notes == [] then -1
    else if notes[0].id == id then 0
    else
      var r := IndexOfId(notes[1..], id);
      if r == -1 then -1 else r + 1
  }

  /** The `findIndex` scan itself. */
  method FindIndex(notes: seq<Note>, id: string) returns (index: int)
    ensures index == IndexOfId(notes, id)
  {
    var i := 0;
    while i < |notes|
      invariant 0 <= i <= |notes|
      invariant forall j :: 0 <= j < i ==> notes[j].id != id
    {
      if notes[i].id == id {
        return i;
      }
      i := i + 1;
    }
    return -1;
  }

  /** Replace the note with the same id in place, or put the note in front. */
  function Upsert(notes: seq<Note>, note: Note): seq<Note> {
    var i := IndexOfId(notes, note.id);
    if i >= 0 then notes[i := note] else [note] + notes
  }

  /** A known id: only its first position is replaced and the length is unchanged. */
  lemma UpsertExisting(notes: seq<Note>, note: Note, i: nat)
    requires i < |notes| && notes[i].id == note.id
    ensures var j := IndexOfId(notes, note.id);
      && 0 <= j <= i
      && |Upsert(notes, note)| == |notes|
      && Upsert(notes, note)[j] == note
      && forall k :: 0 <= k < |notes| && k != j ==> Upsert(notes, note)[k] == notes[k]
  {
  }

  /** A new id: the note is prepended and the existing notes shift by one, unchanged. */
  lemma UpsertNew(notes: seq<Note>, note: Note)
    requires forall k :: 0 <= k < |notes| ==> notes[k].id != note.id
    ensures |Upsert(notes, note)| == |notes| + 1
    ensures Upsert(notes, note)[0] == note
    ensures forall k :: 0 <= k < |notes| ==> Upsert(notes, note)[k + 1] == notes[k]
  {
  }

  predicate UniqueIds(notes: seq<Note>) {
    forall i, j :: 0 <= i < j < |notes| ==> notes[i].id != notes[j].id
  }

  /** Saving never creates two notes with the same id. */
  lemma UpsertKeepsUniqueIds(notes: seq<Note>, note: Note)
    requires UniqueIds(notes)
    ensures UniqueIds(Upsert(notes, note))
  {
    var i := IndexOfId(notes, note.id);
    var r := Upsert(notes, note);
    if i < 0 {
      forall a, b | 0 <= a < b < |r| ensures r[a].id != r[b].id {
        if a > 0 {
          assert r[a] == notes[a - 1] && r[b] == notes[b - 1];
        } else {
          assert r[b] == notes[b - 1];
        }
      }
    }
  }

  /** After saving, looking the note's id up finds the note just saved. */
  lemma UpsertFinds(notes: seq<Note>, note: Note)
    ensures var r := Upsert(notes, note);
      IndexOfId(r, note.id) >= 0 && r[IndexOfId(r, note.id)] == note
  {
    var i := IndexOfId(notes, note.id);
    var r := Upsert(notes, note);
    if i >= 0 {
      assert r[i] == note;
      assert forall j :: 0 <= j < i ==> r[j] == notes[j];
    } else {
      assert r[0] == note;
    }
  }

  /** `this.currentNote?.id || Date.now().toString()`. */
  function NoteId(current: Option<Note>, nowId: string): string {
    if current.Some? && current.value.id != "" then current.value.id else nowId
  }

  /**
   * The note `saveNote` builds. The editor's title, HTML and plain text and the clock readings
   * (`Date.now()` and the two ISO time stamps, read one after the other for `created` and
   * `updated`) are parameters.
   */
  function NewNote(current: Option<Note>, titleInput: string, content: string, plainText: string,
                   nowId: string, createdIso: string, updatedIso: string): (n: Note)
    ensures n.title != ""
    ensures n.updated == updatedIso
    ensures n.created == if current.Some? && current.value.created != "" then current.value.created else createdIso
    ensures n.wordCount == CountWords(content) && n.tags == ExtractTags(content)
    ensures current.Some? && current.value.id != "" ==> n.id == current.value.id
  {
    Note(
      NoteId(current, nowId),
      if titleInput != "" then titleInput else "Untitled",
      content,
      plainText,
      if current.Some? && current.value.created != "" then current.value.created else createdIso,
      updatedIso,
      ExtractTags(content),
      CountWords(content))
  }

  /** The notes array of the page and the note being edited. */
  class NotesApp {
    var notes: seq<Note>
    var currentNote: Option<Note>

    /** `JSON.parse(localStorage.getItem('jarvis_notes') || '[]')`, with nothing open. */
    constructor (stored: seq<Note>)
      ensures notes == stored && currentNote == None
    {
      notes := stored;
      currentNote := None;
    }

    /** `saveNote`: build the note, upsert it and make it the current note. */
    method SaveNote(titleInput: string, content: string, plainText: string, nowId: string,
                    createdIso: string, updatedIso: string)
      modifies this
      ensures var note := NewNote(old(currentNote), titleInput, content, plainText, nowId, createdIso, updatedIso);
        notes == Upsert(old(notes), note) && currentNote == Some(note)
    {
      var note := NewNote(currentNote, titleInput, content, plainText, nowId, createdIso, updatedIso);
      var index := FindIndex(notes, note.id);
      if index >= 0 {
        notes := notes[index := note];
      } else {
        notes := [note] + notes;
      }
      currentNote := Some(note);
    }
  }

  // ---------------------------------------------------------------------------
  // handler
  // ---------------------------------------------------------------------------

  const OpenTriggers: seq<string> := ["open notes", "/notes", "show notes"]

  /** What `handler` returns: the body itself, the notes app, or the message that saves an answer. */
  datatype Reply =
    | ReturnBody
    | NotesAppPage
    | Saved(content: string)

  predicate IsSaveRequest(last: string) {
    Contains(last, "save this") || Contains(last, "save to notes")
  }

  /** The note's id: the first eight hex digits of the MD5 digest of the answer. */
  function AnswerId(answer: string, md5Hex: string -> string): (id: string)
    ensures |id| <= 8
  {
    Take(md5Hex(answer), 8)
  }

  /** The save message up to the note's id. */
  const SavedHead: string :=
    "\U{2705} **Saved to JARVIS Notes!**\n\n<script>\n// Save AI response to notes\nconst note = {\n    id: '"

  /** The note's fields from the end of `plainText` up to the word count's value. */
  const NoteFields: string :=
    "`,\n    created: new Date().toISOString(),\n    updated: new Date().toISOString(),\n    tags: ['#ai-chat', '#saved'],\n    "

  /**
   * The rest of the save message after the word count: the script that stores the note and shows
   * a badge, represented by its first line and its last line around an ellipsis.
   */
  const SavedTail: string :=
    "\n};\n\U{2026}\nThe conversation has been saved. Say \"open notes\" to view and edit."

  /** The note's title at clock reading `stamp` (`%Y-%m-%d %H:%M`). */
  function AnswerTitle(stamp: string): string {
    "AI Response - " + stamp
  }

  /** The note literal up to its `content` template literal. */
  function NoteOpening(id: string, stamp: string): string {
    SavedHead + id + "',\n    title: '" + AnswerTitle(stamp) + "',\n    content: "
  }

  /** A template literal holding the text as it is, without escaping. */
  function Backquoted(s: string): string {
    "`" + s + "`"
  }

  /** The `wordCount` field with its decimal value. */
  function WordCountField(answer: string): string {
    "wordCount: " + NatToString(|Words(answer)|)
  }

  /** The note literal from `plainText` on, with the script after it. */
  function NoteClosing(answer: string): string {
    ",\n    plainText: `" + answer + NoteFields + WordCountField(answer) + SavedTail
  }

  /**
   * The save message: a script whose note literal pastes the answer, unescaped, into the
   * `content` and `plainText` template literals, with the answer's word count.
   */
  function SavedScript(answer: string, id: string, stamp: string): string {
    NoteOpening(id, stamp) + Backquoted(answer) + NoteClosing(answer)
  }

  /** The save message starts with the note's id and holds its dated title. */
  lemma SavedScriptTitle(answer: string, id: string, stamp: string)
    ensures StartsWith(SavedScript(answer, id, stamp), SavedHead + id)
    ensures Contains(SavedScript(answer, id, stamp), AnswerTitle(stamp))
  {
    var open := NoteOpening(id, stamp);
    var pre := SavedHead + id + "',\n    title: '";
    ContainsInfix(pre, AnswerTitle(stamp), "',\n    content: ");
    ContainsExtend(open, AnswerTitle(stamp), Backquoted(answer));
    ContainsExtend(open + Backquoted(answer), AnswerTitle(stamp), NoteClosing(answer));
    assert open[..|SavedHead + id|] == SavedHead + id;
    assert SavedScript(answer, id, stamp)[..|SavedHead + id|] == open[..|SavedHead + id|];
  }

  /** The answer appears verbatim between backquotes, as the note's `content`. */
  lemma SavedScriptAnswer(answer: string, id: string, stamp: string)
    ensures Contains(SavedScript(answer, id, stamp), Backquoted(answer))
  {
    ContainsInfix(NoteOpening(id, stamp), Backquoted(answer), NoteClosing(answer));
  }

  /** The note records the answer's word count in decimal. */
  lemma SavedScriptCount(answer: string, id: string, stamp: string)
    ensures Contains(SavedScript(answer, id, stamp), WordCountField(answer))
  {
    var plain := ",\n    plainText: `" + answer + NoteFields;
    ContainsInfix(plain, WordCountField(answer), SavedTail);
    ContainsSuffix(NoteOpening(id, stamp) + Backquoted(answer), NoteClosing(answer));
    ContainsTrans(SavedScript(answer, id, stamp), NoteClosing(answer), WordCountField(answer));
  }

  /**
   * `handler` at clock reading `stamp`, with MD5 as `md5Hex`. `messages` is `None` when the body
   * has no "messages" key. An empty list makes `messages[-1]` raise `IndexError`.
   */
  function Handle(messages: Option<seq<Message>>, stamp: string, md5Hex: string -> string): (r: Py<Reply>)
    ensures messages.None? ==> r == Ok(ReturnBody)
    ensures messages == Some([]) ==> r == Raise(IndexError)
    ensures messages.Some? && messages.value != [] ==>
      && var ms := messages.value;
      && var last := LastContentLower(ms);
      && r.Ok?
      && (r.value.NotesAppPage? <==> ContainsAny(last, OpenTriggers))
      && (r.value.Saved? <==> !ContainsAny(last, OpenTriggers) && IsSaveRequest(last) && PreviousAssistantContent(ms) != "")
    ensures r.Ok? && r.value.Saved? ==>
      && var ms := messages.value;
      && LastAssistantBelow(ms, |ms| - 1).Some?
      && var answer := ms[LastAssistantBelow(ms, |ms| - 1).value].content;
      && answer != ""
      && r.value == Saved(SavedScript(answer, AnswerId(answer, md5Hex), stamp))
  {
    match messages
    case None => Ok(ReturnBody)
    case Some(ms) =>
      if ms == [] then Raise(IndexError)
      else
        var last := LastContentLower(ms);
        if ContainsAny(last, OpenTriggers) then Ok(NotesAppPage)
        else if IsSaveRequest(last) then
          var ai := PreviousAssistantContent(ms);
          if ai != "" then
            Ok(Saved(SavedScript(ai, AnswerId(ai, md5Hex), stamp)))
          else Ok(ReturnBody)
        else Ok(ReturnBody)
  }

  /** The handler as written: the backward search for the previous assistant message is a loop. */
  method Handler(messages: Option<seq<Message>>, stamp: string, md5Hex: string -> string) returns (r: Py<Reply>)
    ensures r == Handle(messages, stamp, md5Hex)
  {
    if messages.None? {
      return Ok(ReturnBody);
    }
    var ms := messages.value;
    if ms == [] {
      return Raise(IndexError);
    }
    var last := LowerStr(ms[|ms| - 1].content);
    assert last == LastContentLower(ms);
    if ContainsAny(last, OpenTriggers) {
      return Ok(NotesAppPage);
    }
    if Contains(last, "save this") || Contains(last, "save to notes") {
      assert IsSaveRequest(last);
      var ai := FindPreviousAssistant(ms);
      if ai != "" {
        return Ok(Saved(SavedScript(ai, AnswerId(ai, md5Hex), stamp)));
      }
    }
    return Ok(ReturnBody);
  }
}

=== FILE: memory.dfy ===
/**
 * The adaptive memory filter (adaptive_memory.py): a per-user dictionary of remembered facts,
 * shown to the model as a system message on the way in and learnt from "my name is" on the way
 * out.
 */
module AdaptiveMemory {
  import opened Wrappers
  import opened Text
  import opened Chat
  import Seqs

  /** One remembered fact, `key: value`, of a user's memory dict. */
  datatype Entry = Entry(key: string, value: string)

  /** Everything remembered: user id to that user's facts, in the dict's insertion order. */
  type Memory = map<string, seq<Entry>>

  const Header: string := "\n**Your memories:**\n"

  const Phrase: string := "my name is"

  /** The number of facts shown on the way in (`list(user_memory.items())[:5]`). */
  const Shown: nat := 5

  /** The number of most recent messages learnt from (`messages[-5:]`). */
  const Window: nat := 5

  // ---------------------------------------------------------------------------
  // A user's memory dict as an insertion-ordered list of entries
  // ---------------------------------------------------------------------------

  function Keys(es: seq<Entry>): (r: seq<string>)
    ensures |r| == |es|
    ensures forall i :: 0 <= i < |es| ==> r[i] == es[i].key
  {
    if es == [] then [] else [es[0].key] + Keys(es[1..])
  }

  /** `d.get(key)`. */
  function Lookup(es: seq<Entry>, key: string): (r: Option<string>)
    ensures r.None? <==> key !in Keys(es)
  {
    if es == [] then None
    else if es[0].key == key then Some(es[0].value)
    else Lookup(es[1..], key)
  }

  /** `d[key] = value`: an existing key keeps its place, a new one goes last. */
  function Put(es: seq<Entry>, key: string, value: string): (r: seq<Entry>)
    ensures |r| == if key in Keys(es) then |es| else |es| + 1
  {
    if es == [] then [Entry(key, value)]
    else if es[0].key == key then [Entry(key, value)] + es[1..]
    else [es[0]] + Put(es[1..], key, value)
  }

  /** After `d[key] = value`, `key` maps to `value` and every other key to what it did before. */
  lemma {:induction false} PutLookup(es: seq<Entry>, key: string, value: string, other: string)
    ensures Lookup(Put(es, key, value), other) == if other == key then Some(value) else Lookup(es, other)
  {
    if es != [] && es[0].key != key {
      PutLookup(es[1..], key, value, other);
    }
  }

  /** `d[key] = value` keeps the order of the keys and adds a new key at the end. */
  lemma {:induction false} PutKeys(es: seq<Entry>, key: string, value: string)
    ensures Keys(Put(es, key, value)) == if key in Keys(es) then Keys(es) else Keys(es) + [key]
  {
    if es != [] && es[0].key != key {
      PutKeys(es[1..], key, value);
      assert Keys(es) == [es[0].key] + Keys(es[1..]);
    }
  }

  /** A user's dict, or `{}` when the user has none (`self.memory.get(user_id, {})`). */
  function Get(memory: Memory, uid: string): (r: seq<Entry>)
    ensures uid !in memory ==> r == []
  {
    if uid in memory then memory[uid] else []
  }

  // ---------------------------------------------------------------------------
  // inlet: the memory context
  // ---------------------------------------------------------------------------

  /** `f"- {key}: {value}\n"`. */
  function Line(e: Entry): string {
    "- " + e.key + ": " + e.value + "\n"
  }

  function Lines(es: seq<Entry>): string
    decreases |es|
  {
    if es == [] then "" else Lines(es[..|es| - 1]) + Line(es[|es| - 1])
  }

  /** The system message text: the header, then one line per fact among the first five. */
  function MemoryContext(es: seq<Entry>): (r: string)
    ensures StartsWith(r, Header)
  {
    assert (Header + Lines(Take(es, Shown)))[..|Header|] == Header;
    Header + Lines(Take(es, Shown))
  }

  /** Facts after the fifth never reach the context. */
  lemma MemoryContextFirstFive(es: seq<Entry>, more: seq<Entry>)
    requires |es| >= Shown
    ensures MemoryContext(es + more) == MemoryContext(es)
  {
    assert Take(es + more, Shown) == Take(es, Shown);
  }

  /** With at most five facts, each of them has its own line, in order. */
  lemma {:induction false} LinesOf(es: seq<Entry>, k: nat)
    requires k < |es|
    ensures Lines(es) == Lines(es[..k]) + Line(es[k]) + Lines(es[k + 1..])
    decreases |es|
  {
    var last := es[|es| - 1];
    var init := es[..|es| - 1];
    if k == |es| - 1 {
      assert es[..k] == init;
      assert es[k + 1..] == [];
    } else {
      LinesOf(init, k);
      assert init[..k] == es[..k];
      assert init[k + 1..] == es[k + 1..|es| - 1];
      assert es[k + 1..][..|es[k + 1..]| - 1] == es[k + 1..|es| - 1];
    }
  }

  /** The memory context, built by the loop in `inlet`. */
  method BuildMemoryContext(es: seq<Entry>) returns (context: string)
    ensures context == MemoryContext(es)
  {
    context := Header;
    var n := if |es| < Shown then |es| else Shown;
    var i := 0;
    while i < n
      invariant 0 <= i <= n
      invariant context == Header + Lines(es[..i])
    {
      LinesSnoc(es, i);
      Seqs.AppendAssoc(Header, Lines(es[..i]), Line(es[i]));
      context := context + Line(es[i]);
      i := i + 1;
    }
    assert es[..n] == Take(es, Shown);
  }

  lemma LinesSnoc(es: seq<Entry>, i: nat)
    requires i < |es|
    ensures Lines(es[..i + 1]) == Lines(es[..i]) + Line(es[i])
  {
    assert es[..i + 1][..i] == es[..i];
  }

  /** The message list after `inlet`. */
  function InletMessages(enabled: bool, memory: Memory, uid: string, ms: seq<Message>): (r: seq<Message>)
    ensures r == ms || r == [Message("system", MemoryContext(Get(memory, uid)))] + ms
    ensures r != ms <==> enabled && ms != [] && Get(memory, uid) != []
  {
    if !enabled || ms == [] then ms
    else if Get(memory, uid) != [] then [Message("system", MemoryContext(Get(memory, uid)))] + ms
    else ms
  }

  // ---------------------------------------------------------------------------
  // outlet: learning names
  // ---------------------------------------------------------------------------

  /** What one user message teaches: no name, a name, or a phrase with no word after it. */
  datatype NameScan = NoName | Name(name: string) | NoWord

  /**
   * The name a message gives: the phrase is looked for in the lower-cased text, but the text is
   * split on the phrase case-sensitively, so "My name is Al" gives "My".
   */
  function ScanName(content: string): (r: NameScan)
    ensures r != NoName <==> Contains(LowerStr(content), Phrase)
    ensures r.Name? ==> r.name != [] && NoneIn(r.name, Ws)
  {
    if !Contains(LowerStr(content), Phrase) then NoName
    else
      var ws := Words(After(content, Phrase));
      if ws == [] then NoWord
      else
        assert ws[0] in SplitRuns(After(content, Phrase), Ws);
        Name(ws[0])
  }

  /** A reference reading: the first word after the first case-insensitive "my name is". */
  function ScanNameIgnoringCase(content: string): (r: NameScan)
    ensures r != NoName <==> Contains(LowerStr(content), Phrase)
    ensures r.Name? ==> r.name != [] && NoneIn(r.name, Ws)
  {
    match IndexOf(LowerStr(content), Phrase)
    case None => NoName
    case Some(k) =>
      var ws := Words(content[k + |Phrase|..]);
      if ws == [] then NoWord
      else
        assert ws[0] in SplitRuns(content[k + |Phrase|..], Ws);
        Name(ws[0])
  }

  /** The two readings agree whenever the first case-insensitive match is written in lower case. */
  lemma ScanNameAgrees(content: string)
    requires IndexOf(content, Phrase) == IndexOf(LowerStr(content), Phrase)
    ensures ScanName(content) == ScanNameIgnoringCase(content)
  {
  }

  /** A message that capitalises the phrase. */
  const Capitalised: string := "My name is "

  /** The lower-cased phrase starts a capitalised introduction. */
  lemma CapitalisedPhraseFound(name: string)
    ensures IndexOf(LowerStr(Capitalised + name), Phrase) == Some(0)
  {
    var s := Capitalised + name;
    var lower := LowerStr(s);
    assert lower[0] == Lower('M') == 'm';
    forall i | 1 <= i < |Phrase|
      ensures lower[i] == Phrase[i]
    {
      assert s[i] == Capitalised[i] == Phrase[i];
    }
    assert lower[..10] == Phrase;
    IndexOfFirst(lower, Phrase, 0);
  }

  /**
   * "My name is Al" is remembered as "My": the case-sensitive split finds no phrase and the first
   * word of the whole message is taken.
   */
  lemma CapitalisedPhraseStoresMy(name: string)
    requires name != [] && NoneIn(name, Ws)
    ensures ScanName(Capitalised + name) == Name("My")
  {
    var s := Capitalised + name;
    CapitalisedPhraseFound(name);
    CapitalisedPhraseMissed(name);
    assert After(s, Phrase) == s;
    assert s[0] == 'M' && s[1] == 'y' && s[2] == ' ';
    FirstWord(s, 0, 2);
    assert s[..2] == "My";
  }

  /** The case-sensitive search finds no "my name is" in a capitalised introduction. */
  lemma CapitalisedPhraseMissed(name: string)
    requires name != [] && NoneIn(name, Ws)
    ensures IndexOf(Capitalised + name, Phrase) == None
  {
    var s := Capitalised + name;
    forall j | 0 <= j
      ensures !OccursAt(s, Phrase, j)
    {
      if j + |Phrase| <= |s| {
        if j <= 10 {
          IntroHasNoPhrase(name, j);
        } else {
          assert s[j + 2] == name[j + 2 - |Capitalised|];
        }
      }
    }
  }

  /** Within the capitalised introduction the phrase starts nowhere. */
  lemma IntroHasNoPhrase(name: string, j: nat)
    requires name != [] && j <= 10
    ensures !OccursAt(Capitalised + name, Phrase, j)
  {
    var s := Capitalised + name;
    if j == 10 {
      assert s[10] == ' ';
    } else {
      assert s[j] == Capitalised[j] && s[j + 1] == Capitalised[j + 1];
      assert Capitalised[j] != 'm' || Capitalised[j + 1] != 'y';
    }
  }

  /** The case-insensitive reading of "My name is Al" would give "Al". */
  lemma CapitalisedPhraseIgnoringCase(name: string)
    requires name != [] && NoneIn(name, Ws)
    ensures ScanNameIgnoringCase(Capitalised + name) == Name(name)
  {
    var s := Capitalised + name;
    var rest := s[|Phrase|..];
    CapitalisedPhraseFound(name);
    assert rest == " " + name;
    FirstWord(rest, 1, |name| + 1);
    assert Words(rest)[0] == rest[1..] == name;
  }

  /** A message ending at its first "my name is" names no word, and `outlet` raises IndexError on it. */
  lemma PhraseAtEndRaises(memory: Memory, uid: string, content: string)
    requires IndexOf(content, Phrase) == Some(|content| - |Phrase|)
    ensures ScanName(content) == NoWord
    ensures LearnOne(memory, uid, Message("user", content)) == (memory, Some(IndexError))
  {
    var k := |content| - |Phrase|;
    var lower := LowerStr(content);
    forall i | 0 <= i < |Phrase|
      ensures lower[k + i] == Phrase[i]
    {
      assert content[k + i] == Phrase[i];
      assert !IsUpperAscii(Phrase[i]);
    }
    assert lower[k..k + |Phrase|] == Phrase;
    ContainsAt(lower, Phrase, k);
    assert After(content, Phrase) == [];
    assert SplitRuns([], Ws) == [[]];
  }

  /** One message of the window applied to the memory: `None` error means go on. */
  function LearnOne(memory: Memory, uid: string, m: Message): (r: (Memory, Option<PyError>))
    ensures r.1.Some? ==> r.0 == memory && r.1 == Some(IndexError)
  {
    if m.role != "user" then (memory, None)
    else
      match ScanName(m.content)
      case NoName => (memory, None)
      case NoWord => (memory, Some(IndexError))
      case Name(n) => (memory[uid := Put(Get(memory, uid), "name", n)], None)
  }

  /**
   * The loop of `outlet` over `ms`: each naming user message stores its name under "name"; a
   * phrase with nothing after it raises IndexError, keeping what was stored before.
   */
  function LearnAll(memory: Memory, uid: string, ms: seq<Message>): (r: (Memory, Option<PyError>))
    ensures r.1.Some? ==> r.1 == Some(IndexError)
    decreases |ms|
  {
    if ms == [] then (memory, None)
    else
      var before := LearnAll(memory, uid, ms[..|ms| - 1]);
      if before.1.Some? then before else LearnOne(before.0, uid, ms[|ms| - 1])
  }

  /** One more message of the window: learnt from unless an error was raised before it. */
  lemma LearnAllStep(memory: Memory, uid: string, ms: seq<Message>, i: nat)
    requires i < |ms|
    ensures var before := LearnAll(memory, uid, ms[..i]);
      LearnAll(memory, uid, ms[..i + 1]) == if before.1.Some? then before else LearnOne(before.0, uid, ms[i])
  {
    assert ms[..i + 1][..i] == ms[..i];
  }

  /** Once IndexError is raised, the messages after it are never looked at. */
  lemma {:induction false} LearnStopsAtError(memory: Memory, uid: string, ms: seq<Message>, more: seq<Message>)
    requires LearnAll(memory, uid, ms).1.Some?
    ensures LearnAll(memory, uid, ms + more) == LearnAll(memory, uid, ms)
    decreases |more|
  {
    if more != [] {
      var init := more[..|more| - 1];
      LearnStopsAtError(memory, uid, ms, init);
      assert (ms + more)[..|ms + more| - 1] == ms + init;
      assert LearnAll(memory, uid, ms + more) == LearnAll(memory, uid, ms + init);
    } else {
      assert ms + more == ms;
    }
  }

  /** The memory and the raised error, if any, after `outlet`. */
  function OutletMemory(enabled: bool, memory: Memory, uid: string, ms: seq<Message>): (r: (Memory, Option<PyError>))
    ensures !enabled || ms == [] ==> r == (memory, None)
  {
    if !enabled || ms == [] then (memory, None) else LearnAll(memory, uid, LastN(ms, Window))
  }

  /** Learning touches only the speaking user's dict. */
  lemma {:induction false} LearnOtherUsers(memory: Memory, uid: string, ms: seq<Message>, other: string)
    requires other != uid
    ensures other in LearnAll(memory, uid, ms).0 <==> other in memory
    ensures other in memory ==> LearnAll(memory, uid, ms).0[other] == memory[other]
    decreases |ms|
  {
    if ms != [] {
      LearnOtherUsers(memory, uid, ms[..|ms| - 1], other);
    }
  }

  /** Learning changes no fact of the user but the name. */
  lemma {:induction false} LearnOtherKeys(memory: Memory, uid: string, ms: seq<Message>, key: string)
    requires key != "name"
    ensures Lookup(Get(LearnAll(memory, uid, ms).0, uid), key) == Lookup(Get(memory, uid), key)
    decreases |ms|
  {
    if ms != [] {
      var before := LearnAll(memory, uid, ms[..|ms| - 1]);
      LearnOtherKeys(memory, uid, ms[..|ms| - 1], key);
      LearnOneOtherKeys(before.0, uid, ms[|ms| - 1], key);
    }
  }

  lemma LearnOneOtherKeys(memory: Memory, uid: string, m: Message, key: string)
    requires key != "name"
    ensures Lookup(Get(LearnOne(memory, uid, m).0, uid), key) == Lookup(Get(memory, uid), key)
  {
    if m.role == "user" && ScanName(m.content).Name? {
      PutLookup(Get(memory, uid), "name", ScanName(m.content).name, key);
    }
  }

  /** Messages that name nobody leave the memory as it was. */
  lemma {:induction false} LearnNothing(memory: Memory, uid: string, ms: seq<Message>)
    requires forall i :: 0 <= i < |ms| && ms[i].role == "user" ==> ScanName(ms[i].content) == NoName
    ensures LearnAll(memory, uid, ms) == (memory, None)
    decreases |ms|
  {
    if ms != [] {
      LearnNothing(memory, uid, ms[..|ms| - 1]);
    }
  }

  /** The last naming message wins: its name is what is remembered. */
  lemma {:induction false} LearnLastName(memory: Memory, uid: string, ms: seq<Message>, k: nat, n: string)
    requires k < |ms| && ms[k].role == "user" && ScanName(ms[k].content) == Name(n)
    requires forall i :: k < i < |ms| && ms[i].role == "user" ==> ScanName(ms[i].content) == NoName
    requires LearnAll(memory, uid, ms[..k]).1.None?
    ensures LearnAll(memory, uid, ms).1.None?
    ensures Lookup(Get(LearnAll(memory, uid, ms).0, uid), "name") == Some(n)
    decreases |ms|
  {
    if k == |ms| - 1 {
      assert ms[..|ms| - 1] == ms[..k];
      PutLookup(Get(LearnAll(memory, uid, ms[..k]).0, uid), "name", n, "name");
    } else {
      var init := ms[..|ms| - 1];
      assert init[..k] == ms[..k];
      LearnLastName(memory, uid, init, k, n);
    }
  }

  /** The filter object: its valve and the memory loaded when it was made. */
  class MemoryFilter {
    var enabled: bool
    var memory: Memory

    /** `__init__`: the valve on and the memory as `load_memory` read it from the file. */
    constructor (loaded: Memory)
      ensures enabled && memory == loaded
    {
      enabled := true;
      memory := loaded;
    }

    /** `inlet`: the user's first five facts put before the conversation as a system message. */
    method Inlet(body: Body, user: Option<User>)
      modifies body`messages
      ensures body.messages == InletMessages(enabled, memory, UserId(user), old(body.messages))
    {
      var ms := body.messages;
      if !enabled || ms == [] {
        return;
      }
      var es := Get(memory, UserId(user));
      if es != [] {
        var context := BuildMemoryContext(es);
        body.messages := [Message("system", context)] + ms;
      }
    }

    /** `outlet`: names learnt from the last five messages, or the IndexError it raises. */
    method Outlet(body: Body, user: Option<User>) returns (failure: Option<PyError>)
      modifies this`memory
      ensures (memory, failure) == OutletMemory(enabled, old(memory), UserId(user), body.messages)
    {
      failure := None;
      var ms := body.messages;
      if !enabled || ms == [] {
        return;
      }
      var uid := UserId(user);
      var window := LastN(ms, Window);
      var i := 0;
      while i < |window|
        invariant 0 <= i <= |window|
        invariant (memory, None) == LearnAll(old(memory), uid, window[..i])
      {
        var m := window[i];
        LearnAllStep(old(memory), uid, window, i);
        if m.role == "user" {
          match ScanName(m.content)
          case NoName =>
          case NoWord =>
            LearnStopsAtError(old(memory), uid, window[..i + 1], window[i + 1..]);
            Seqs.PrefixSuffix(window, i + 1);
            return Some(IndexError);
          case Name(n) =>
            memory := memory[uid := Put(Get(memory, uid), "name", n)];
        }
        i := i + 1;
      }
      Seqs.PrefixAll(window);
    }
  }
}

=== FILE: mindx.dfy ===
/**
 * The MindX chat function (mindx_function.py): canned answers to questions about MindX, and a
 * signature appended to substantial assistant replies.
 */
module MindX {
  import opened Wrappers
  import opened Text
  import opened Chat

  const Signature: string := "\n\n---\n*Powered by MindX Technology - Intelligence Amplified*"

  const InfoWords: seq<string> := ["info", "about", "what is", "tell me"]

  const Keywords: seq<string> := ["recommend", "analysis", "solution", "conclusion", "summary", "steps", "guide"]

  const Insight: string := "\n\n\U{1F4A1} **MindX Insight:** This comprehensive analysis considers multiple perspectives. Focus on the key points most relevant to your needs."

  /** The two canned answers, each represented by its first line and its last line around an ellipsis. */
  const WelcomeText: string := "# Welcome to MindX Chat! \U{1F680}\n\U{2026}\n*Powered by MindX Technology - Intelligence Amplified*"

  const CapabilitiesText: string := "## \U{1F9E0} MindX Capabilities\n\U{2026}\n*Powered by MindX Technology*"

  /** What `handler` gives back: a fresh body holding only `messages`, or the body it was given. */
  datatype Reply = Fresh(messages: seq<Message>) | SameBody

  /** A lower-cased user message asking what MindX is. */
  predicate IsInfoRequest(lower: string) {
    Contains(lower, "mindx") && ContainsAny(lower, InfoWords)
  }

  /** A lower-cased user message asking what MindX can do. */
  predicate IsCapabilitiesRequest(lower: string) {
    Contains(lower, "capabilities") || Contains(lower, "what can you do")
  }

  /** An assistant reply that earns the signature: it mentions a keyword or runs past 1500 characters. */
  predicate Substantial(content: string) {
    ContainsAny(LowerStr(content), Keywords) || |content| > 1500
  }

  /** The first enhancement step: the signature appended once to a substantial reply. */
  function Signed(content: string): (r: string)
    ensures r == content || r == content + Signature
  {
    if Substantial(content) && !Contains(content, Signature) then content + Signature else content
  }

  /** Both enhancement steps: the signature, then the insight for long replies that never name MindX. */
  function Enhance(content: string): (r: string)
    ensures r == Signed(content) || r == Signed(content) + Insight
  {
    var c := Signed(content);
    if |c| > 2000 && !Contains(c, "MindX") then c + Insight else c
  }

  /** The canned answer to a user message, if it asks about MindX or its capabilities. */
  function UserReply(content: string): (r: Option<Message>)
    ensures r.Some? ==> r.value.role == "assistant"
    ensures r.None? <==> !IsInfoRequest(LowerStr(content)) && !IsCapabilitiesRequest(LowerStr(content))
  {
    var lower := LowerStr(content);
    if IsInfoRequest(lower) then Some(Message("assistant", WelcomeText))
    else if IsCapabilitiesRequest(lower) then Some(Message("assistant", CapabilitiesText))
    else None
  }

  /** The reply and the resulting message list for a request holding `ms`. */
  function Handle(ms: seq<Message>): (r: (Reply, seq<Message>))
    ensures |r.1| == |ms|
    ensures ms != [] ==> r.1[..|ms| - 1] == ms[..|ms| - 1]
    ensures (ms == [] || ms[|ms| - 1].role != "assistant") ==> r.1 == ms
    ensures r.0.Fresh? ==> r.1 == ms && |r.0.messages| == 1 && r.0.messages[0].role == "assistant"
    ensures r.0.Fresh? <==> ms != [] && ms[|ms| - 1].role == "user" && UserReply(ms[|ms| - 1].content).Some?
  {
    if ms == [] then (SameBody, ms)
    else
      var last := ms[|ms| - 1];
      var reply := UserReply(last.content);
      if last.role == "user" && reply.Some? then (Fresh([reply.value]), ms)
      else if last.role == "assistant" then
        (SameBody, ReplaceLast(ms, Message(last.role, Enhance(last.content))))
      else
        (SameBody, ms)
  }

  /** The signature is appended exactly when the reply is substantial and does not already carry it. */
  lemma SignatureAppendedIff(content: string)
    ensures Signed(content) == content + Signature <==> Substantial(content) && !Contains(content, Signature)
    ensures Contains(Signed(content), Signature) <==> Substantial(content) || Contains(content, Signature)
  {
    assert |Signature| > 0;
    if Substantial(content) && !Contains(content, Signature) {
      ContainsSuffix(content, Signature);
    } else {
      assert Signed(content) == content;
      assert Signed(content) != content + Signature by {
        assert |content + Signature| > |content|;
      }
    }
  }

  /** "MindX" occurs inside the signature. */
  lemma SignatureNamesMindX()
    ensures Contains(Signature, "MindX")
  {
    assert Signature[18] == 'M' && Signature[19] == 'i' && Signature[20] == 'n';
    assert Signature[21] == 'd' && Signature[22] == 'X';
    assert Signature[18..23] == "MindX";
    ContainsAt(Signature, "MindX", 18);
  }

  /** Every reply over 2000 characters after the first step names MindX. */
  lemma LongSignedNamesMindX(content: string)
    requires |Signed(content)| > 2000
    ensures Contains(Signed(content), Signature) && Contains(Signed(content), "MindX")
  {
    SignatureNamesMindX();
    if Substantial(content) && !Contains(content, Signature) {
      ContainsSuffix(content, Signature);
    } else {
      assert Contains(content, Signature);
    }
    ContainsTrans(Signed(content), Signature, "MindX");
  }

  /**
   * The insight is dead code: a reply long enough for it already carries the signature, and the
   * signature names MindX.
   */
  lemma InsightNeverAppended(content: string)
    ensures Enhance(content) == Signed(content)
  {
    if |Signed(content)| > 2000 {
      LongSignedNamesMindX(content);
    }
  }

  /** Enhancing an enhanced reply changes nothing: the signature is never appended twice. */
  lemma EnhanceIdempotent(content: string)
    ensures Enhance(Enhance(content)) == Enhance(content)
  {
    InsightNeverAppended(content);
    InsightNeverAppended(Enhance(content));
    if Signed(content) != content {
      ContainsSuffix(content, Signature);
    }
  }

  /** A question that is both an info and a capabilities request gets the welcome answer. */
  lemma InfoBeforeCapabilities(ms: seq<Message>)
    requires ms != [] && ms[|ms| - 1].role == "user"
    requires IsInfoRequest(LowerStr(ms[|ms| - 1].content))
    ensures Handle(ms) == (Fresh([Message("assistant", WelcomeText)]), ms)
  {
  }

  /** A capabilities question that does not ask about MindX gets the capabilities answer. */
  lemma CapabilitiesAnswer(ms: seq<Message>)
    requires ms != [] && ms[|ms| - 1].role == "user"
    requires !IsInfoRequest(LowerStr(ms[|ms| - 1].content))
    requires IsCapabilitiesRequest(LowerStr(ms[|ms| - 1].content))
    ensures Handle(ms) == (Fresh([Message("assistant", CapabilitiesText)]), ms)
  {
  }

  /** An assistant reply is signed in place; the body itself is returned. */
  lemma AssistantSigned(ms: seq<Message>)
    requires ms != [] && ms[|ms| - 1].role == "assistant"
    ensures Handle(ms).0 == SameBody
    ensures Handle(ms).1 == ReplaceLast(ms, Message("assistant", Signed(ms[|ms| - 1].content)))
  {
    InsightNeverAppended(ms[|ms| - 1].content);
  }

  /** Handling the body a second time leaves it as the first pass left it. */
  lemma HandleIdempotent(ms: seq<Message>)
    ensures Handle(Handle(ms).1).1 == Handle(ms).1
  {
    if ms != [] && ms[|ms| - 1].role == "assistant" {
      var c := ms[|ms| - 1].content;
      var once := Handle(ms).1;
      assert once[|once| - 1] == Message("assistant", Enhance(c));
      EnhanceIdempotent(c);
      assert once[..|once| - 1] + [Message("assistant", Enhance(c))] == once;
    }
  }

  /**
   * `handler`: the canned answer for a MindX question, or the last assistant reply enhanced in the
   * body's own message list.
   */
  method Handler(body: Body) returns (r: Reply)
    modifies body`messages
    ensures (r, body.messages) == Handle(old(body.messages))
  {
    var ms := body.messages;
    if ms == [] {
      return SameBody;
    }
    var last := ms[|ms| - 1];
    if last.role == "user" {
      var reply := UserReply(last.content);
      if reply.Some? {
        return Fresh([reply.value]);
      }
    }
    if last.role == "assistant" {
      body.messages := ReplaceLast(ms, Message(last.role, Enhance(last.content)));
    }
    return SameBody;
  }
}

=== FILE: notes_class.dfy ===
/**
 * The Notesnook complete pipe (notesnook_complete_class.py): it answers the user's message with
 * the notes page, the save-conversation page or the message itself, and changes nothing it is
 * given.
 */
module NotesnookCompleteClass {
  import opened Text
  import opened Chat
  import opened Preview

  const OpenTriggers: seq<string> :=
    ["open notes", "show notes", "take notes", "/notes", "notesnook", "my notes", "create note", "new note"]

  /** The fixed notes page; only its first and last lines are kept, the ellipsis stands for the rest. */
  const NotesPage: string :=
    "## \U{1F4DD} Notesnook Professional - Self-Hosted Edition\n\U{2026}\n*Your complete Notesnook ecosystem is running locally with all Pro features!*"

  predicate IsSaveRequest(lower: string) {
    Contains(lower, "save this conversation") || Contains(lower, "save conversation")
  }

  /** Which answer `pipe` gives: the message itself, the notes page or the save page. */
  datatype Answer = Echo | Notes | SaveConversation(text: string)

  /**
   * The answer `pipe` chooses. The triggers are looked for in `userMessage`; `messages` only decides
   * whether anything is done at all and feeds the preview.
   */
  function Choose(userMessage: string, messages: seq<Message>): (r: Answer)
    ensures messages == [] ==> r == Echo
    ensures r.SaveConversation? ==> r.text == ConversationText(messages)
  {
    if messages == [] then Echo
    else
      var lower := LowerStr(userMessage);
      if ContainsAny(lower, OpenTriggers) then Notes
      else if IsSaveRequest(lower) then SaveConversation(ConversationText(messages))
      else Echo
  }

  /** The text `pipe` returns for an answer. */
  function Render(a: Answer, userMessage: string): string {
    match a
    case Echo => userMessage
    case Notes => NotesPage
    case SaveConversation(text) => SavePage(text)
  }

  /** The notes page answers any open trigger, whatever the save phrases and the messages. */
  lemma OpenBeforeSave(userMessage: string, messages: seq<Message>)
    requires messages != [] && ContainsAny(LowerStr(userMessage), OpenTriggers)
    ensures Choose(userMessage, messages) == Notes
  {
  }

  /** Which answer is chosen depends on `userMessage` alone, not on the contents of `messages`. */
  lemma DispatchOnUserMessage(userMessage: string, ms1: seq<Message>, ms2: seq<Message>)
    requires ms1 != [] && ms2 != []
    ensures Choose(userMessage, ms1).Echo? == Choose(userMessage, ms2).Echo?
    ensures Choose(userMessage, ms1).Notes? == Choose(userMessage, ms2).Notes?
  {
  }

  /** The save page shows the preview of the last ten messages, cut at 500 characters. */
  lemma SaveShowsPreview(userMessage: string, messages: seq<Message>)
    requires Choose(userMessage, messages).SaveConversation?
    ensures Contains(Render(Choose(userMessage, messages), userMessage), Shown500(ConversationText(messages)))
  {
    SavePageShowsPreview(ConversationText(messages));
  }

  /** `pipe`: the dispatch, with the preview built by its loop. Nothing it is given is changed. */
  method Pipe(userMessage: string, modelId: string, messages: seq<Message>) returns (r: string)
    ensures r == Render(Choose(userMessage, messages), userMessage)
  {
    if messages == [] {
      return userMessage;
    }
    var lower := LowerStr(userMessage);
    if ContainsAny(lower, OpenTriggers) {
      return NotesPage;
    }
    if Contains(lower, "save this conversation") || Contains(lower, "save conversation") {
      var text := BuildConversationText(messages);
      return SavePage(text);
    }
    return userMessage;
  }
}

=== FILE: notes_complete.dfy ===
/**
 * The Notesnook complete filter (notesnook_complete_filter.py): on the way in, a trigger phrase in
 * the last message replaces that message with the notes page or with the save-conversation page.
 */
module NotesnookCompleteFilter {
  import opened Text
  import opened Chat
  import opened Preview

  const OpenTriggers: seq<string> :=
    ["open notes", "show notes", "take notes", "/notes", "notesnook", "my notes", "create note", "new note"]

  /** The fixed notes page; only its first and last lines are kept, the ellipsis stands for the rest. */
  const NotesPage: string :=
    "## \U{1F4DD} MindX Notes - Professional Edition\n\U{2026}\n*Your complete Notesnook ecosystem is running locally with all Pro features!*"

  predicate IsSaveRequest(lower: string) {
    Contains(lower, "save this conversation") || Contains(lower, "save conversation")
  }

  /** The message list after `inlet`. */
  function InletMessages(enabled: bool, ms: seq<Message>): (r: seq<Message>)
    ensures |r| == |ms|
    ensures ms != [] ==> r[..|ms| - 1] == ms[..|ms| - 1]
    ensures r != ms ==> enabled && r[|r| - 1].role == "assistant"
    ensures !enabled || ms == [] ==> r == ms
  {
    if !enabled || ms == [] then ms
    else
      var lower := LastContentLower(ms);
      if ContainsAny(lower, OpenTriggers) then ReplaceLast(ms, Message("assistant", NotesPage))
      else if IsSaveRequest(lower) then ReplaceLast(ms, Message("assistant", SavePage(ConversationText(ms))))
      else ms
  }

  /** An open trigger wins over a save phrase in the same message. */
  lemma OpenBeforeSave(ms: seq<Message>)
    requires ms != [] && ContainsAny(LastContentLower(ms), OpenTriggers)
    ensures InletMessages(true, ms) == ReplaceLast(ms, Message("assistant", NotesPage))
  {
  }

  /** A save phrase without an open trigger puts the preview of the last ten messages in its place. */
  lemma SaveShowsPreview(ms: seq<Message>)
    requires ms != [] && !ContainsAny(LastContentLower(ms), OpenTriggers) && IsSaveRequest(LastContentLower(ms))
    ensures var r := InletMessages(true, ms);
      r[|r| - 1].role == "assistant" && Contains(r[|r| - 1].content, Shown500(ConversationText(ms)))
  {
    SavePageShowsPreview(ConversationText(ms));
  }

  /** Without a trigger or a save phrase the messages are left alone. */
  lemma NoTriggerUnchanged(ms: seq<Message>)
    requires ms != [] && !ContainsAny(LastContentLower(ms), OpenTriggers) && !IsSaveRequest(LastContentLower(ms))
    ensures InletMessages(true, ms) == ms
  {
  }

  /**
   * The preview includes the trigger message itself: its entry is the last one whenever it has a
   * role and content.
   */
  lemma PreviewEndsWithTrigger(ms: seq<Message>)
    requires ms != [] && Shown(ms[|ms| - 1])
    ensures var es := Entries(LastN(ms, 10)); es != [] && es[|es| - 1] == Entry(ms[|ms| - 1])
  {
    var w := LastN(ms, 10);
    assert w[|w| - 1] == ms[|ms| - 1];
    EntriesSnoc(w[..|w| - 1], w[|w| - 1]);
    assert w[..|w| - 1] + [w[|w| - 1]] == w;
  }

  /** The filter with its `enabled` valve. */
  class CompleteFilter {
    var enabled: bool

    constructor ()
      ensures enabled
    {
      enabled := true;
    }

    /** `inlet`: the last message replaced in the body's own list when a trigger is found. */
    method Inlet(body: Body)
      modifies body`messages
      ensures body.messages == InletMessages(enabled, old(body.messages))
    {
      var ms := body.messages;
      if !enabled || ms == [] {
        return;
      }
      var lower := LowerStr(ms[|ms| - 1].content);
      if ContainsAny(lower, OpenTriggers) {
        body.messages := ReplaceLast(ms, Message("assistant", NotesPage));
      } else if Contains(lower, "save this conversation") || Contains(lower, "save conversation") {
        var text := BuildConversationText(ms);
        body.messages := ReplaceLast(ms, Message("assistant", SavePage(text)));
      }
    }

    /** `outlet` of notesnook_complete_filter.py (lines 187-192): an identity; its two debug prints are left out. */
    method Outlet(body: Body) returns (r: Body)
      ensures r == body
    {
      return body;
    }
  }
}

=== FILE: notes_integration.dfy ===
/**
 * The Notesnook integration handler (notesnook_integration.py): a trigger phrase opens the notes
 * app in a frame, pre-filled with the text after "note this:" or "save note:"; a save phrase
 * opens it on a note made of the recent conversation, percent-encoded into the frame's URL.
 */
module NotesnookIntegration {
  import opened Wrappers
  import opened Text
  import opened Scan
  import opened Chat
  import Url
  import Seqs

  const OpenTriggers: seq<string> :=
    ["open notes", "show notes", "take notes", "note this", "save note", "create note", "my notes", "notesnook", "/notes"]

  const Tailnet: string := "https://eulicess-mac-studio.tail8e6b76.ts.net/notesnook"

  const Localhost: string := "http://localhost:3001"

  /**
   * The notes page up to the frame's `src` value. The page's fixed markup is represented by its
   * first line, its heading line and its last line, with an ellipsis for each omitted run.
   */
  const NotesHead: string :=
    "\n\U{2026}\n                \U{1F4DD} Notesnook Professional - All Pro Features Unlocked\n\U{2026}\n                src=\""

  /** The rest of the notes page after the `src` value: its first and last lines. */
  const NotesTail: string := "\"\n\U{2026}\n        "

  /** The save page up to the frame's `src` value, represented the same way. */
  const SaveHead: string :=
    "\n\U{2026}\n                \U{1F4BE} Conversation Saved to Notesnook\n\U{2026}\n                src=\""

  /** The rest of the save page after the `src` value. */
  const SaveTail: string := "\"\n\U{2026}\n        "

  /** What `handler` returns: the body it was given, or a fresh assistant message dict. */
  datatype Reply = ReturnBody | Assistant(content: string)

  predicate IsSaveRequest(lower: string) {
    Contains(lower, "save this conversation") || Contains(lower, "save conversation")
  }

  /** The text to pre-fill: what follows the first "note this:", else the first "save note:". */
  function Prefill(lower: string): (r: string)
    ensures IsStripped(r) && |r| <= |lower|
  {
    StripProps(After(lower, "note this:"));
    StripProps(After(lower, "save note:"));
    if Contains(lower, "note this:") then Strip(After(lower, "note this:"))
    else if Contains(lower, "save note:") then Strip(After(lower, "save note:"))
    else ""
  }

  /** The app's address: the tailnet one on an HTTPS page, the local one otherwise. */
  function NotesUrl(baseUrl: string): string {
    if Contains(baseUrl, "https://") then Tailnet else Localhost
  }

  /** The frame's `src` for the notes page: the pre-filled text is appended unencoded. */
  function IframeSrc(url: string, prefill: string): string {
    url + (if prefill != "" then "?content=" + prefill else "")
  }

  function NotesPage(src: string): string {
    NotesHead + src + NotesTail
  }

  /** A message the conversation text includes: a user or assistant one with content. */
  predicate Kept(m: Message) {
    (m.role == "user" || m.role == "assistant") && Take(m.content, 500) != ""
  }

  /** `f"**{role.title()}:** {clean_content}\n\n"`. */
  function Line(m: Message): string {
    "**" + Title(m.role) + ":** " + StripTags(Take(m.content, 500), true) + "\n\n"
  }

  function Lines(ms: seq<Message>): string
    decreases |ms|
  {
    if ms == [] then ""
    else
      var init := Lines(ms[..|ms| - 1]);
      if Kept(ms[|ms| - 1]) then init + Line(ms[|ms| - 1]) else init
  }

  /** The conversation text of the last ten messages. */
  function ConversationText(ms: seq<Message>): string {
    Lines(LastN(ms, 10))
  }

  /** The frame's `src` for the save page: only the first 1000 characters travel, quoted. */
  function SaveSrc(url: string, text: string): string {
    url + "?title=Chat%20Summary&content=" + Url.Quote(Take(text, 1000))
  }

  function SavePage(url: string, text: string): string {
    SaveHead + SaveSrc(url, text) + SaveTail
  }

  /** `handler`'s answer for the messages and the body's "base_url". */
  function Handle(ms: seq<Message>, baseUrl: string): (r: Reply)
    ensures ms == [] ==> r == ReturnBody
    ensures r.Assistant? <==> ms != [] && (ContainsAny(LastContentLower(ms), OpenTriggers) || IsSaveRequest(LastContentLower(ms)))
  {
    if ms == [] then ReturnBody
    else
      var lower := LastContentLower(ms);
      if ContainsAny(lower, OpenTriggers) then Assistant(NotesPage(IframeSrc(NotesUrl(baseUrl), Prefill(lower))))
      else if IsSaveRequest(lower) then Assistant(SavePage(NotesUrl(baseUrl), ConversationText(ms)))
      else ReturnBody
  }

  /** "note this:" wins over "save note:" when both are present. */
  lemma PrefillPrefersNoteThis(lower: string)
    requires Contains(lower, "note this:")
    ensures Prefill(lower) == Strip(After(lower, "note this:"))
  {
  }

  /** With neither prefix the frame opens the bare address. */
  lemma NoPrefillBareUrl(lower: string, url: string)
    requires !Contains(lower, "note this:") && !Contains(lower, "save note:")
    ensures IframeSrc(url, Prefill(lower)) == url
  {
  }

  /** The tailnet address is chosen exactly when the base URL mentions "https://". */
  lemma UrlChoice(baseUrl: string)
    ensures NotesUrl(baseUrl) == Tailnet <==> Contains(baseUrl, "https://")
    ensures NotesUrl(baseUrl) == Localhost <==> !Contains(baseUrl, "https://")
  {
    assert |Tailnet| != |Localhost|;
  }

  /** An open trigger wins over a save phrase. */
  lemma OpenBeforeSave(ms: seq<Message>, baseUrl: string)
    requires ms != [] && ContainsAny(LastContentLower(ms), OpenTriggers)
    ensures Handle(ms, baseUrl) == Assistant(NotesPage(IframeSrc(NotesUrl(baseUrl), Prefill(LastContentLower(ms)))))
  {
  }

  /**
   * Without an open trigger, a save phrase answers with the save page built from the last ten
   * messages, and that page's frame carries the quoted first 1000 characters of their text.
   */
  lemma SaveRequestPage(ms: seq<Message>, baseUrl: string)
    requires ms != [] && !ContainsAny(LastContentLower(ms), OpenTriggers) && IsSaveRequest(LastContentLower(ms))
    ensures Handle(ms, baseUrl) == Assistant(SavePage(NotesUrl(baseUrl), ConversationText(ms)))
    ensures Contains(Handle(ms, baseUrl).content, Url.Quote(Take(ConversationText(ms), 1000)))
  {
    var url := NotesUrl(baseUrl);
    var text := ConversationText(ms);
    var src := SaveSrc(url, text);
    ContainsSuffix(url + "?title=Chat%20Summary&content=", Url.Quote(Take(text, 1000)));
    ContainsInfix(SaveHead, src, SaveTail);
    ContainsTrans(SavePage(url, text), src, Url.Quote(Take(text, 1000)));
  }

  /** A message that is neither user nor assistant, or has no content, adds nothing to the text. */
  lemma {:induction false} LinesSnoc(ms: seq<Message>, m: Message)
    ensures Lines(ms + [m]) == if Kept(m) then Lines(ms) + Line(m) else Lines(ms)
  {
    assert (ms + [m])[..|ms + [m]| - 1] == ms;
  }

  /** Messages older than the last ten have no influence on the conversation text. */
  lemma OlderMessagesIgnored(older: seq<Message>, recent: seq<Message>)
    requires |recent| >= 10
    ensures ConversationText(older + recent) == ConversationText(recent)
  {
    var all := older + recent;
    assert LastN(all, 10) == recent[|recent| - 10..];
  }

  /**
   * Text past the first 1000 characters never reaches the frame, and the first 1000 come back
   * whole from the quoted `src` value.
   */
  lemma SaveSrcCarriesFirst1000(url: string, text: string, more: string)
    requires |text| >= 1000
    ensures SaveSrc(url, text + more) == SaveSrc(url, text)
    ensures Url.Unquote(Url.Quote(Take(text + more, 1000))) == Some(text[..1000])
  {
    assert Take(text + more, 1000) == text[..1000] == Take(text, 1000);
    Url.QuoteRoundTrip(text[..1000]);
  }

  /** The conversation text, accumulated by the loop over the last ten messages. */
  method BuildConversationText(ms: seq<Message>) returns (text: string)
    ensures text == ConversationText(ms)
  {
    var recent := LastN(ms, 10);
    text := "";
    var i := 0;
    while i < |recent|
      invariant 0 <= i <= |recent|
      invariant text == Lines(recent[..i])
    {
      var m := recent[i];
      LinesSnoc(recent[..i], m);
      Seqs.PrefixSnoc(recent, i);
      if Kept(m) {
        text := text + Line(m);
      }
      i := i + 1;
    }
    assert recent[..i] == recent;
  }

  /** `handler`, with the conversation text built by its loop. */
  method Handler(ms: seq<Message>, baseUrl: string) returns (r: Reply)
    ensures r == Handle(ms, baseUrl)
  {
    if ms == [] {
      return ReturnBody;
    }
    var lower := LowerStr(ms[|ms| - 1].content);
    if ContainsAny(lower, OpenTriggers) {
      return Assistant(NotesPage(IframeSrc(NotesUrl(baseUrl), Prefill(lower))));
    }
    if Contains(lower, "save this conversation") || Contains(lower, "save conversation") {
      var text := BuildConversationText(ms);
      return Assistant(SavePage(NotesUrl(baseUrl), text));
    }
    return ReturnBody;
  }
}

=== FILE: notes_optimal.dfy ===
/**
 * The lightweight Notesnook handler (notesnook_optimal.py): a trigger phrase answers with an
 * embedded notes editor; a save phrase turns the previous assistant message into a note that a
 * script stores in the browser. The clock and the MD5 digest are parameters.
 */
module NotesnookOptimal {
  import opened Wrappers
  import opened Text
  import opened Chat

  const OpenTriggers: seq<string> := ["open notes", "/notes", "show notes"]

  /** The editor page, represented by its first line and its last line around an ellipsis. */
  const EditorPage: string :=
    "## \U{1F4DD} Quick Notes Editor\n\U{2026}\n*This is integrated directly into OpenWebUI - no separate app needed!*"

  /** The end of the save reply from the note's closing backquote, represented the same way. */
  const ScriptTail: string := "`,\n\U{2026}\nSay \"open notes\" to view and edit your saved notes."

  /** What `handler` returns: the body it was given, or a fresh assistant message dict. */
  datatype Reply = ReturnBody | Assistant(content: string)

  predicate IsSaveRequest(lower: string) {
    Contains(lower, "save this as note") || Contains(lower, "save to notes")
  }

  /** The note's title, from the clock's `%Y-%m-%d %H:%M` rendering. */
  function NoteTitle(stamp: string): string {
    "AI Response - " + stamp
  }

  /** The id the script gives the note: the first eight hex digits of the content's MD5 digest. */
  function NoteId(prev: string, md5Hex: string -> string): (id: string)
    ensures |id| <= 8
  {
    Take(md5Hex(prev), 8)
  }

  /** The save reply's summary up to the shown part of the content. */
  function SummaryHead(title: string): string {
    "\U{2705} **Saved to Notes!**\n\n**Title:** " + title + "\n**Content:** "
  }

  /** The script that stores the note, up to the note's content. */
  function ScriptHead(id: string, title: string): string {
    "...\n\n<script>\n// Save to localStorage\nconst note = {\n    id: '" + id
      + "',\n    title: '" + title + "',\n    content: `"
  }

  /** The save reply: a summary of the note, then a script that stores the whole content. */
  function SavedText(prev: string, title: string, id: string): string {
    SummaryHead(title) + Take(prev, 100) + ScriptHead(id, title) + prev + ScriptTail
  }

  /**
   * `handler` for a body whose "messages" key holds `messages` (`None` when the key is absent),
   * at clock reading `stamp`.
   */
  function Handle(messages: Option<seq<Message>>, stamp: string, md5Hex: string -> string): (r: Py<Reply>)
    ensures messages.None? ==> r == Ok(ReturnBody)
    ensures r.Raise? <==> messages == Some([])
    ensures r.Raise? ==> r.error == IndexError
    ensures r.Ok? && r.value.Assistant? <==>
      messages.Some? && messages.value != [] &&
      (ContainsAny(LastContentLower(messages.value), OpenTriggers) ||
       (IsSaveRequest(LastContentLower(messages.value)) && PreviousAssistantContent(messages.value) != ""))
  {
    match messages
    case None => Ok(ReturnBody)
    case Some(ms) =>
      if ms == [] then Raise(IndexError)
      else
        var lower := LastContentLower(ms);
        if ContainsAny(lower, OpenTriggers) then Ok(Assistant(EditorPage))
        else if IsSaveRequest(lower) then
          var prev := PreviousAssistantContent(ms);
          if prev != "" then
            Ok(Assistant(SavedText(prev, NoteTitle(stamp), NoteId(prev, md5Hex))))
          else Ok(ReturnBody)
        else Ok(ReturnBody)
  }

  /** An open trigger answers with the editor, whatever else the message says. */
  lemma OpenBeforeSave(ms: seq<Message>, stamp: string, md5Hex: string -> string)
    requires ms != [] && ContainsAny(LastContentLower(ms), OpenTriggers)
    ensures Handle(Some(ms), stamp, md5Hex) == Ok(Assistant(EditorPage))
  {
  }

  /**
   * A saved note stores the whole previous assistant message, while its summary shows only the
   * first 100 characters of it.
   */
  lemma SavedNoteKeepsWholeContent(prev: string, title: string, id: string)
    ensures Contains(SavedText(prev, title, id), prev)
    ensures Contains(SavedText(prev, title, id), Take(prev, 100))
  {
    var shown := SummaryHead(title) + Take(prev, 100) + ScriptHead(id, title);
    ContainsInfix(SummaryHead(title), Take(prev, 100), ScriptHead(id, title));
    ContainsExtend(shown, Take(prev, 100), prev);
    ContainsExtend(shown + prev, Take(prev, 100), ScriptTail);
    ContainsInfix(shown, prev, ScriptTail);
  }

  /** The note saved is the most recent assistant message before the request. */
  lemma SaveTakesPreviousAnswer(ms: seq<Message>, stamp: string, md5Hex: string -> string)
    requires ms != [] && !ContainsAny(LastContentLower(ms), OpenTriggers) && IsSaveRequest(LastContentLower(ms))
    requires PreviousAssistantContent(ms) != ""
    ensures exists k :: 0 <= k < |ms| - 1 && ms[k].role == "assistant" &&
                        (forall j :: k < j < |ms| - 1 ==> ms[j].role != "assistant") &&
                        Handle(Some(ms), stamp, md5Hex) == Ok(Assistant(SavedText(ms[k].content, NoteTitle(stamp), NoteId(ms[k].content, md5Hex))))
  {
    var k := LastAssistantBelow(ms, |ms| - 1).value;
    assert PreviousAssistantContent(ms) == ms[k].content;
  }

  /** With no earlier assistant message a save phrase changes nothing. */
  lemma SaveWithoutAnswerReturnsBody(ms: seq<Message>, stamp: string, md5Hex: string -> string)
    requires ms != [] && !ContainsAny(LastContentLower(ms), OpenTriggers)
    requires forall j :: 0 <= j < |ms| - 1 ==> ms[j].role != "assistant"
    ensures Handle(Some(ms), stamp, md5Hex) == Ok(ReturnBody)
  {
    LastAssistantAbsent(ms, |ms| - 1);
  }

  /** Nor does it when the most recent earlier assistant message is empty. */
  lemma SaveEmptyAnswerReturnsBody(ms: seq<Message>, k: nat, stamp: string, md5Hex: string -> string)
    requires ms != [] && !ContainsAny(LastContentLower(ms), OpenTriggers)
    requires k < |ms| - 1 && ms[k].role == "assistant" && ms[k].content == ""
    requires forall j :: k < j < |ms| - 1 ==> ms[j].role != "assistant"
    ensures Handle(Some(ms), stamp, md5Hex) == Ok(ReturnBody)
  {
    LastAssistantFound(ms, |ms| - 1, k);
    assert PreviousAssistantContent(ms) == "";
  }

  /** `handler`, with the backward search for the previous assistant message as a loop. */
  method Handler(messages: Option<seq<Message>>, stamp: string, md5Hex: string -> string) returns (r: Py<Reply>)
    ensures r == Handle(messages, stamp, md5Hex)
  {
    if messages.None? {
      return Ok(ReturnBody);
    }
    var ms := messages.value;
    if ms == [] {
      return Raise(IndexError);
    }
    var lower := LastContentLower(ms);
    if ContainsAny(lower, OpenTriggers) {
      return Ok(Assistant(EditorPage));
    }
    if IsSaveRequest(lower) {
      var prev := FindPreviousAssistant(ms);
      if prev != "" {
        var title := NoteTitle(stamp);
        return Ok(Assistant(SavedText(prev, title, NoteId(prev, md5Hex))));
      }
    }
    return Ok(ReturnBody);
  }
}

=== FILE: notesnook_actions.dfy ===
/**
 * The note action buttons (notesnook_actions.py): the button descriptors, task extraction from a
 * message, the CSV export of a message, tag splitting, and the outcome of each button once the
 * host's dialogue answers are known.
 */
module NotesnookActions {
  import opened Wrappers
  import opened Text
  import opened Scan
  import opened Seqs

  // ---------------------------------------------------------------------------
  // extract_tasks
  // ---------------------------------------------------------------------------

  /** `[-*•]`. */
  function BulletHead(s: string, i: nat): nat {
    CharEnd(s, i, {'-', '*', '\U{2022}'})
  }

  /** `TODO:`, matched case-sensitively. */
  function TodoHead(s: string, i: nat): nat {
    PhraseEnd(s, i, ["TODO:"], false)
  }

  /** `Task:`, matched case-sensitively. */
  function TaskHead(s: string, i: nat): nat {
    PhraseEnd(s, i, ["Task:"], false)
  }

  /**
   * `[-*•]\s+(.+)`, `\d+\.\s+(.+)`, `TODO:\s*(.+)` and `Task:\s*(.+)`, in the order they are
   * searched; `.` matches anything but the newline.
   */
  const TaskPatterns: seq<Pattern> := [
    Pattern(BulletHead, 1, {'\n'}),
    Pattern(NumberDotEnd, 1, {'\n'}),
    Pattern(TodoHead, 0, {'\n'}),
    Pattern(TaskHead, 0, {'\n'})
  ]

  lemma TaskPatternsValid()
    ensures forall k :: 0 <= k < |TaskPatterns| ==> ValidPattern(TaskPatterns[k])
  {
  }

  /** Every match of every task pattern, pattern by pattern. */
  function TaskMatches(content: string): seq<string> {
    TaskPatternsValid();
    FindAllEach(content, TaskPatterns)
  }

  /** The matches come pattern by pattern: bullets, then numbered items, then `TODO:`, then `Task:`. */
  lemma TaskMatchesOrder(content: string)
    ensures TaskMatches(content) ==
      FindAll(content, TaskPatterns[0]) + FindAll(content, TaskPatterns[1])
      + FindAll(content, TaskPatterns[2]) + FindAll(content, TaskPatterns[3])
  {
    TaskPatternsValid();
    var ps := TaskPatterns;
    assert ps[..|ps| - 1] == ps[..3] && ps[|ps| - 1] == ps[3];
    assert ps[..3][..2] == ps[..2] && ps[..3][2] == ps[2];
    assert ps[..2][..1] == ps[..1] && ps[..2][1] == ps[1];
    assert ps[..1][..0] == [] && ps[..1][0] == ps[0];
    assert FindAllEach(content, ps[..1]) == FindAll(content, ps[0]);
    assert FindAllEach(content, ps[..2]) == FindAll(content, ps[0]) + FindAll(content, ps[1]);
    assert FindAllEach(content, ps[..3])
      == FindAll(content, ps[0]) + FindAll(content, ps[1]) + FindAll(content, ps[2]);
  }

  /** No upper/lower-case variant other than `TODO:` itself starts a `TODO:` match. */
  lemma TodoCaseSensitive(s: string, i: nat)
    ensures TodoHead(s, i) > i <==> OccursAt(s, "TODO:", i)
  {
    var alts := ["TODO:"];
    assert alts[0] == "TODO:" && alts[1..] == [];
    assert |alts[0]| == 5;
    assert PhraseEnd(s, i, alts[1..], false) == i;
    assert TodoHead(s, i) == PhraseEnd(s, i, alts, false);
  }

  /** `Task:` likewise matches only as written. */
  lemma TaskCaseSensitive(s: string, i: nat)
    ensures TaskHead(s, i) > i <==> OccursAt(s, "Task:", i)
  {
    var alts := ["Task:"];
    assert alts[0] == "Task:" && alts[1..] == [];
    assert |alts[0]| == 5;
    assert PhraseEnd(s, i, alts[1..], false) == i;
    assert TaskHead(s, i) == PhraseEnd(s, i, alts, false);
  }

  /** A stripped match is kept when it has 6 to 199 characters. */
  predicate IsTask(t: string) {
    5 < |t| < 200
  }

  /** The stripped matches that are tasks, in order, with no deduplication. */
  function KeptTasks(ms: seq<string>): (r: seq<string>)
    ensures |r| <= |ms|
    decreases |ms|
  {
    if ms == [] then []
    else
      var init := KeptTasks(ms[..|ms| - 1]);
      var t := Strip(ms[|ms| - 1]);
      if IsTask(t) then init + [t] else init
  }

  lemma KeptTasksSnoc(ms: seq<string>, m: string)
    ensures KeptTasks(ms + [m]) == if IsTask(Strip(m)) then KeptTasks(ms) + [Strip(m)] else KeptTasks(ms)
  {
    assert (ms + [m])[..|ms|] == ms;
  }

  /**
   * Filtering distributes over concatenation: every match is judged on its own, so a task found
   * by two patterns (a bulleted `TODO:` line, say) is listed twice.
   */
  lemma {:induction false} KeptTasksAppend(a: seq<string>, b: seq<string>)
    ensures KeptTasks(a + b) == KeptTasks(a) + KeptTasks(b)
    decreases |b|
  {
    if b == [] {
      assert a + b == a;
    } else {
      var b' := b[..|b| - 1];
      var m := b[|b| - 1];
      KeptTasksAppend(a, b');
      AppendSnoc(a, b);
      KeptTasksSnoc(a + b', m);
      KeptTasksSnoc(b', m);
      if IsTask(Strip(m)) {
        AppendAssoc(KeptTasks(a), KeptTasks(b'), [Strip(m)]);
      }
    }
  }

  /** Every kept task is a stripped match of 6 to 199 characters. */
  lemma {:induction false} KeptTasksFrom(ms: seq<string>, j: nat)
    requires j < |KeptTasks(ms)|
    ensures IsTask(KeptTasks(ms)[j]) && IsStripped(KeptTasks(ms)[j])
    ensures exists i :: 0 <= i < |ms| && KeptTasks(ms)[j] == Strip(ms[i])
    decreases |ms|
  {
    var prefix := ms[..|ms| - 1];
    var st := Strip(ms[|ms| - 1]);
    var init := KeptTasks(prefix);
    var r := KeptTasks(ms);
    assert r == if IsTask(st) then init + [st] else init;
    if j < |init| {
      assert r[j] == init[j];
      KeptTasksFrom(prefix, j);
      var i :| 0 <= i < |prefix| && init[j] == Strip(prefix[i]);
      assert prefix[i] == ms[i];
    } else {
      assert r[j] == st;
      StripProps(ms[|ms| - 1]);
    }
  }

  /** The tasks of a message: the kept matches, at most 10. */
  function Tasks(content: string): (r: seq<string>)
    ensures |r| <= 10
  {
    Take(KeptTasks(TaskMatches(content)), 10)
  }

  /** Each task is the stripped text of one match, 6 to 199 characters long, on a single line. */
  lemma TasksShape(content: string, k: nat)
    requires k < |Tasks(content)|
    ensures IsTask(Tasks(content)[k]) && IsStripped(Tasks(content)[k])
    ensures exists i :: 0 <= i < |TaskMatches(content)| && Tasks(content)[k] == Strip(TaskMatches(content)[i])
    ensures '\n' !in Tasks(content)[k]
  {
    var ms := TaskMatches(content);
    KeptTasksFrom(ms, k);
    var i :| 0 <= i < |ms| && Tasks(content)[k] == Strip(ms[i]);
    TaskMatchesOneLine(content);
    StripNoneIn(ms[i], {'\n'});
    assert NoneIn(Tasks(content)[k], {'\n'});
  }

  /** No match runs past the end of its line: every task pattern stops at the newline. */
  lemma TaskMatchesOneLine(content: string)
    ensures forall i :: 0 <= i < |TaskMatches(content)| ==> NoneIn(TaskMatches(content)[i], {'\n'})
  {
    TaskPatternsValid();
    assert TaskPatterns[0].stop == TaskPatterns[1].stop == TaskPatterns[2].stop == TaskPatterns[3].stop == {'\n'};
    FindAllEachAvoids(content, TaskPatterns, '\n');
  }

  /** Tasks are listed in pattern order: the bullet items come first. */
  lemma TasksBulletsFirst(content: string)
    ensures Take(KeptTasks(FindAll(content, TaskPatterns[0])), 10) <= Tasks(content)
  {
    TaskMatchesOrder(content);
    var m1 := FindAll(content, TaskPatterns[0]);
    var m2 := FindAll(content, TaskPatterns[1]);
    var m3 := FindAll(content, TaskPatterns[2]);
    var m4 := FindAll(content, TaskPatterns[3]);
    var rest := m2 + (m3 + m4);
    AppendAssoc(m1 + m2, m3, m4);
    AppendAssoc(m1, m2, m3 + m4);
    assert TaskMatches(content) == m1 + rest;
    KeptTasksAppend(m1, rest);
    TakePrefix(KeptTasks(m1), KeptTasks(rest), 10);
  }

  lemma TakePrefix<T>(a: seq<T>, b: seq<T>, n: nat)
    ensures Take(a, n) <= Take(a + b, n)
  {
    var x := Take(a, n);
    var y := Take(a + b, n);
    assert forall k :: 0 <= k < |x| ==> x[k] == a[k] == (a + b)[k] == y[k];
  }

  /** `extract_tasks`: the collecting loop, the cleaning loop and the cap of 10. */
  method ExtractTasks(content: string) returns (tasks: seq<string>)
    ensures tasks == Tasks(content)
  {
    var found := CollectTaskMatches(content);
    var cleaned := CleanTasks(found);
    tasks := Take(cleaned, 10);
  }

  /** `for pattern in patterns: tasks.extend(re.findall(pattern, content, re.MULTILINE))`. */
  method CollectTaskMatches(content: string) returns (found: seq<string>)
    ensures found == TaskMatches(content)
  {
    TaskPatternsValid();
    found := [];
    var p := 0;
    while p < |TaskPatterns|
      invariant 0 <= p <= |TaskPatterns|
      invariant found == FindAllEach(content, TaskPatterns[..p])
    {
      FindAllEachStep(content, TaskPatterns, p);
      found := found + FindAll(content, TaskPatterns[p]);
      p := p + 1;
    }
    PrefixAll(TaskPatterns);
  }

  /** `for task in tasks: task = task.strip(); if 5 < len(task) < 200: cleaned_tasks.append(task)`. */
  method CleanTasks(found: seq<string>) returns (cleaned: seq<string>)
    ensures cleaned == KeptTasks(found)
  {
    cleaned := [];
    var i := 0;
    while i < |found|
      invariant 0 <= i <= |found|
      invariant cleaned == KeptTasks(found[..i])
    {
      var task := Strip(found[i]);
      PrefixSnoc(found, i);
      KeptTasksSnoc(found[..i], found[i]);
      if |task| > 5 && |task| < 200 {
        cleaned := cleaned + [task];
      }
      i := i + 1;
    }
    assert found[..i] == found;
  }

  // ---------------------------------------------------------------------------
  // export_content, CSV branch
  // ---------------------------------------------------------------------------

  const CsvHeader: string := "Line Number,Content\n"

  /** `line.replace('"', '""')`. */
  function Quote(line: string): string {
    ReplaceAll(line, "\"", "\"\"")
  }

  /** One CSV row: the line number, a comma, the quoted line and a newline. */
  function CsvRow(number: nat, line: string): string {
    NatToString(number) + ",\"" + Quote(line) + "\"\n"
  }

  /** The rows of `lines`, numbered from `first`. */
  function CsvRows(lines: seq<string>, first: nat): string
    decreases |lines|
  {
    if lines == [] then [] else CsvRow(first, lines[0]) + CsvRows(lines[1..], first + 1)
  }

  /** The CSV export of a message: the header, then one row per `\n`-separated line, numbered from 1. */
  function Csv(content: string): string {
    CsvHeader + CsvRows(SplitChar(content, '\n'), 1)
  }

  /** One more line adds one more row, numbered after the previous ones. */
  lemma {:induction false} CsvRowsSnoc(lines: seq<string>, first: nat, line: string)
    ensures CsvRows(lines + [line], first) == CsvRows(lines, first) + CsvRow(first + |lines|, line)
    decreases |lines|
  {
    if lines == [] {
      assert [line][1..] == [];
    } else {
      assert (lines + [line])[1..] == lines[1..] + [line];
      CsvRowsSnoc(lines[1..], first + 1, line);
    }
  }

  /** The loop `for i, line in enumerate(lines, 1): csv_content += ...` of the CSV branch. */
  method ExportCsv(content: string) returns (csv: string)
    ensures csv == Csv(content)
  {
    var lines := SplitChar(content, '\n');
    csv := CsvHeader;
    var i := 0;
    while i < |lines|
      invariant 0 <= i <= |lines|
      invariant csv == CsvHeader + CsvRows(lines[..i], 1)
    {
      PrefixSnoc(lines, i);
      CsvRowsSnoc(lines[..i], 1, lines[i]);
      csv := csv + CsvRow(i + 1, lines[i]);
      i := i + 1;
    }
    assert lines[..i] == lines;
  }

  /** The formats whose export branch is not the CSV one. */
  const StampedFormats: set<string> := {"markdown", "text", "json"}

  /**
   * `export_content(content, format_type)`: the CSV text for every format outside markdown, text
   * and json; those three are not part of this model (`None`).
   */
  function ExportContent(content: string, format: string): (r: Option<string>)
    ensures format !in StampedFormats <==> r.Some?
    ensures r.Some? ==> StartsWith(r.value, CsvHeader)
  {
    if format in StampedFormats then None else Some(Csv(content))
  }

  // A reader for the exported CSV, to state what the export preserves.

  /** A parsed CSV row. */
  datatype Row = Row(number: nat, field: string)

  /**
   * A quoted field after its opening quote: characters up to the first quote that is not doubled,
   * with each doubled quote read as one quote; gives the field and what follows the closing quote.
   */
  function ParseQuoted(s: string): (r: Option<(string, string)>)
    ensures r.Some? ==> |r.value.1| < |s|
    decreases |s|
  {
    if s == [] then None
    else if s[0] == '"' then
      if |s| >= 2 && s[1] == '"' then
        match ParseQuoted(s[2..])
        case Some((f, rest)) => Some((['"'] + f, rest))
        case None => None
      else Some(([], s[1..]))
    else
      match ParseQuoted(s[1..])
      case Some((f, rest)) => Some(([s[0]] + f, rest))
      case None => None
  }

  predicate AllDigits(s: string) {
    forall i :: 0 <= i < |s| ==> IsDigit(s[i])
  }

  /** One row: a numeral, a comma, a quoted field and a newline; gives the row and the remaining text. */
  function ParseRow(s: string): (r: Option<(Row, string)>)
    ensures r.Some? ==> |r.value.1| < |s|
  {
    var c := FirstIn(s, {','}, 0);
    if c == 0 || c == |s| || !AllDigits(s[..c]) then None
    else
      var rest := s[c + 1..];
      if rest == [] || rest[0] != '"' then None
      else
        match ParseQuoted(rest[1..])
        case Some((f, after)) =>
          if after != [] && after[0] == '\n' then Some((Row(DigitsValue(s[..c]), f), after[1..])) else None
        case None => None
  }

  function ParseRows(s: string): (r: Option<seq<Row>>)
    decreases |s|
  {
    if s == [] then Some([])
    else
      match ParseRow(s)
      case None => None
      case Some((row, rest)) =>
        match ParseRows(rest)
        case None => None
        case Some(rows) => Some([row] + rows)
  }

  /** Reads an exported CSV text: the header, then rows to the end. */
  function ParseCsv(csv: string): Option<seq<Row>> {
    if StartsWith(csv, CsvHeader) then ParseRows(csv[|CsvHeader|..]) else None
  }

  /** `lines` numbered from `first`. */
  function Numbered(lines: seq<string>, first: nat): (r: seq<Row>)
    ensures |r| == |lines|
  {
    seq(|lines|, k requires 0 <= k < |lines| => Row(first + k, lines[k]))
  }

  /** Reading a quoted line back gives the line, whatever quotes it holds. */
  lemma {:induction false} ParseQuotedOf(line: string, rest: string)
    requires rest == [] || rest[0] != '"'
    ensures ParseQuoted(Quote(line) + "\"" + rest) == Some((line, rest))
    decreases |line|
  {
    if line == [] {
      assert Quote(line) + "\"" + rest == "\"" + rest;
    } else {
      ParseQuotedOf(line[1..], rest);
      ParseQuotedCons(line, rest);
    }
  }

  /** Reading a quoted line goes one character of the line at a time. */
  lemma ParseQuotedCons(line: string, rest: string)
    requires line != []
    requires ParseQuoted(Quote(line[1..]) + "\"" + rest) == Some((line[1..], rest))
    ensures ParseQuoted(Quote(line) + "\"" + rest) == Some((line, rest))
  {
    var s := Quote(line) + "\"" + rest;
    var t := Quote(line[1..]) + "\"" + rest;
    assert line == [line[0]] + line[1..];
    if line[0] == '"' {
      assert StartsWith(line, "\"");
      assert Quote(line) == "\"\"" + Quote(line[1..]);
      assert s == "\"\"" + t;
      assert s[2..] == t;
    } else {
      assert !StartsWith(line, "\"");
      assert Quote(line) == [line[0]] + Quote(line[1..]);
      assert s == [line[0]] + t;
      assert s[1..] == t;
    }
  }

  /** The first comma of a row is the one after its numeral. */
  lemma FirstCommaAfterNumeral(d: string, t: string)
    requires AllDigits(d)
    ensures FirstIn(d + [','] + t, {','}, 0) == |d|
  {
    var s := d + [','] + t;
    assert s[|d|] == ',';
    assert forall j :: 0 <= j < |d| ==> s[j] == d[j];
  }

  /** A row followed by more text, regrouped as the parser reads it. */
  lemma CsvRowShape(d: string, q: string, rest: string)
    ensures d + ",\"" + q + "\"\n" + rest == d + [','] + (['"'] + (q + "\"" + ("\n" + rest)))
  {
    assert ",\"" == [','] + ['"'];
    assert "\"\n" == "\"" + "\n";
  }

  lemma ParseRowOf(number: nat, line: string, rest: string)
    ensures ParseRow(CsvRow(number, line) + rest) == Some((Row(number, line), rest))
  {
    var d := NatToString(number);
    var q := Quote(line);
    var tail := "\n" + rest;
    var r := ['"'] + (q + "\"" + tail);
    CsvRowShape(d, q, rest);
    var s := d + [','] + r;
    assert CsvRow(number, line) + rest == s;
    FirstCommaAfterNumeral(d, r);
    assert s[..|d|] == d && s[|d| + 1..] == r;
    assert r[1..] == q + "\"" + tail;
    ParseQuotedOf(line, tail);
    DigitsValueOfNat(number);
    assert tail[1..] == rest;
  }

  lemma NumberedCons(lines: seq<string>, first: nat)
    requires lines != []
    ensures Numbered(lines, first) == [Row(first, lines[0])] + Numbered(lines[1..], first + 1)
  {
  }

  lemma ParseRowsCons(s: string, row: Row, rest: string)
    requires ParseRow(s) == Some((row, rest))
    ensures ParseRows(s) == if ParseRows(rest).Some? then Some([row] + ParseRows(rest).value) else None
  {
  }

  lemma {:induction false} ParseRowsOf(lines: seq<string>, first: nat)
    ensures ParseRows(CsvRows(lines, first)) == Some(Numbered(lines, first))
    decreases |lines|
  {
    if lines != [] {
      var tail := CsvRows(lines[1..], first + 1);
      ParseRowOf(first, lines[0], tail);
      ParseRowsOf(lines[1..], first + 1);
      NumberedCons(lines, first);
      ParseRowsCons(CsvRow(first, lines[0]) + tail, Row(first, lines[0]), tail);
    }
  }

  /**
   * Round trip: reading the export gives every line of the message, in order, numbered from 1,
   * and those lines joined with `\n` are the message.
   */
  lemma CsvRoundTrip(content: string)
    ensures ParseCsv(Csv(content)) == Some(Numbered(SplitChar(content, '\n'), 1))
    ensures Join(SplitChar(content, '\n'), "\n") == content
  {
    var csv := Csv(content);
    assert csv[..|CsvHeader|] == CsvHeader;
    assert csv[|CsvHeader|..] == CsvRows(SplitChar(content, '\n'), 1);
    ParseRowsOf(SplitChar(content, '\n'), 1);
    JoinSplitChar(content, '\n');
  }

  // ---------------------------------------------------------------------------
  // add_tags
  // ---------------------------------------------------------------------------

  /** `[tag.strip() for tag in text.split(",")]`. */
  function TagsOf(text: string): (r: seq<string>)
    ensures |r| == |SplitChar(text, ',')|
  {
    var pieces := SplitChar(text, ',');
    seq(|pieces|, k requires 0 <= k < |pieces| => Strip(pieces[k]))
  }

  /** Each tag is one comma-separated piece of the input, stripped, holding no comma. */
  lemma TagsOfShape(text: string, k: nat)
    requires k < |TagsOf(text)|
    ensures TagsOf(text)[k] == Strip(SplitChar(text, ',')[k])
    ensures IsStripped(TagsOf(text)[k]) && NoneIn(TagsOf(text)[k], {','})
    ensures Join(SplitChar(text, ','), ",") == text
  {
    StripProps(SplitChar(text, ',')[k]);
    StripNoneIn(SplitChar(text, ',')[k], {','});
    JoinSplitChar(text, ',');
  }

  const TagIcon: string := "\U{1F3F7}\U{FE0F}"

  /** `" ".join([f"🏷️ {tag}" for tag in tags])`. */
  function Badges(tags: seq<string>): string {
    Join(seq(|tags|, k requires 0 <= k < |tags| => TagIcon + " " + tags[k]), " ")
  }

  // ---------------------------------------------------------------------------
  // handler
  // ---------------------------------------------------------------------------

  datatype ActionDescriptor = ActionDescriptor(id: string, caption: string, icon: string, description: string)

  /** The four buttons offered when no dialogue channel is given. */
  const ActionButtons: seq<ActionDescriptor> := [
    ActionDescriptor("save_note", "\U{1F4BE} Save as Note", "save", "Save this message as a secure note"),
    ActionDescriptor("create_task", "\U{2705} Create Task", "check-square", "Convert to action items"),
    ActionDescriptor("add_tags", "\U{1F3F7}\U{FE0F} Add Tags", "tag", "Categorize this content"),
    ActionDescriptor("export_note", "\U{1F4E4} Export", "upload", "Export to Markdown/JSON")
  ]

  /**
   * The user's answers to the host dialogues, as `handler` reads them: the title and tags inputs
   * (empty when the answer is missing or empty), the notebook selections (already defaulted to
   * "general"), the task confirmation, whether the export dialogue was answered, and the chosen
   * export format (already defaulted to "markdown").
   */
  datatype Answers = Answers(
    title: string, notebook: string, newNotebook: string, confirmed: bool,
    tags: string, exportAnswered: bool, format: string)

  /**
   * What `handler` returns: the button descriptors, a confirmation text (for an export, with the
   * exported text shown in the code dialogue), or the request body unchanged.
   */
  datatype ActionReply =
    | Buttons(actions: seq<ActionDescriptor>)
    | Notice(text: string)
    | Exported(text: string, shown: Option<string>)
    | ReturnBody

  /** The notebook a note is saved to: the new notebook's name when "new" was selected. */
  function Notebook(ans: Answers): string {
    if ans.notebook == "new" then ans.newNotebook else ans.notebook
  }

  /** `handler(body, __user__, __event_emitter__, __event_call__)`, given the dialogue answers. */
  function Handle(eventCall: bool, action: Option<string>, content: string, ans: Answers): (r: ActionReply)
    ensures r.Buttons? <==> !eventCall
    ensures eventCall && action !in {Some("save_note"), Some("create_task"), Some("add_tags"), Some("export_note")}
      ==> r == ReturnBody
    ensures r.Exported? ==> action == Some("export_note")
  {
    if !eventCall then Buttons(ActionButtons)
    else if action == Some("save_note") then
      if ans.title != "" then
        Notice("\U{2705} Note saved: **" + ans.title + "** in \U{1F4DA} " + Notebook(ans))
      else ReturnBody
    else if action == Some("create_task") then
      var tasks := Tasks(content);
      if tasks != [] then
        if ans.confirmed then Notice("\U{2705} Created " + NatToString(|tasks|) + " tasks") else ReturnBody
      else Notice("No tasks found in this message")
    else if action == Some("add_tags") then
      if ans.tags != "" then Notice("Added tags: " + Badges(TagsOf(ans.tags))) else ReturnBody
    else if action == Some("export_note") then
      if ans.exportAnswered then
        Exported("\U{1F4E4} Exported as " + ans.format, ExportContent(content, ans.format))
      else ReturnBody
    else ReturnBody
  }

  /** Without a dialogue channel the reply is exactly the four buttons, in this order. */
  lemma ButtonsWithoutDialogue(action: Option<string>, content: string, ans: Answers)
    ensures Handle(false, action, content, ans).actions == ActionButtons
    ensures |ActionButtons| == 4
    ensures forall k :: 0 <= k < 4 ==>
      ActionButtons[k].id == ["save_note", "create_task", "add_tags", "export_note"][k]
  {
  }

  /** A message without tasks is answered "No tasks found in this message", whatever the answers. */
  lemma NoTasksNotice(content: string, ans: Answers)
    requires Tasks(content) == []
    ensures Handle(true, Some("create_task"), content, ans) == Notice("No tasks found in this message")
  {
  }

  /** Creating tasks reports how many were found, and only when the user confirmed. */
  lemma CreatedTasksNotice(content: string, ans: Answers)
    requires Tasks(content) != []
    ensures ans.confirmed ==>
      Handle(true, Some("create_task"), content, ans) == Notice("\U{2705} Created " + NatToString(|Tasks(content)|) + " tasks")
    ensures !ans.confirmed ==> Handle(true, Some("create_task"), content, ans) == ReturnBody
  {
  }

  /** Tags are reported as one badge per comma-separated, stripped piece of the input. */
  lemma TagsNotice(content: string, ans: Answers)
    requires ans.tags != ""
    ensures Handle(true, Some("add_tags"), content, ans) == Notice("Added tags: " + Badges(TagsOf(ans.tags)))
    ensures |TagsOf(ans.tags)| == |SplitChar(ans.tags, ',')|
  {
  }

  /** A note is saved only under a non-empty title, into the selected or newly named notebook. */
  lemma SavedNoteNotice(content: string, ans: Answers)
    ensures ans.title == "" ==> Handle(true, Some("save_note"), content, ans) == ReturnBody
    ensures ans.title != "" && ans.notebook != "new" ==>
      Handle(true, Some("save_note"), content, ans)
        == Notice("\U{2705} Note saved: **" + ans.title + "** in \U{1F4DA} " + ans.notebook)
    ensures ans.title != "" && ans.notebook == "new" ==>
      Handle(true, Some("save_note"), content, ans)
        == Notice("\U{2705} Note saved: **" + ans.title + "** in \U{1F4DA} " + ans.newNotebook)
  {
  }

  /** Any format other than markdown, text or json is exported as the CSV text, which reads back as the message. */
  lemma ExportFallsToCsv(content: string, ans: Answers)
    requires ans.exportAnswered && ans.format !in StampedFormats
    ensures Handle(true, Some("export_note"), content, ans).shown == Some(Csv(content))
    ensures ParseCsv(Handle(true, Some("export_note"), content, ans).shown.value)
      == Some(Numbered(SplitChar(content, '\n'), 1))
  {
    HandleExport(content, ans);
    CsvRoundTrip(content);
  }

  /** An answered export dialogue shows the export of the message in the chosen format. */
  lemma HandleExport(content: string, ans: Answers)
    requires ans.exportAnswered
    ensures Handle(true, Some("export_note"), content, ans)
      == Exported("\U{1F4E4} Exported as " + ans.format, ExportContent(content, ans.format))
  {
    assert "export_note"[0] == 'e';
    assert "export_note" != "save_note" && "export_note" != "create_task" && "export_note" != "add_tags";
  }

  // ---------------------------------------------------------------------------
  // The module scope as written
  // ---------------------------------------------------------------------------

  /**
   * The names bound at the module scope of notesnook_actions.py: its six functions. `datetime` and
   * `hashlib` are imported inside `handler` (lines 11-12), and `save_note_to_db` imports `hashlib`
   * for itself only, so the storing and exporting helpers see neither name.
   */
  const ModuleGlobals: set<string> :=
    {"handler", "save_note_to_db", "save_task_to_db", "save_tags", "extract_tasks", "export_content"}

  /**
   * The module-level name the helper an answered dialogue calls looks up first: `datetime` when a
   * note or a task is stored or a stamped format is exported, `hashlib` when tags are stored.
   */
  function HelperGlobal(action: Option<string>, content: string, ans: Answers): (g: Option<string>)
    ensures g.Some? ==> g.value in {"datetime", "hashlib"}
    ensures g == Some("hashlib") <==> action == Some("add_tags") && ans.tags != ""
  {
    if action == Some("save_note") && ans.title != "" then Some("datetime")
    else if action == Some("create_task") && Tasks(content) != [] && ans.confirmed then Some("datetime")
    else if action == Some("add_tags") && ans.tags != "" then Some("hashlib")
    else if action == Some("export_note") && ans.exportAnswered && ans.format in StampedFormats then Some("datetime")
    else None
  }

  /** `handler` under the given module globals: a helper whose name is unbound raises `NameError`. */
  function HandleAsWritten(eventCall: bool, action: Option<string>, content: string, ans: Answers,
                           globals: set<string>): (r: Py<ActionReply>)
    ensures "datetime" in globals && "hashlib" in globals ==> r == Ok(Handle(eventCall, action, content, ans))
    ensures r.Ok? ==> r.value == Handle(eventCall, action, content, ans)
    ensures r.Raise? <==> eventCall && HelperGlobal(action, content, ans).Some?
                          && HelperGlobal(action, content, ans).value !in globals
  {
    var g := HelperGlobal(action, content, ans);
    if eventCall && g.Some? && g.value !in globals then Raise(NameError(g.value))
    else Ok(Handle(eventCall, action, content, ans))
  }

  /**
   * As written, saving a titled note, creating confirmed tasks, adding tags and exporting to
   * markdown, text or json all raise `NameError` before the reply is built.
   */
  lemma StoringRaisesAsWritten(content: string, ans: Answers)
    ensures ans.title != "" ==>
      HandleAsWritten(true, Some("save_note"), content, ans, ModuleGlobals) == Raise(NameError("datetime"))
    ensures Tasks(content) != [] && ans.confirmed ==>
      HandleAsWritten(true, Some("create_task"), content, ans, ModuleGlobals) == Raise(NameError("datetime"))
    ensures ans.tags != "" ==>
      HandleAsWritten(true, Some("add_tags"), content, ans, ModuleGlobals) == Raise(NameError("hashlib"))
    ensures ans.exportAnswered && ans.format in StampedFormats ==>
      HandleAsWritten(true, Some("export_note"), content, ans, ModuleGlobals) == Raise(NameError("datetime"))
  {
    HelpersUnbound();
    assert "create_task" != "save_note" && "add_tags" != "save_note" && "add_tags" != "create_task";
    assert "export_note" != "save_note" && "export_note" != "create_task" && "export_note" != "add_tags";
    if ans.title != "" {
      assert HelperGlobal(Some("save_note"), content, ans) == Some("datetime");
    }
    if Tasks(content) != [] && ans.confirmed {
      assert HelperGlobal(Some("create_task"), content, ans) == Some("datetime");
    }
    if ans.tags != "" {
      assert HelperGlobal(Some("add_tags"), content, ans) == Some("hashlib");
    }
    if ans.exportAnswered && ans.format in StampedFormats {
      assert HelperGlobal(Some("export_note"), content, ans) == Some("datetime");
    }
  }

  /** Neither name the helpers look up is bound at module scope. */
  lemma HelpersUnbound()
    ensures "datetime" !in ModuleGlobals && "hashlib" !in ModuleGlobals
  {
    assert forall g :: g in ModuleGlobals ==> g[0] != 'd';
    assert "hashlib"[1] == 'a' && "handler"[1] == 'a' && "hashlib"[2] == 's' && "handler"[2] == 'n';
    assert forall g :: g in ModuleGlobals && g != "handler" ==> g[0] != 'h';
  }

  /** So the only notice `handler` can give as written is "No tasks found in this message". */
  lemma OnlyNoTasksNoticeAsWritten(action: Option<string>, content: string, ans: Answers, t: string)
    requires HandleAsWritten(true, action, content, ans, ModuleGlobals) == Ok(Notice(t))
    ensures t == "No tasks found in this message"
    ensures action == Some("create_task") && Tasks(content) == []
  {
    StoringRaisesAsWritten(content, ans);
    if action == Some("export_note") && ans.exportAnswered {
      HandleExport(content, ans);
    }
  }

  /** And an export that succeeds as written shows the CSV text. */
  lemma OnlyCsvExportAsWritten(content: string, ans: Answers, text: string, shown: Option<string>)
    requires HandleAsWritten(true, Some("export_note"), content, ans, ModuleGlobals) == Ok(Exported(text, shown))
    ensures shown == Some(Csv(content))
  {
    StoringRaisesAsWritten(content, ans);
    HandleExport(content, ans);
  }
}

=== FILE: notesnook_filter.dfy ===
/**
 * The smart note-detection filter (notesnook_filter.py): note-intent scoring of user messages,
 * and for assistant messages the action-item summary and the key-point note summary, built from
 * three text analyses: action items, key points and a suggested title.
 */
module NotesnookFilter {
  import opened Wrappers
  import opened Text
  import opened Scan
  import opened Seqs
  import opened Chat

  // ---------------------------------------------------------------------------
  // extract_action_items
  // ---------------------------------------------------------------------------

  const ImperativePhrases: seq<string> :=
    ["you should", "you need to", "you must", "please", "make sure to", "don't forget to"]

  /** `(?:you should|you need to|you must|please|make sure to|don't forget to)`, ignoring case. */
  function ImperativeHead(s: string, i: nat): nat {
    PhraseEnd(s, i, ImperativePhrases, true)
  }

  /** `(?:TODO|Action|Task):`, ignoring case. */
  function LabelHead(s: string, i: nat): nat {
    PhraseEnd(s, i, ["todo:", "action:", "task:"], true)
  }

  /** `(?:\d+\.|\-|\*)\s*(?:You should|Need to|Must)`, ignoring case. */
  function ListedHead(s: string, i: nat): nat {
    var k := if NumberDotEnd(s, i) > i then NumberDotEnd(s, i) else CharEnd(s, i, {'-', '*'});
    if i < k <= |s| then
      var j := FirstNotIn(s, Ws, k);
      var e := PhraseEnd(s, j, ["you should", "need to", "must"], true);
      if e > j then e else i
    else i
  }

  const ImperativePattern: Pattern := Pattern(ImperativeHead, 1, Punct)
  const LabelPattern: Pattern := Pattern(LabelHead, 0, Punct + {'\n'})
  const ListedPattern: Pattern := Pattern(ListedHead, 1, Punct + {'\n'})

  /** The three action patterns, in the order they are searched. */
  const ActionPatterns: seq<Pattern> := [ImperativePattern, LabelPattern, ListedPattern]

  lemma ActionPatternsValid()
    ensures ValidPattern(ImperativePattern) && ValidPattern(LabelPattern) && ValidPattern(ListedPattern)
    ensures forall k :: 0 <= k < |ActionPatterns| ==> ValidPattern(ActionPatterns[k])
  {
  }

  /** Every match of every action pattern, pattern by pattern. */
  function ActionMatches(text: string): seq<string> {
    ActionPatternsValid();
    FindAllEach(text, ActionPatterns)
  }

  /** The matches come pattern by pattern, each pattern's in text order. */
  lemma ActionMatchesOrder(text: string)
    ensures ActionMatches(text) ==
      FindAll(text, ImperativePattern) + FindAll(text, LabelPattern) + FindAll(text, ListedPattern)
  {
    ActionPatternsValid();
    var ps := ActionPatterns;
    assert ps[..|ps| - 1] == ps[..2] && ps[|ps| - 1] == ps[2];
    assert ps[..2][..1] == ps[..1] && ps[..2][1] == ps[1];
    assert ps[..1][..0] == [] && ps[..1][0] == ps[0];
    assert FindAllEach(text, ps[..1]) == FindAll(text, ps[0]);
    assert FindAllEach(text, ps[..2]) == FindAll(text, ps[0]) + FindAll(text, ps[1]);
  }

  /** `item.strip().capitalize()`. */
  function Clean(m: string): string {
    Capitalize(Strip(m))
  }

  /** What `str.capitalize` leaves: no lower-case first letter, no upper-case letter after it. */
  predicate IsCapitalized(c: string) {
    c != [] ==> !IsLowerAscii(c[0]) && IsLowerCase(c[1..])
  }

  /** The cleaned matches that pass `if cleaned and len(cleaned) > 10`, in order. */
  function Kept(ms: seq<string>): (r: seq<string>)
    ensures |r| <= |ms|
    decreases |ms|
  {
    if ms == [] then []
    else
      var init := Kept(ms[..|ms| - 1]);
      var c := Clean(ms[|ms| - 1]);
      if c != [] && |c| > 10 then init + [c] else init
  }

  /** Cleaning one more match keeps it exactly when the cleaned text is longer than 10 characters. */
  lemma KeptSnoc(ms: seq<string>, m: string)
    ensures Kept(ms + [m]) == if |Clean(m)| > 10 then Kept(ms) + [Clean(m)] else Kept(ms)
  {
    assert (ms + [m])[..|ms|] == ms;
  }

  lemma {:induction false} KeptAppend(a: seq<string>, b: seq<string>)
    ensures Kept(a + b) == Kept(a) + Kept(b)
    decreases |b|
  {
    if b == [] {
      assert a + b == a;
    } else {
      var b' := b[..|b| - 1];
      var m := b[|b| - 1];
      KeptAppend(a, b');
      AppendSnoc(a, b);
      KeptSnoc(a + b', m);
      KeptSnoc(b', m);
      if |Clean(m)| > 10 {
        AppendAssoc(Kept(a), Kept(b'), [Clean(m)]);
      }
    }
  }

  /**
   * The action items of a text: the cleaned matches longer than 10 characters, each kept only at
   * its first occurrence, at most 5.
   */
  function ActionItems(text: string): (r: seq<string>)
    ensures |r| <= 5 && NoDup(r)
  {
    var kept := Kept(ActionMatches(text));
    var all := Distinct(kept);
    DistinctProps(kept);
    var r := Take(all, 5);
    assert forall i, j :: 0 <= i < j < |r| ==> r[i] == all[i] && r[j] == all[j];
    r
  }

  /**
   * Every action item is the cleaned form of one of the matches, longer than 10 characters and
   * capitalized.
   */
  lemma ActionItemsFromMatches(text: string, k: nat)
    requires k < |ActionItems(text)|
    ensures |ActionItems(text)[k]| > 10 && IsCapitalized(ActionItems(text)[k])
    ensures exists i :: 0 <= i < |ActionMatches(text)| && ActionItems(text)[k] == Clean(ActionMatches(text)[i])
  {
    var ms := ActionMatches(text);
    var kept := Kept(ms);
    var all := Distinct(kept);
    assert ActionItems(text)[k] == all[k];
    DistinctProps(kept);
    var j :| 0 <= j < |kept| && kept[j] == all[k];
    var i := KeptFrom(ms, j);
  }

  /** Every kept item is the cleaned form of one of the matches. */
  lemma {:induction false} KeptFrom(ms: seq<string>, j: nat) returns (i: nat)
    requires j < |Kept(ms)|
    ensures i < |ms| && Kept(ms)[j] == Clean(ms[i]) && |Kept(ms)[j]| > 10
    decreases |ms|
  {
    var init := Kept(ms[..|ms| - 1]);
    if j < |init| {
      i := KeptFrom(ms[..|ms| - 1], j);
      assert ms[..|ms| - 1][i] == ms[i];
    } else {
      i := |ms| - 1;
    }
  }

  /** Items from earlier matches come before items from later ones, up to the cap of 5. */
  lemma EarlierMatchesLead(a: seq<string>, b: seq<string>)
    ensures Take(Distinct(Kept(a)), 5) <= Take(Distinct(Kept(a + b)), 5)
  {
    KeptAppend(a, b);
    DistinctPrefix(Kept(a), Kept(b));
  }

  /** The items found by the first pattern come first (up to the cap of 5). */
  lemma ActionItemsFirstPattern(text: string)
    ensures Take(Distinct(Kept(FindAll(text, ImperativePattern))), 5) <= ActionItems(text)
  {
    ActionPatternsValid();
    ActionMatchesOrder(text);
    var m1 := FindAll(text, ImperativePattern);
    var m2 := FindAll(text, LabelPattern);
    var m3 := FindAll(text, ListedPattern);
    AppendAssoc(m1, m2, m3);
    EarlierMatchesLead(m1, m2 + m3);
  }

  /** The two loops of `extract_action_items`: collect the matches, then clean and deduplicate. */
  method ExtractActionItems(text: string) returns (items: seq<string>)
    ensures items == ActionItems(text)
  {
    var found := CollectActionMatches(text);
    var cleaned := CleanMatches(found);
    items := Take(cleaned, 5);
  }

  /** The first loop: `found.extend(re.findall(pattern, text, re.IGNORECASE))` for each pattern. */
  method CollectActionMatches(text: string) returns (found: seq<string>)
    ensures found == ActionMatches(text)
  {
    ActionPatternsValid();
    found := [];
    var p := 0;
    while p < |ActionPatterns|
      invariant 0 <= p <= |ActionPatterns|
      invariant found == FindAllEach(text, ActionPatterns[..p])
    {
      FindAllEachStep(text, ActionPatterns, p);
      found := found + FindAll(text, ActionPatterns[p]);
      p := p + 1;
    }
    PrefixAll(ActionPatterns);
  }

  /** One step of the second loop: the next cleaned match is listed when long enough and new. */
  lemma CleanStep(found: seq<string>, i: nat, cleaned: seq<string>, c: string)
    requires i < |found| && cleaned == Distinct(Kept(found[..i])) && c == Clean(found[i])
    ensures Distinct(Kept(found[..i + 1])) ==
      if c != [] && c !in cleaned && |c| > 10 then cleaned + [c] else cleaned
  {
    PrefixSnoc(found, i);
    KeptSnoc(found[..i], found[i]);
    DistinctSnoc(Kept(found[..i]), c);
    DistinctMember(Kept(found[..i]), c);
  }

  /** The second loop: keep each cleaned match longer than 10 characters that is not yet listed. */
  method CleanMatches(found: seq<string>) returns (cleaned: seq<string>)
    ensures cleaned == Distinct(Kept(found))
  {
    cleaned := [];
    var i := 0;
    while i < |found|
      invariant 0 <= i <= |found|
      invariant cleaned == Distinct(Kept(found[..i]))
    {
      var c := Clean(found[i]);
      CleanStep(found, i, cleaned, c);
      cleaned := ListNew(cleaned, c);
      i := i + 1;
    }
    PrefixAll(found);
  }

  /** The body of the second loop: `if cleaned and cleaned not in cleaned_items and len(cleaned) > 10`. */
  method ListNew(cleaned: seq<string>, c: string) returns (next: seq<string>)
    ensures next == if c != [] && c !in cleaned && |c| > 10 then cleaned + [c] else cleaned
  {
    next := cleaned;
    if c != [] && c !in cleaned && |c| > 10 {
      next := cleaned + [c];
    }
  }

  // ---------------------------------------------------------------------------
  // extract_key_points
  // ---------------------------------------------------------------------------

  const ImportanceKeywords: seq<string> := [
    "important", "key", "critical", "essential", "must", "significant",
    "main", "primary", "fundamental", "crucial", "remember", "note"
  ]

  /** A stripped sentence is a key point when it names an importance keyword and has 21 to 199 characters. */
  predicate IsKeyPoint(sentence: string) {
    ContainsAny(LowerStr(sentence), ImportanceKeywords) && 20 < |sentence| < 200
  }

  /** A key point as returned: a stripped key-point sentence holding no sentence punctuation. */
  predicate IsKeyPointText(s: string) {
    IsKeyPoint(s) && IsStripped(s) && NoneIn(s, Punct)
  }

  /** The stripped sentences that are key points, in text order. */
  function KeyPointsOf(sentences: seq<string>): (r: seq<string>)
    ensures |r| <= |sentences|
    ensures forall k :: 0 <= k < |r| ==> IsKeyPoint(r[k]) && IsStripped(r[k])
    decreases |sentences|
  {
    if sentences == [] then []
    else
      var init := KeyPointsOf(sentences[..|sentences| - 1]);
      var st := Strip(sentences[|sentences| - 1]);
      StripProps(sentences[|sentences| - 1]);
      if IsKeyPoint(st) then init + [st] else init
  }

  /** Every key point is one of the sentences, stripped. */
  lemma {:induction false} KeyPointsOfFrom(sentences: seq<string>, k: nat) returns (j: nat)
    requires k < |KeyPointsOf(sentences)|
    ensures j < |sentences| && KeyPointsOf(sentences)[k] == Strip(sentences[j])
    decreases |sentences|
  {
    var init := sentences[..|sentences| - 1];
    var st := Strip(sentences[|sentences| - 1]);
    var ps := KeyPointsOf(init);
    var r := KeyPointsOf(sentences);
    if k < |ps| {
      assert r[k] == ps[k];
      j := KeyPointsOfFrom(init, k);
      assert init[j] == sentences[j];
    } else {
      assert r[k] == st;
      j := |sentences| - 1;
    }
  }

  /** Key points of punctuation-free sentences are punctuation-free. */
  lemma KeyPointsOfNoPunct(sentences: seq<string>, k: nat)
    requires forall i :: 0 <= i < |sentences| ==> NoneIn(sentences[i], Punct)
    requires k < |KeyPointsOf(sentences)|
    ensures NoneIn(KeyPointsOf(sentences)[k], Punct)
  {
    var j := KeyPointsOfFrom(sentences, k);
    StripNoneIn(sentences[j], Punct);
  }

  lemma KeyPointsOfSnoc(ss: seq<string>, s: string)
    ensures KeyPointsOf(ss + [s]) ==
      if IsKeyPoint(Strip(s)) then KeyPointsOf(ss) + [Strip(s)] else KeyPointsOf(ss)
  {
    assert (ss + [s])[..|ss|] == ss;
  }

  /** One step of the loop of `extract_key_points`, on a prefix of the sentences. */
  lemma KeyPointsStep(sentences: seq<string>, i: nat)
    requires i < |sentences|
    ensures var st := Strip(sentences[i]);
      KeyPointsOf(sentences[..i + 1]) ==
        if IsKeyPoint(st) then KeyPointsOf(sentences[..i]) + [st] else KeyPointsOf(sentences[..i])
  {
    PrefixSnoc(sentences, i);
    KeyPointsOfSnoc(sentences[..i], sentences[i]);
  }

  /** The key points of a text: at most 5 stripped, punctuation-free sentences, in text order. */
  function KeyPoints(text: string): (r: seq<string>)
    ensures |r| <= 5
  {
    var all := KeyPointsOf(SplitRuns(text, Punct));
    if |all| <= 5 then all else all[..5]
  }

  /** Every key point is a stripped key-point sentence without sentence punctuation. */
  lemma KeyPointsShape(text: string, k: nat)
    requires k < |KeyPoints(text)|
    ensures IsKeyPointText(KeyPoints(text)[k])
  {
    var all := KeyPointsOf(SplitRuns(text, Punct));
    assert KeyPoints(text)[k] == all[k];
    KeyPointsOfNoPunct(SplitRuns(text, Punct), k);
  }

  /** The loop of `extract_key_points` over `re.split(r'[.!?]+', text)`, then the cut to 5. */
  method ExtractKeyPoints(text: string) returns (points: seq<string>)
    ensures points == KeyPoints(text)
  {
    var found := CollectKeyPoints(SplitRuns(text, Punct));
    points := if |found| <= 5 then found else found[..5];
  }

  /** The loop body of `extract_key_points`: strip each sentence and keep it when it is a key point. */
  method CollectKeyPoints(sentences: seq<string>) returns (found: seq<string>)
    ensures found == KeyPointsOf(sentences)
  {
    found := [];
    var i := 0;
    while i < |sentences|
      invariant 0 <= i <= |sentences|
      invariant found == KeyPointsOf(sentences[..i])
    {
      KeyPointsStep(sentences, i);
      var st := Strip(sentences[i]);
      if IsKeyPoint(st) {
        found := found + [st];
      }
      i := i + 1;
    }
    assert sentences[..i] == sentences;
  }

  // ---------------------------------------------------------------------------
  // generate_title
  // ---------------------------------------------------------------------------

  /** The markdown characters `[#*`]` removed from a heading. */
  const Markup: set<char> := {'#', '*', '`'}

  /** The heading one line gives, when it is not a list item and something is left of it. */
  function LineHeading(line: string): (r: Option<string>)
    ensures r.Some? ==> r.value != [] && |r.value| < 100 && IsStripped(r.value) && NoneIn(r.value, Markup)
  {
    var l := Strip(line);
    if l != [] && !StartsWith(l, "-") && |l| < 100 then
      var t := Strip(RemoveChars(l, Markup));
      StripProps(RemoveChars(l, Markup));
      StripNoneIn(RemoveChars(l, Markup), Markup);
      if t != [] then Some(t) else None
    else None
  }

  /** The first usable heading among `lines`: the early-return loop of `generate_title`. */
  function HeadingTitle(lines: seq<string>): (r: Option<string>)
    ensures r.Some? ==> r.value != [] && |r.value| < 100 && IsStripped(r.value) && NoneIn(r.value, Markup)
  {
    if lines == [] then None
    else if LineHeading(lines[0]).Some? then LineHeading(lines[0])
    else HeadingTitle(lines[1..])
  }

  /**
   * The suggested title: a heading from the first 5 lines, else the first sentence when it is
   * short, else "Note from <date>". The date is the caller's `datetime.now().strftime('%B %d, %Y')`.
   */
  const DatedTitle: string := "Note from "

  function GenerateTitle(text: string, today: string): (r: string)
    ensures r != []
    ensures |r| < 100 || r == DatedTitle + today
  {
    match HeadingTitle(Take(SplitChar(text, '\n'), 5))
    case Some(t) => t
    case None =>
      var first := Strip(text[..FirstIn(text, Punct, 0)]);
      if first != [] && |first| < 100 then first else DatedTitle + today
  }

  /** Only the first 5 lines are inspected for a heading: later lines never supply one. */
  lemma {:induction false} HeadingTitleFromPrefix(lines: seq<string>, more: seq<string>)
    requires HeadingTitle(lines).Some?
    ensures HeadingTitle(lines + more) == HeadingTitle(lines)
    decreases |lines|
  {
    assert (lines + more)[0] == lines[0];
    assert (lines + more)[1..] == lines[1..] + more;
    if LineHeading(lines[0]).None? {
      HeadingTitleFromPrefix(lines[1..], more);
    }
  }

  // ---------------------------------------------------------------------------
  // The module scope as written
  // ---------------------------------------------------------------------------

  /**
   * The names bound at the module scope of notesnook_filter.py: its four functions. `re` and
   * `datetime` are imported inside `handler`, so they are local to it.
   */
  const ModuleGlobals: set<string> := {"handler", "extract_action_items", "extract_key_points", "generate_title"}

  /** `extract_action_items` under the given module globals: its first regex call needs `re`. */
  function ExtractActionItemsAsWritten(text: string, globals: set<string>): (r: Py<seq<string>>)
    ensures "re" in globals ==> r == Ok(ActionItems(text))
  {
    if "re" in globals then Ok(ActionItems(text)) else Raise(NameError("re"))
  }

  /** As written, every call raises `NameError` for `re`, so every assistant turn of `handler` fails. */
  lemma ActionItemsRaiseAsWritten(text: string)
    ensures ExtractActionItemsAsWritten(text, ModuleGlobals) == Raise(NameError("re"))
  {
    assert forall g :: g in ModuleGlobals ==> |g| > 2;
  }

  /** `generate_title` under the given module globals: both search paths call `re`, the last fallback `datetime`. */
  function GenerateTitleAsWritten(text: string, globals: set<string>, today: string): (r: Py<string>)
    ensures r.Ok? ==> r.value == GenerateTitle(text, today)
  {
    if "re" !in globals then Raise(NameError("re"))
    else
      var t := GenerateTitle(text, today);
      if t == DatedTitle + today && HeadingTitle(Take(SplitChar(text, '\n'), 5)).None?
         && !(Strip(text[..FirstIn(text, Punct, 0)]) != [] && |Strip(text[..FirstIn(text, Punct, 0)])| < 100)
         && "datetime" !in globals
      then Raise(NameError("datetime"))
      else Ok(t)
  }

  /** Even with `re` bound at module scope, the empty text reaches the dated fallback and raises. */
  lemma TitleFallbackRaisesAsWritten(today: string)
    ensures GenerateTitleAsWritten("", ModuleGlobals + {"re"}, today) == Raise(NameError("datetime"))
  {
    assert SplitChar("", '\n') == [""];
    assert Take([""], 5) == [""];
    assert Strip("") == [];
    assert HeadingTitle([""]) == None;
    assert FirstIn("", Punct, 0) == 0;
    assert GenerateTitle("", today) == DatedTitle + today;
  }

  // ---------------------------------------------------------------------------
  // handler
  // ---------------------------------------------------------------------------

  const NoteIndicators: seq<string> := [
    "important", "remember", "note", "save this", "keep in mind",
    "don't forget", "for reference", "key point", "action item",
    "todo", "task", "remind me", "meeting notes", "summary"
  ]

  const StrongPhrases: seq<string> := ["save this", "remember", "important note"]

  /** The phrases of `inds` that occur in `content`, in list order. */
  function Detected(content: string, inds: seq<string>): (r: seq<string>)
    ensures |r| <= |inds|
    ensures forall k :: 0 <= k < |r| ==> r[k] in inds && Contains(content, r[k])
    ensures forall k :: 0 <= k < |inds| && Contains(content, inds[k]) ==> inds[k] in r
    decreases |inds|
  {
    if inds == [] then []
    else
      var init := Detected(content, inds[..|inds| - 1]);
      var last := inds[|inds| - 1];
      assert forall k :: 0 <= k < |inds| - 1 ==> inds[k] == inds[..|inds| - 1][k];
      if Contains(content, last) then init + [last] else init
  }

  /** The `__auto_note` record: the indicator count (`note_score`) and the indicators found. */
  datatype AutoNote = AutoNote(score: nat, indicators: seq<string>)

  /** The `__note_summary` record. */
  datatype NoteSummary = NoteSummary(keyPoints: seq<string>, wordCount: nat, suggestedTitle: string)

  predicate IsNoteCommand(content: string) {
    StartsWith(content, "!note") || StartsWith(content, "/note")
  }

  /** The auto-note record for a lower-cased user message, when the message calls for one. */
  function AutoNoteFor(content: string): (r: Option<AutoNote>)
    ensures r.Some? ==> r.value.indicators == Detected(content, NoteIndicators)
    ensures r.Some? ==> r.value.score == |r.value.indicators|
  {
    var found := Detected(content, NoteIndicators);
    if |found| >= 2 || ContainsAny(content, StrongPhrases) then Some(AutoNote(|found|, found)) else None
  }

  /**
   * A message calls for an auto note exactly when 2 indicators occur, or "save this" or
   * "remember" does: the third strong phrase, "important note", always brings 2 indicators.
   */
  lemma AutoNoteTrigger(content: string)
    ensures AutoNoteFor(content).Some? <==>
      |Detected(content, NoteIndicators)| >= 2 || Contains(content, "save this") || Contains(content, "remember")
  {
    StrongPhrasesAny(content);
    if Contains(content, "important note") {
      ImportantNoteTwoIndicators(content);
    }
  }

  lemma StrongPhrasesAny(content: string)
    ensures ContainsAny(content, StrongPhrases) <==>
      Contains(content, "save this") || Contains(content, "remember") || Contains(content, "important note")
  {
    var p1 := StrongPhrases[1..];
    var p2 := p1[1..];
    assert p1[0] == "remember" && p2[0] == "important note" && p2[1..] == [];
    assert ContainsAny(content, p2) == Contains(content, "important note");
    assert ContainsAny(content, p1) == (Contains(content, "remember") || ContainsAny(content, p2));
  }

  /** "important note" contains both "important" and "note", two distinct indicators. */
  lemma ImportantNoteTwoIndicators(content: string)
    requires Contains(content, "important note")
    ensures |Detected(content, NoteIndicators)| >= 2
  {
    var i := IndexOf(content, "important note").value;
    var w := content[i..i + 14];
    assert w == "important note";
    assert content[i..i + 9] == w[..9] == "important";
    assert content[i + 10..i + 14] == w[10..] == "note";
    ContainsAt(content, "important", i);
    ContainsAt(content, "note", i + 10);
    assert NoteIndicators[0] == "important" && NoteIndicators[2] == "note";
    DetectedTwo(content, NoteIndicators, 0, 2);
  }

  /** Two different phrases of the list that both occur are both detected. */
  lemma DetectedTwo(content: string, inds: seq<string>, a: nat, b: nat)
    requires a < |inds| && b < |inds| && inds[a] != inds[b]
    requires Contains(content, inds[a]) && Contains(content, inds[b])
    ensures |Detected(content, inds)| >= 2
  {
    var found := Detected(content, inds);
    assert inds[a] in found && inds[b] in found;
    var i :| 0 <= i < |found| && found[i] == inds[a];
    var j :| 0 <= j < |found| && found[j] == inds[b];
    assert i != j;
  }

  /**
   * `confidence > 0.6` for `confidence = min(note_score * 0.3, 1.0)`: in double precision
   * `2 * 0.3` is exactly `0.6`, so the test holds from 3 indicators on.
   */
  predicate Confident(a: AutoNote) {
    a.score >= 3
  }

  const NoteUi: string :=
    "\n\n---\n📝 **Note Detection:** This seems important. Would you like to:\n- 💾 Save as a note\n- 📌 Pin to favorites\n- 🏷\U{FE0F} Add tags\n- 📚 Add to notebook\n\n*Use `/note save` to save this conversation*"

  /** One `- item` line per action item. */
  function Bullets(items: seq<string>): string
    decreases |items|
  {
    if items == [] then [] else Bullets(items[..|items| - 1]) + "- " + items[|items| - 1] + "\n"
  }

  const ActionHead: string := "\n\n✅ **Detected Action Items:**\n"
  const ActionTail: string := "\n*Use `/note todo` to save these as tasks*"

  function ActionSummary(items: seq<string>): string {
    ActionHead + Bullets(items) + ActionTail
  }

  /** The `action_summary +=` loop. */
  method BuildActionSummary(items: seq<string>) returns (summary: string)
    ensures summary == ActionSummary(items)
  {
    var lines := "";
    var i := 0;
    while i < |items|
      invariant 0 <= i <= |items|
      invariant lines == Bullets(items[..i])
    {
      assert items[..i + 1][..i] == items[..i];
      lines := lines + "- " + items[i] + "\n";
      i := i + 1;
    }
    assert items[..i] == items;
    summary := ActionHead + lines + ActionTail;
  }

  /** The new content of the last assistant message. */
  function AssistantContent(content: string, autoNote: Option<AutoNote>): (r: string)
    ensures content <= r
    ensures ActionItems(content) != [] ==> r == content + ActionSummary(ActionItems(content))
  {
    var items := ActionItems(content);
    if items != [] then content + ActionSummary(items)
    else if autoNote.Some? && Confident(autoNote.value) then content + NoteUi
    else content
  }

  /** When action items exist the note-detection text is dropped: the auto note makes no difference. */
  lemma NoteUiDiscarded(content: string, autoNote: Option<AutoNote>)
    requires ActionItems(content) != []
    ensures AssistantContent(content, autoNote) == AssistantContent(content, None)
  {
  }

  /** The note summary of an assistant message: only for content over 1000 characters with key points. */
  function SummaryFor(content: string, today: string): (r: Option<NoteSummary>)
    ensures r.Some? ==> |content| > 1000 && 1 <= |r.value.keyPoints| <= 5
    ensures r.Some? ==> r.value.keyPoints == KeyPoints(content) && r.value.wordCount == |Words(content)|
    ensures |content| > 1000 && KeyPoints(content) != [] ==> r.Some?
  {
    if |content| > 1000 then
      var kp := KeyPoints(content);
      if kp != [] then Some(NoteSummary(kp, |Words(content)|, GenerateTitle(content, today))) else None
    else None
  }

  /** The body as notesnook_filter.py sees it: the message list and the three keys it may add. */
  class NoteBody {
    var messages: seq<Message>
    var noteCommand: bool
    var autoNote: Option<AutoNote>
    var noteSummary: Option<NoteSummary>

    constructor (ms: seq<Message>)
      ensures messages == ms && !noteCommand && autoNote == None && noteSummary == None
    {
      messages := ms;
      noteCommand := false;
      autoNote := None;
      noteSummary := None;
    }
  }

  /** The user turn of `handler`: flag note commands and record the note intent. */
  method UserTurn(body: NoteBody, content: string)
    modifies body`noteCommand, body`autoNote
    ensures body.noteCommand == (old(body.noteCommand) || IsNoteCommand(content))
    ensures body.autoNote == if AutoNoteFor(content).Some? then AutoNoteFor(content) else old(body.autoNote)
  {
    if StartsWith(content, "!note") || StartsWith(content, "/note") {
      body.noteCommand := true;
    }
    var auto := AutoNoteFor(content);
    if auto.Some? {
      body.autoNote := auto;
    }
  }

  /** The assistant turn of `handler`: rewrite the last message and maybe record a note summary. */
  method AssistantTurn(body: NoteBody, today: string)
    requires body.messages != []
    modifies body`messages, body`noteSummary
    ensures var ms := old(body.messages);
      var last := ms[|ms| - 1];
      body.messages == ReplaceLast(ms, last.(content := AssistantContent(last.content, old(body.autoNote))))
    ensures var content := old(body.messages)[|old(body.messages)| - 1].content;
      body.noteSummary == if SummaryFor(content, today).Some? then SummaryFor(content, today) else old(body.noteSummary)
  {
    var content := body.messages[|body.messages| - 1].content;
    RewriteReply(body);
    RecordSummary(body, content, today);
  }

  /** The last message gets the action-item summary or the note-detection text. */
  method RewriteReply(body: NoteBody)
    requires body.messages != []
    modifies body`messages
    ensures var ms := old(body.messages);
      var last := ms[|ms| - 1];
      body.messages == ReplaceLast(ms, last.(content := AssistantContent(last.content, body.autoNote)))
  {
    var last := body.messages[|body.messages| - 1];
    var newContent := AnnotateReply(last.content, body.autoNote);
    body.messages := ReplaceLast(body.messages, last.(content := newContent));
  }

  /** `__note_summary` is set when the reply has a summary and kept otherwise. */
  method RecordSummary(body: NoteBody, content: string, today: string)
    modifies body`noteSummary
    ensures body.noteSummary == if SummaryFor(content, today).Some? then SummaryFor(content, today) else old(body.noteSummary)
  {
    var summary := SummarizeReply(content, today);
    if summary.Some? {
      body.noteSummary := summary;
    }
  }

  /** The assistant branch's text edits: the note-detection text, then the action-item summary over it. */
  method AnnotateReply(content: string, autoNote: Option<AutoNote>) returns (newContent: string)
    ensures newContent == AssistantContent(content, autoNote)
  {
    newContent := content;
    if autoNote.Some? && Confident(autoNote.value) {
      newContent := content + NoteUi;
    }
    var items := ExtractActionItems(content);
    if items != [] {
      var summary := BuildActionSummary(items);
      newContent := content + summary;
    }
  }

  /** The assistant branch's summary: key points of a reply over 1000 characters, if it has any. */
  method SummarizeReply(content: string, today: string) returns (summary: Option<NoteSummary>)
    ensures summary == SummaryFor(content, today)
  {
    summary := None;
    if |content| > 1000 {
      var points := ExtractKeyPoints(content);
      if points != [] {
        summary := Some(NoteSummary(points, |Words(content)|, GenerateTitle(content, today)));
      }
    }
  }

  /**
   * `handler` with the module-level helpers working as intended. A body without messages is
   * returned unchanged; a user message may set `__note_command` and `__auto_note`; an assistant
   * message gets the action-item summary (or the note-detection text) and may set
   * `__note_summary`; any other role changes nothing. `today` is the caller's clock reading.
   */
  method Handler(body: NoteBody, today: string)
    modifies body
    ensures old(body.messages) == [] ==> unchanged(body)
    ensures old(body.messages) != [] && old(body.messages)[|old(body.messages)| - 1].role == "user" ==>
      && body.messages == old(body.messages)
      && body.noteSummary == old(body.noteSummary)
      && var c := LowerStr(old(body.messages)[|old(body.messages)| - 1].content);
      && body.noteCommand == (old(body.noteCommand) || IsNoteCommand(c))
      && body.autoNote == (if AutoNoteFor(c).Some? then AutoNoteFor(c) else old(body.autoNote))
    ensures old(body.messages) != [] && old(body.messages)[|old(body.messages)| - 1].role == "assistant" ==>
      && body.noteCommand == old(body.noteCommand)
      && body.autoNote == old(body.autoNote)
      && var last := old(body.messages)[|old(body.messages)| - 1];
      && body.messages == ReplaceLast(old(body.messages), last.(content := AssistantContent(last.content, old(body.autoNote))))
      && body.noteSummary ==
           (if SummaryFor(last.content, today).Some? then SummaryFor(last.content, today) else old(body.noteSummary))
    ensures old(body.messages) != [] && old(body.messages)[|old(body.messages)| - 1].role !in {"user", "assistant"} ==>
      unchanged(body)
  {
    if body.messages == [] {
      return;
    }
    var last := body.messages[|body.messages| - 1];
    if last.role == "user" {
      UserTurn(body, LowerStr(last.content));
    } else if last.role == "assistant" {
      AssistantTurn(body, today);
    }
  }
}

=== FILE: omi.dfy ===
/**
 * The OMI filter (omi_mcp_integration_fixed.py): on a trigger phrase the last message is replaced
 * by the OMI assistant page, on "save to omi" by a page that previews the content to save.
 */
module Omi {
  import opened Wrappers
  import opened Text
  import opened Chat

  const Triggers: seq<string> :=
    ["/omi", "open omi", "show omi", "omi assistant", "my memories", "show memories", "omi memories",
     "omi conversations", "search memories"]

  /**
   * The assistant page's fixed markup around the web URL and the MCP port. Markup runs are
   * represented by their first and last lines around an ellipsis; the closing notes are exact.
   */
  const PageHead: string := "## \U{1F9E0} OMI AI Assistant\n\U{2026}\n        src=\""
  const PageSetup: string := "\"\n\U{2026}\n                    <li>Set MCP server: <code>http://localhost:"
  const PageStatus: string := "</code></li>\n\U{2026}\n- **MCP Server**: Running on port "
  const PageFooter: string :=
    "\n- **Bridge API**: Running on port 3457\n- **Web Interface**: Running on port 3458\n\n*Your OMI ecosystem is integrated with OpenWebUI!*"

  /** The save page's fixed markup, represented the same way. */
  const SaveHead: string := "## \U{1F4BE} Saving to OMI Memory\n\U{2026}\n        src=\""
  const SaveMiddle: string := "\"\n\U{2026}\n        "
  const SaveTail: string := "\n    </div>\n</details>"

  /** The search page's fixed parts. */
  const SearchHead: string := "## \U{1F50D} Searching OMI Memories\n\nQuery: **"
  const SearchFrame: string :=
    "**\n\n<div style=\"border-radius: 12px; overflow: hidden; box-shadow: 0 2px 10px rgba(0,0,0,0.1); margin: 15px 0;\">\n    <iframe \n        src=\""
  const SearchTail: string := "\"\n\U{2026}\n*Search results will appear in the OMI interface above.*"

  function OmiPage(webUrl: string, port: string): string {
    PageHead + webUrl + PageSetup + port + PageStatus + port + PageFooter
  }

  /** The content to save: what follows "save to omi:", stripped, once the message has a colon. */
  function SaveContent(lower: string): string {
    if ':' in lower then Strip(After(lower, "save to omi:")) else ""
  }

  /** The preview of the content: its first 300 characters, and "..." when some were cut. */
  function Preview(content: string): string {
    Take(content, 300) + (if |content| > 300 then "..." else "")
  }

  function SavePage(webUrl: string, content: string): string {
    SaveHead + webUrl + SaveMiddle + Preview(content) + SaveTail
  }

  function SearchQuery(lower: string): string {
    Strip(After(lower, "search memories:"))
  }

  function SearchPage(webUrl: string, query: string): string {
    SearchHead + query + SearchFrame + webUrl + "?search=" + query + SearchTail
  }

  predicate IsSaveRequest(lower: string) { Contains(lower, "save to omi") }

  predicate IsSearchRequest(lower: string) { Contains(lower, "search memories:") }

  /** The page that replaces the last message, if the lower-cased text asks for one. */
  function Answer(lower: string, webUrl: string, port: string): (r: Option<string>)
    ensures r.None? <==> !ContainsAny(lower, Triggers) && !IsSaveRequest(lower) && !IsSearchRequest(lower)
  {
    if ContainsAny(lower, Triggers) then Some(OmiPage(webUrl, port))
    else if IsSaveRequest(lower) then Some(SavePage(webUrl, SaveContent(lower)))
    else if IsSearchRequest(lower) then Some(SearchPage(webUrl, SearchQuery(lower)))
    else None
  }

  /** The message list after `inlet`: at most the last message changes, and only to an assistant one. */
  function InletMessages(enabled: bool, webUrl: string, port: string, ms: seq<Message>): (r: seq<Message>)
    ensures |r| == |ms|
    ensures ms != [] ==> r[..|r| - 1] == ms[..|ms| - 1]
    ensures r != ms ==> enabled && r[|r| - 1].role == "assistant"
    ensures !enabled ==> r == ms
  {
    if !enabled || ms == [] then ms
    else
      match Answer(LastContentLower(ms), webUrl, port)
      case None => ms
      case Some(page) => ReplaceLast(ms, Message("assistant", page))
  }

  /**
   * The search branch is dead code: a message holding "search memories:" holds the trigger
   * "search memories", so it always gets the assistant page.
   */
  lemma SearchUnreachable(lower: string, webUrl: string, port: string)
    requires IsSearchRequest(lower)
    ensures Answer(lower, webUrl, port) == Some(OmiPage(webUrl, port))
  {
    assert "search memories:" == "search memories" + ":";
    ContainsPrefix(lower, "search memories", ":");
    ContainsAnyIff(lower, Triggers);
    assert Triggers[8] == "search memories";
  }

  /** With "save to omi:" present, the content is what follows its first occurrence, stripped. */
  lemma SaveContentAfterPrefix(lower: string)
    requires Contains(lower, "save to omi:")
    ensures SaveContent(lower) == Strip(After(lower, "save to omi:"))
    ensures |SaveContent(lower)| < |lower|
  {
    var k := IndexOf(lower, "save to omi:").value;
    assert lower[k + 11] == ':';
    StripProps(After(lower, "save to omi:"));
  }

  /**
   * A colon elsewhere in a message without "save to omi:" makes the whole message, stripped, the
   * content to save; a message with no colon saves nothing.
   */
  lemma SaveContentWithoutPrefix(lower: string)
    requires !Contains(lower, "save to omi:")
    ensures ':' in lower ==> SaveContent(lower) == Strip(lower)
    ensures ':' !in lower ==> SaveContent(lower) == ""
  {
  }

  /** The preview shows the first 300 characters, and ends in "..." exactly when more were cut. */
  lemma PreviewShowsStart(content: string, webUrl: string)
    ensures Contains(SavePage(webUrl, content), Take(content, 300))
    ensures |content| > 300 <==> Preview(content) == Take(content, 300) + "..."
    ensures |Preview(content)| <= 303
  {
    var e := if |content| > 300 then "..." else "";
    ContainsInfix(SaveHead + webUrl + SaveMiddle, Take(content, 300), e);
    ContainsExtend(SaveHead + webUrl + SaveMiddle + Take(content, 300) + e, Take(content, 300), SaveTail);
    assert SavePage(webUrl, content) == SaveHead + webUrl + SaveMiddle + Take(content, 300) + e + SaveTail;
  }

  /** A save request without an open trigger puts the save page in place of the last message. */
  lemma SaveReplacesLast(ms: seq<Message>, webUrl: string, port: string)
    requires ms != [] && !ContainsAny(LastContentLower(ms), Triggers) && IsSaveRequest(LastContentLower(ms))
    ensures InletMessages(true, webUrl, port, ms) ==
      ms[..|ms| - 1] + [Message("assistant", SavePage(webUrl, SaveContent(LastContentLower(ms))))]
  {
  }

  /** The filter with its valves: `enabled`, the web interface URL and the MCP server port. */
  class OmiFilter {
    var enabled: bool
    var webUrl: string
    var mcpPort: string

    constructor ()
      ensures enabled && webUrl == "http://localhost:3458" && mcpPort == "3456"
    {
      enabled := true;
      webUrl := "http://localhost:3458";
      mcpPort := "3456";
    }

    /** `inlet`: the last message of the body's own list replaced when the filter answers. */
    method Inlet(body: Body)
      modifies body`messages
      ensures body.messages == InletMessages(enabled, webUrl, mcpPort, old(body.messages))
    {
      var ms := body.messages;
      if !enabled || ms == [] {
        return;
      }
      var lower := LastContentLower(ms);
      if ContainsAny(lower, Triggers) {
        body.messages := ReplaceLast(ms, Message("assistant", OmiPage(webUrl, mcpPort)));
      } else if IsSaveRequest(lower) {
        var content := SaveContent(lower);
        body.messages := ReplaceLast(ms, Message("assistant", SavePage(webUrl, content)));
      } else if IsSearchRequest(lower) {
        var query := SearchQuery(lower);
        body.messages := ReplaceLast(ms, Message("assistant", SearchPage(webUrl, query)));
      }
    }

    /** `outlet` of omi_mcp_integration_fixed.py (lines 203-208): an identity; its two debug prints are left out. */
    method Outlet(body: Body) returns (r: Body)
      ensures r == body
    {
      return body;
    }
  }
}

=== FILE: preview.dfy ===
/**
 * The conversation preview that both Notesnook "complete" plugins build for "save this
 * conversation": the last 10 messages, each cut to 500 characters, stripped of `<...>` tags and
 * rendered as `**Role**: text`, joined by the four characters `\n\n` (a backslash-escaped
 * separator left literal in the source), and shown cut to 500 characters followed by "...".
 */
module Preview {
  import opened Text
  import opened Scan
  import opened Chat
  import Seqs

  /** The separator `"\\n\\n"`: backslash, n, backslash, n. */
  const Sep: string := ['\\', 'n', '\\', 'n']

  /** A message contributes an entry when its role and its cut content are both non-empty. */
  predicate Shown(m: Message) {
    m.role != [] && Take(m.content, 500) != []
  }

  /** `f"**{role.title()}**: {re.sub(r'<[^>]+>', '', content[:500])}"`. */
  function Entry(m: Message): string {
    "**" + Title(m.role) + "**: " + StripTags(Take(m.content, 500), true)
  }

  /** The entries of the shown messages, in message order. */
  function Entries(ms: seq<Message>): (r: seq<string>)
    ensures |r| <= |ms|
    decreases |ms|
  {
    if ms == [] then []
    else
      var init := Entries(ms[..|ms| - 1]);
      if Shown(ms[|ms| - 1]) then init + [Entry(ms[|ms| - 1])] else init
  }

  /** The text of the preview before it is cut for display. */
  function ConversationText(ms: seq<Message>): string {
    Join(Entries(LastN(ms, 10)), Sep)
  }

  /** `conversation_text[:500] + "..."` as shown in the page. */
  function Shown500(text: string): (r: string)
    ensures 3 <= |r| <= 503 && r[|r| - 3..] == "..."
    ensures r == Take(text, 500) + "..."
  {
    Take(text, 500) + "..."
  }

  /**
   * The fixed text of the save page before the preview. Only its heading is kept; the ellipsis
   * line stands for the fixed HTML between the heading and the preview's indentation.
   */
  const SaveHead: string := "## \U{1F4BE} Saving Conversation to Notesnook\n\U{2026}\n        "

  const SaveTail: string := "...\n    </div>\n</details>"

  /** The save page: the fixed text around the shown preview `conversation_text[:500]`. */
  function SavePage(text: string): string {
    SaveHead + Take(text, 500) + SaveTail
  }

  /** The save page shows the preview cut at 500 characters and followed by "...", always. */
  lemma SavePageShowsPreview(text: string)
    ensures Contains(SavePage(text), Shown500(text))
  {
    var shown := Shown500(text);
    assert SavePage(text) == SaveHead + shown + SaveTail[3..];
    assert SavePage(text)[|SaveHead|..|SaveHead| + |shown|] == shown;
    ContainsAt(SavePage(text), shown, |SaveHead|);
  }

  /** The loop over `messages[-10:]` that appends one entry per shown message, then the join. */
  method BuildConversationText(ms: seq<Message>) returns (text: string)
    ensures text == ConversationText(ms)
  {
    var recent := LastN(ms, 10);
    var conversation: seq<string> := [];
    var i := 0;
    while i < |recent|
      invariant 0 <= i <= |recent|
      invariant conversation == Entries(recent[..i])
    {
      var m := recent[i];
      EntriesSnoc(recent[..i], m);
      Seqs.PrefixSnoc(recent, i);
      if Shown(m) {
        conversation := conversation + [Entry(m)];
      }
      i := i + 1;
    }
    Seqs.PrefixAll(recent);
    text := Join(conversation, Sep);
  }

  /** An entry is the role heading followed by at most 500 characters without tag spans. */
  lemma EntryShape(m: Message)
    ensures StartsWith(Entry(m), "**" + Title(m.role) + "**: ")
    ensures var rest := Entry(m)[|Title(m.role)| + 6..];
      |rest| <= 500 && TagFree(rest, true)
  {
    var clean := StripTags(Take(m.content, 500), true);
    assert Entry(m) == ("**" + Title(m.role) + "**: ") + clean;
    assert Entry(m)[|Title(m.role)| + 6..] == clean;
    StripTagsTagFree(Take(m.content, 500), true);
  }

  /** Messages older than the last 10 have no influence on the preview. */
  lemma OlderMessagesIgnored(older: seq<Message>, recent: seq<Message>)
    requires |recent| >= 10
    ensures ConversationText(older + recent) == ConversationText(recent)
  {
    var all := older + recent;
    assert LastN(all, 10) == all[|all| - 10..] == recent[|recent| - 10..] == LastN(recent, 10);
  }

  /**
   * Appending a message to the window appends its entry when it has a role and content, and
   * nothing otherwise.
   */
  lemma {:induction false} EntriesSnoc(ms: seq<Message>, m: Message)
    ensures Entries(ms + [m]) == if Shown(m) then Entries(ms) + [Entry(m)] else Entries(ms)
  {
    assert (ms + [m])[..|ms + [m]| - 1] == ms;
  }
}

=== FILE: ranking.dfy ===
/**
 * Ranking by score, highest first, as JavaScript's `Array.prototype.sort` does it with the
 * comparator `(a, b) => b.score - a.score`. The sort is stable (ECMAScript 2019 requires it),
 * so items with equal scores keep their original order. Scores are exact rationals.
 */
module Ranking {

  datatype Scored<T> = Scored(item: T, score: real)

  predicate SortedDesc<T>(s: seq<Scored<T>>) {
    forall i, j :: 0 <= i < j < |s| ==> s[i].score >= s[j].score
  }

  /** The items of `s` whose score is exactly `v`, in their order in `s`. */
  function WithScore<T>(s: seq<Scored<T>>, v: real): (r: seq<Scored<T>>)
    ensures |r| <= |s|
    ensures forall k :: 0 <= k < |r| ==> r[k].score == v
  {
    if s == [] then []
    else (if s[0].score == v then [s[0]] else []) + WithScore(s[1..], v)
  }

  /** Insertion into a ranking: after every item that scores strictly higher, before the rest. */
  function Insert<T>(x: Scored<T>, s: seq<Scored<T>>): (r: seq<Scored<T>>)
    requires SortedDesc(s)
    ensures |r| == |s| + 1
    ensures SortedDesc(r)
    ensures forall k :: 0 <= k < |r| ==> r[k] == x || r[k] in s
    ensures x in r && forall k :: 0 <= k < |s| ==> s[k] in r
  {
    if s == [] || s[0].score <= x.score then
      ConsSorted(x, s);
      [x] + s
    else
      var rest := Insert(x, s[1..]);
      forall k | 0 <= k < |rest| ensures s[0].score >= rest[k].score {
        assert rest[k] == x || rest[k] in s[1..];
      }
      ConsSorted(s[0], rest);
      [s[0]] + rest
  }

  /** A ranking stays sorted under a head that scores at least as high as its first item. */
  lemma ConsSorted<T>(h: Scored<T>, s: seq<Scored<T>>)
    requires SortedDesc(s) && (s == [] || h.score >= s[0].score)
    ensures SortedDesc([h] + s)
  {
    var r := [h] + s;
    forall i, j | 0 <= i < j < |r| ensures r[i].score >= r[j].score {
      if i == 0 {
        assert r[j] == s[j - 1];
      } else {
        assert r[i] == s[i - 1] && r[j] == s[j - 1];
      }
    }
  }

  /** The stable descending sort of `s`. */
  function SortDesc<T>(s: seq<Scored<T>>): (r: seq<Scored<T>>)
    ensures |r| == |s|
    ensures SortedDesc(r)
    ensures forall k :: 0 <= k < |r| ==> r[k] in s
    ensures forall k :: 0 <= k < |s| ==> s[k] in r
  {
    if s == [] then [] else Insert(s[0], SortDesc(s[1..]))
  }

  lemma {:induction false} InsertWithScore<T>(x: Scored<T>, s: seq<Scored<T>>, v: real)
    requires SortedDesc(s)
    ensures WithScore(Insert(x, s), v) == (if x.score == v then [x] else []) + WithScore(s, v)
    decreases |s|
  {
    var mine := if x.score == v then [x] else [];
    if s == [] || s[0].score <= x.score {
      var r := [x] + s;
      assert Insert(x, s) == r;
      assert r[1..] == s;
      assert WithScore(r, v) == mine + WithScore(s, v);
    } else {
      var rest := Insert(x, s[1..]);
      var r := [s[0]] + rest;
      assert Insert(x, s) == r;
      assert r[1..] == rest;
      var head := if s[0].score == v then [s[0]] else [];
      InsertWithScore(x, s[1..], v);
      assert WithScore(r, v) == head + (mine + WithScore(s[1..], v));
      assert WithScore(s, v) == head + WithScore(s[1..], v);
      SwapEmpty(head, mine, WithScore(s[1..], v));
    }
  }

  lemma SwapEmpty<U>(a: seq<U>, b: seq<U>, w: seq<U>)
    requires a == [] || b == []
    ensures a + (b + w) == b + (a + w)
  {
    if a == [] {
      assert a + (b + w) == b + w == b + (a + w);
    } else {
      assert a + (b + w) == a + w == b + (a + w);
    }
  }

  /**
   * Stability, and with it permutation: for every score, the items with that score appear in
   * the ranking exactly as (and in the same order as) in the input.
   */
  lemma {:induction false} SortDescStable<T>(s: seq<Scored<T>>, v: real)
    ensures WithScore(SortDesc(s), v) == WithScore(s, v)
    decreases |s|
  {
    if s != [] {
      SortDescStable(s[1..], v);
      InsertWithScore(s[0], SortDesc(s[1..]), v);
    }
  }

  /** The `k` best-scored items, ties in input order: `.sort(...).slice(0, k)`. */
  function Top<T>(s: seq<Scored<T>>, k: nat): (r: seq<Scored<T>>)
    ensures |r| <= k && |r| <= |s|
    ensures SortedDesc(r)
    ensures forall i :: 0 <= i < |r| ==> r[i] in s
    ensures |s| <= k ==> |r| == |s|
  {
    var sorted := SortDesc(s);
    if |sorted| <= k then sorted else sorted[..k]
  }

  /** When there are at most `k` items, the top `k` are all of them. */
  lemma TopAll<T>(s: seq<Scored<T>>, k: nat, x: Scored<T>)
    requires |s| <= k && x in s
    ensures x in Top(s, k)
  {
    var i :| 0 <= i < |s| && s[i] == x;
    assert Top(s, k) == SortDesc(s);
  }

  /** Every item left out of the top `k` scores no higher than every item kept. */
  lemma TopDominates<T>(s: seq<Scored<T>>, k: nat, i: nat, j: nat)
    requires i < |Top(s, k)| && |Top(s, k)| <= j < |s|
    ensures Top(s, k)[i].score >= SortDesc(s)[j].score
  {
  }
}

=== FILE: scan.dfy ===
/**
 * Hand-written scanners for the regular expressions the plugins apply. Each follows the leftmost,
 * non-overlapping search of Python's `re.findall`/`re.sub` and JavaScript's `/g` matching,
 * including the backtracking of a greedy `\s+`/`\s*` in front of a capture group.
 */
module Scan {
  import opened Wrappers
  import opened Text

  const Digits: set<char> := {'0', '1', '2', '3', '4', '5', '6', '7', '8', '9'}

  /** The sentence punctuation class `[.!?]`. */
  const Punct: set<char> := {'.', '!', '?'}

  // ---------------------------------------------------------------------------
  // findall of  HEAD \s{minSpace,} ([^stop]+)
  // ---------------------------------------------------------------------------

  /** The last index `q` with `lo <= q < hi` whose character is not in `cs`. */
  function LastNotIn(s: string, cs: set<char>, lo: nat, hi: nat): (r: Option<nat>)
    requires lo <= hi <= |s|
    ensures r.Some? ==> lo <= r.value < hi && s[r.value] !in cs
    ensures r.Some? ==> forall j :: r.value < j < hi ==> s[j] in cs
    ensures r.None? ==> forall j :: lo <= j < hi ==> s[j] in cs
    decreases hi - lo
  {
    if lo == hi then None
    else if s[hi - 1] !in cs then Some(hi - 1)
    else LastNotIn(s, cs, lo, hi - 1)
  }

  /**
   * What a capture of `HEAD \s{minSpace,} ([^stop]+)` can look like: a non-empty run of characters
   * outside `stop` that starts with a non-whitespace character, or, when the greedy whitespace run
   * had to give a character back, that single whitespace character.
   */
  predicate WellFormedCapture(c: string, stop: set<char>) {
    c != [] && NoneIn(c, stop) && (!IsSpace(c[0]) || (|c| == 1 && IsSpace(c[0])))
  }

  /**
   * All captures of `HEAD \s{minSpace,} ([^stop]+)` in `s` at or after `from`. `head(s, i)` is the
   * end of the pattern's head when it matches at `i`, and any value `<= i` when it does not.
   * The whitespace characters are assumed outside `stop` except possibly the newline.
   */
  function Captures(s: string, from: nat, head: (string, nat) -> nat, minSpace: nat, stop: set<char>)
    : (r: seq<string>)
    requires from <= |s|
    requires forall c :: c in stop && c in Ws ==> c == '\n'
    ensures forall k :: 0 <= k < |r| ==> WellFormedCapture(r[k], stop)
    decreases |s| - from
  {
    if from == |s| then []
    else
      var j := head(s, from);
      if j <= from || j > |s| then Captures(s, from + 1, head, minSpace, stop)
      else
        var p := FirstNotIn(s, Ws, j);
        if p - j < minSpace then Captures(s, from + 1, head, minSpace, stop)
        else if p < |s| && s[p] !in stop then
          var e := FirstIn(s, stop, p);
          [s[p..e]] + Captures(s, e, head, minSpace, stop)
        else
          match LastNotIn(s, stop, j + minSpace, p)
          case Some(q) => [s[q..q + 1]] + Captures(s, q + 1, head, minSpace, stop)
          case None => Captures(s, from + 1, head, minSpace, stop)
  }

  /**
   * A pattern `HEAD \s{minSpace,} ([^stop]+)`. `head(s, i)` gives the end of HEAD when it matches
   * at `i` (anything `<= i` otherwise).
   */
  datatype Pattern = Pattern(head: (string, nat) -> nat, minSpace: nat, stop: set<char>)

  /** The capture class excludes no whitespace character other than the newline. */
  predicate ValidPattern(p: Pattern) {
    forall c :: c in p.stop && c in Ws ==> c == '\n'
  }

  /** `re.findall(pattern, s)`: every capture, leftmost first, non-overlapping. */
  function FindAll(s: string, p: Pattern): (r: seq<string>)
    requires ValidPattern(p)
    ensures forall k :: 0 <= k < |r| ==> WellFormedCapture(r[k], p.stop)
  {
    Captures(s, 0, p.head, p.minSpace, p.stop)
  }

  /** The matches of every pattern in turn: `for pattern in patterns: found.extend(re.findall(...))`. */
  function FindAllEach(s: string, ps: seq<Pattern>): (r: seq<string>)
    requires forall k :: 0 <= k < |ps| ==> ValidPattern(ps[k])
    decreases |ps|
  {
    if ps == [] then [] else FindAllEach(s, ps[..|ps| - 1]) + FindAll(s, ps[|ps| - 1])
  }

  /** One more pattern: its matches follow those of the patterns before it. */
  lemma FindAllEachStep(s: string, ps: seq<Pattern>, p: nat)
    requires forall k :: 0 <= k < |ps| ==> ValidPattern(ps[k])
    requires p < |ps|
    ensures FindAllEach(s, ps[..p + 1]) == FindAllEach(s, ps[..p]) + FindAll(s, ps[p])
  {
    assert ps[..p + 1][..p] == ps[..p];
  }

  /** A character every pattern stops at appears in none of the matches. */
  lemma {:induction false} FindAllEachAvoids(s: string, ps: seq<Pattern>, c: char)
    requires forall k :: 0 <= k < |ps| ==> ValidPattern(ps[k]) && c in ps[k].stop
    ensures forall i :: 0 <= i < |FindAllEach(s, ps)| ==> NoneIn(FindAllEach(s, ps)[i], {c})
    decreases |ps|
  {
    if ps != [] {
      var init := ps[..|ps| - 1];
      FindAllEachAvoids(s, init, c);
      var a := FindAllEach(s, init);
      var b := FindAll(s, ps[|ps| - 1]);
      assert FindAllEach(s, ps) == a + b;
      forall i | 0 <= i < |a + b|
        ensures NoneIn((a + b)[i], {c})
      {
        if i >= |a| {
          assert WellFormedCapture(b[i - |a|], ps[|ps| - 1].stop);
        }
      }
    }
  }

  // ---------------------------------------------------------------------------
  // Pattern heads
  // ---------------------------------------------------------------------------

  /**
   * The end of the first of `alts` found at `i`, compared after ASCII lower-casing when `ci`
   * (the `re.IGNORECASE` flag; then `alts` are written in lower case), else `i`.
   */
  function PhraseEnd(s: string, i: nat, alts: seq<string>, ci: bool): nat
  {
    if alts == [] then i
    else if i + |alts[0]| <= |s|
         && (if ci then LowerStr(s[i..i + |alts[0]|]) else s[i..i + |alts[0]|]) == alts[0]
    then i + |alts[0]|
    else PhraseEnd(s, i, alts[1..], ci)
  }

  /** `[chars]`: one character of the class. */
  function CharEnd(s: string, i: nat, chars: set<char>): nat {
    if i < |s| && s[i] in chars then i + 1 else i
  }

  /** `\d+\.`: a run of digits followed by a full stop. */
  function NumberDotEnd(s: string, i: nat): nat {
    if i < |s| && s[i] in Digits then
      var d := FirstNotIn(s, Digits, i);
      if d < |s| && s[d] == '.' then d + 1 else i
    else i
  }

  // ---------------------------------------------------------------------------
  // #\w+ (JavaScript, global)
  // ---------------------------------------------------------------------------

  /** The end of the run of `\w` characters starting at `i`. */
  function WordRunEnd(s: string, i: nat): (e: nat)
    requires i <= |s|
    ensures i <= e <= |s|
    ensures forall j :: i <= j < e ==> IsWordChar(s[j])
    ensures e < |s| ==> !IsWordChar(s[e])
    decreases |s| - i
  {
    if i == |s| || !IsWordChar(s[i]) then i else WordRunEnd(s, i + 1)
  }

  /** A hashtag: `#` followed by one or more `\w` characters. */
  predicate IsHashtag(t: string) {
    |t| >= 2 && t[0] == '#' && forall j :: 1 <= j < |t| ==> IsWordChar(t[j])
  }

  /** `s.match(/#\w+/g) || []` from position `from`. */
  function HashtagsFrom(s: string, from: nat): (r: seq<string>)
    requires from <= |s|
    ensures forall k :: 0 <= k < |r| ==> IsHashtag(r[k])
    decreases |s| - from
  {
    if from == |s| then []
    else if s[from] == '#' && from + 1 < |s| && IsWordChar(s[from + 1]) then
      var e := WordRunEnd(s, from + 1);
      [s[from..e]] + HashtagsFrom(s, e)
    else HashtagsFrom(s, from + 1)
  }

  function Hashtags(s: string): (r: seq<string>)
    ensures forall k :: 0 <= k < |r| ==> IsHashtag(r[k])
  {
    HashtagsFrom(s, 0)
  }

  /** Every hashtag found is a substring of the text it was found in. */
  lemma {:induction false} HashtagsOccur(s: string, from: nat, k: nat)
    requires from <= |s| && k < |HashtagsFrom(s, from)|
    ensures Contains(s, HashtagsFrom(s, from)[k])
    decreases |s| - from
  {
    if s[from] == '#' && from + 1 < |s| && IsWordChar(s[from + 1]) {
      var e := WordRunEnd(s, from + 1);
      if k == 0 {
        ContainsAt(s, s[from..e], from);
      } else {
        HashtagsOccur(s, e, k - 1);
      }
    } else {
      HashtagsOccur(s, from + 1, k);
    }
  }

  // ---------------------------------------------------------------------------
  // [^.!?]+[.!?]+ (JavaScript, global)
  // ---------------------------------------------------------------------------

  /** A terminated sentence: text without punctuation followed by a run of punctuation. */
  predicate IsTerminatedSentence(t: string) {
    exists i :: 0 < i < |t| && NoneIn(t[..i], Punct) && (forall j :: i <= j < |t| ==> t[j] in Punct)
  }

  /** `s.match(/[^.!?]+[.!?]+/g) || []` from position `from`. */
  function SentencesFrom(s: string, from: nat): (r: seq<string>)
    requires from <= |s|
    ensures forall k :: 0 <= k < |r| ==> IsTerminatedSentence(r[k])
    decreases |s| - from
  {
    if from == |s| then []
    else if s[from] in Punct then SentencesFrom(s, from + 1)
    else
      var e1 := FirstIn(s, Punct, from);
      if e1 == |s| then []
      else
        var e2 := FirstNotIn(s, Punct, e1);
        var t := s[from..e2];
        assert t[..e1 - from] == s[from..e1];
        assert NoneIn(t[..e1 - from], Punct);
        [t] + SentencesFrom(s, e2)
  }

  function Sentences(s: string): (r: seq<string>)
    ensures forall k :: 0 <= k < |r| ==> IsTerminatedSentence(r[k])
  {
    SentencesFrom(s, 0)
  }

  // ---------------------------------------------------------------------------
  // <[^>]*> (JavaScript replace) and <[^>]+> (Python re.sub)
  // ---------------------------------------------------------------------------

  /**
   * Removal of every tag span: `s.replace(/<[^>]*>/g, '')` when `nonEmpty` is false and
   * `re.sub(r'<[^>]+>', '', s)` when it is true.
   */
  function StripTags(s: string, nonEmpty: bool): (r: string)
    ensures |r| <= |s|
    decreases |s|
  {
    if s == [] then []
    else if s[0] == '<' then
      var k := FirstIn(s, {'>'}, 1);
      if k == |s| then s
      else if nonEmpty && k == 1 then [s[0]] + StripTags(s[1..], nonEmpty)
      else StripTags(s[k + 1..], nonEmpty)
    else [s[0]] + StripTags(s[1..], nonEmpty)
  }

  /** No tag span is left: every `<` is followed by no `>` at all, or (for `<[^>]+>`) directly by one. */
  predicate TagFree(s: string, nonEmpty: bool) {
    forall i :: 0 <= i < |s| && s[i] == '<' ==>
      NoneIn(s[i + 1..], {'>'}) || (nonEmpty && i + 1 < |s| && s[i + 1] == '>')
  }

  lemma TagFreeCons(c: char, t: string, nonEmpty: bool)
    requires TagFree(t, nonEmpty)
    requires c == '<' ==> NoneIn(t, {'>'}) || (nonEmpty && t != [] && t[0] == '>')
    ensures TagFree([c] + t, nonEmpty)
  {
    var s := [c] + t;
    forall i | 0 <= i < |s| && s[i] == '<'
      ensures NoneIn(s[i + 1..], {'>'}) || (nonEmpty && i + 1 < |s| && s[i + 1] == '>')
    {
      if i > 0 {
        assert s[i + 1..] == t[i..];
        assert t[i - 1] == '<';
      } else {
        assert s[1..] == t;
      }
    }
  }

  /** A `<` never closed by a `>` is kept with the rest of the text, which has no `>` either. */
  lemma UnclosedTagFree(s: string, nonEmpty: bool)
    requires s != [] && s[0] == '<' && FirstIn(s, {'>'}, 1) == |s|
    ensures TagFree(StripTags(s, nonEmpty), nonEmpty)
  {
    assert StripTags(s, nonEmpty) == s;
    forall i | 0 <= i < |s| && s[i] == '<' ensures NoneIn(s[i + 1..], {'>'}) {
    }
  }

  /** The result of stripping contains no tag span. */
  lemma {:induction false} StripTagsTagFree(s: string, nonEmpty: bool)
    ensures TagFree(StripTags(s, nonEmpty), nonEmpty)
    decreases |s|
  {
    if s == [] {
    } else if s[0] == '<' {
      var k := FirstIn(s, {'>'}, 1);
      if k == |s| {
        UnclosedTagFree(s, nonEmpty);
      } else if nonEmpty && k == 1 {
        StripTagsTagFree(s[1..], nonEmpty);
        assert s[1..][0] == '>';
        assert StripTags(s[1..], nonEmpty)[0] == '>' by {
          assert s[1..] != [] && s[1..][0] != '<';
        }
        TagFreeCons(s[0], StripTags(s[1..], nonEmpty), nonEmpty);
      } else {
        StripTagsTagFree(s[k + 1..], nonEmpty);
      }
    } else {
      StripTagsTagFree(s[1..], nonEmpty);
      TagFreeCons(s[0], StripTags(s[1..], nonEmpty), nonEmpty);
    }
  }

  /** Text without tag spans is left as it is. */
  lemma {:induction false} StripTagsOfTagFree(s: string, nonEmpty: bool)
    requires TagFree(s, nonEmpty)
    ensures StripTags(s, nonEmpty) == s
    decreases |s|
  {
    if s != [] {
      assert TagFree(s[1..], nonEmpty) by {
        forall i | 0 <= i < |s[1..]| && s[1..][i] == '<'
          ensures NoneIn(s[1..][i + 1..], {'>'}) || (nonEmpty && i + 1 < |s[1..]| && s[1..][i + 1] == '>')
        {
          assert s[i + 1] == '<';
          assert s[1..][i + 1..] == s[i + 2..];
        }
      }
      if s[0] == '<' {
        var k := FirstIn(s, {'>'}, 1);
        if k < |s| {
          assert s[k] in s[1..];
          assert nonEmpty && s[1] == '>';
          assert k == 1;
          StripTagsOfTagFree(s[1..], nonEmpty);
        }
      } else {
        StripTagsOfTagFree(s[1..], nonEmpty);
      }
    }
  }

  /** Stripping tags twice is the same as stripping them once. */
  lemma StripTagsIdempotent(s: string, nonEmpty: bool)
    ensures StripTags(StripTags(s, nonEmpty), nonEmpty) == StripTags(s, nonEmpty)
  {
    StripTagsTagFree(s, nonEmpty);
    StripTagsOfTagFree(StripTags(s, nonEmpty), nonEmpty);
  }
}

=== FILE: seqs.dfy ===
/**
 * Sequence helpers shared by the plugins: first-occurrence deduplication, which is both
 * JavaScript's `[...new Set(xs)]` and the Python loops that append an item only when it is
 * `not in` the list built so far.
 */
module Seqs {

  predicate NoDup<T(==)>(s: seq<T>) {
    forall i, j :: 0 <= i < j < |s| ==> s[i] != s[j]
  }

  /** The elements of `s` in order of first occurrence, each once. */
  function Distinct<T(==)>(s: seq<T>): (r: seq<T>)
    ensures |r| <= |s|
    decreases |s|
  {
    if s == [] then []
    else
      var init := s[..|s| - 1];
      var d := Distinct(init);
      if s[|s| - 1] in init then d else d + [s[|s| - 1]]
  }

  /** The deduplication has no duplicates and exactly the elements of `s`. */
  lemma {:induction false} DistinctProps<T>(s: seq<T>)
    ensures NoDup(Distinct(s))
    ensures forall k :: 0 <= k < |Distinct(s)| ==> Distinct(s)[k] in s
    ensures forall k :: 0 <= k < |s| ==> s[k] in Distinct(s)
    decreases |s|
  {
    if s != [] {
      var init := s[..|s| - 1];
      var x := s[|s| - 1];
      var d := Distinct(init);
      var r := Distinct(s);
      DistinctProps(init);
      assert s == init + [x];
      forall k | 0 <= k < |s|
        ensures s[k] in r
      {
        if k < |init| {
          assert s[k] == init[k];
        }
      }
      if x !in init {
        assert r == d + [x];
        forall i, j | 0 <= i < j < |r|
          ensures r[i] != r[j]
        {
          if j == |d| {
            assert r[i] == d[i] && d[i] in init;
          }
        }
      }
    }
  }

  /** A non-empty tail splits off its last element across a concatenation. */
  lemma AppendSnoc<T>(a: seq<T>, b: seq<T>)
    requires b != []
    ensures b == b[..|b| - 1] + [b[|b| - 1]]
    ensures a + b == (a + b[..|b| - 1]) + [b[|b| - 1]]
  {
    assert b == b[..|b| - 1] + [b[|b| - 1]];
  }

  /** A prefix one longer is the prefix followed by the next element. */
  lemma PrefixSnoc<T>(s: seq<T>, i: nat)
    requires i < |s|
    ensures s[..i + 1] == s[..i] + [s[i]]
  {
  }

  /** The prefix as long as the sequence is the sequence. */
  lemma PrefixAll<T>(s: seq<T>)
    ensures s[..|s|] == s
  {
  }

  /** A sequence is its prefix followed by the rest. */
  lemma PrefixSuffix<T>(s: seq<T>, i: nat)
    requires i <= |s|
    ensures s[..i] + s[i..] == s
  {
  }

  /** An element of either part is an element of a concatenation. */
  lemma InAppend<T>(a: seq<T>, b: seq<T>, x: T)
    requires x in a || x in b
    ensures x in a + b
  {
  }

  lemma AppendAssoc<T>(x: seq<T>, y: seq<T>, z: seq<T>)
    ensures (x + y) + z == x + (y + z)
  {
  }

  /** An element is in the deduplication exactly when it is in the sequence. */
  lemma DistinctMember<T>(s: seq<T>, x: T)
    ensures x in Distinct(s) <==> x in s
  {
    DistinctProps(s);
  }

  /** Adding one element at the end: it is kept exactly when it has not been seen before. */
  lemma DistinctSnoc<T>(s: seq<T>, x: T)
    ensures Distinct(s + [x]) == if x in s then Distinct(s) else Distinct(s) + [x]
  {
    assert (s + [x])[..|s + [x]| - 1] == s;
  }

  /** A duplicate-free sequence is its own deduplication. */
  lemma {:induction false} DistinctOfNoDup<T>(s: seq<T>)
    requires NoDup(s)
    ensures Distinct(s) == s
    decreases |s|
  {
    if s != [] {
      var init := s[..|s| - 1];
      assert NoDup(init);
      DistinctOfNoDup(init);
      assert s == init + [s[|s| - 1]];
    }
  }

  /** Deduplicating `a + b` starts with the deduplication of `a`: earlier elements keep their place. */
  lemma {:induction false} DistinctPrefix<T>(a: seq<T>, b: seq<T>)
    ensures Distinct(a) <= Distinct(a + b)
    decreases |b|
  {
    if b == [] {
      assert a + b == a;
    } else {
      var b' := b[..|b| - 1];
      DistinctPrefix(a, b');
      assert a + b == (a + b') + [b[|b| - 1]];
      DistinctSnoc(a + b', b[|b| - 1]);
    }
  }

  /** Deduplication is idempotent. */
  lemma DistinctIdempotent<T>(s: seq<T>)
    ensures Distinct(Distinct(s)) == Distinct(s)
  {
    DistinctProps(s);
    DistinctOfNoDup(Distinct(s));
  }
}

=== FILE: test_simple.dfy ===
/** The test filter (test_simple.py): it answers any last message that mentions "test". */
module TestSimple {
  import opened Text
  import opened Chat

  const Confirmation: string := "\U{2705} Test function is working!"

  /** The message list after `inlet`. */
  function InletMessages(ms: seq<Message>): (r: seq<Message>)
    ensures r == ms || r == ms + [Message("assistant", Confirmation)]
    ensures r != ms <==> ms != [] && Contains(LastContentLower(ms), "test")
  {
    if ms != [] && Contains(LastContentLower(ms), "test") then ms + [Message("assistant", Confirmation)]
    else ms
  }

  /** Any text holding "Test" mentions "test" once lower-cased. */
  lemma CapitalisedTestMentionsTest(s: string, i: nat)
    requires OccursAt(s, "Test", i)
    ensures Contains(LowerStr(s), "test")
  {
    var lower := LowerStr(s);
    assert lower[i] == Lower('T') == 't';
    assert lower[i + 1..i + 4] == s[i + 1..i + 4] == "est";
    assert lower[i..i + 4] == "test";
    ContainsAt(lower, "test", i);
  }

  /** The confirmation itself mentions "test" once lower-cased. */
  lemma ConfirmationMentionsTest()
    ensures Contains(LowerStr(Confirmation), "test")
  {
    var a, b, c := "\U{2705} ", "Test", " function is working!";
    assert Confirmation == a + b + c;
    assert (a + b + c)[|a|..|a| + |b|] == b;
    CapitalisedTestMentionsTest(Confirmation, |a|);
  }

  /** Not idempotent: a triggered inlet triggers again on its own output, once more each pass. */
  lemma InletRepeats(ms: seq<Message>)
    requires InletMessages(ms) != ms
    ensures InletMessages(InletMessages(ms)) == InletMessages(ms) + [Message("assistant", Confirmation)]
  {
    ConfirmationMentionsTest();
  }

  /** A filter with no state. */
  class TestFilter {
    constructor ()
    {
    }

    /** `inlet`: the confirmation appended to the body's own message list. */
    method Inlet(body: Body)
      modifies body`messages
      ensures body.messages == InletMessages(old(body.messages))
    {
      var ms := body.messages;
      if ms != [] && Contains(LastContentLower(ms), "test") {
        body.messages := ms + [Message("assistant", Confirmation)];
      }
    }

    /** `outlet` of test_simple.py (lines 20-21): an identity, `return body`. */
    method Outlet(body: Body) returns (r: Body)
      ensures r == body
    {
      return body;
    }
  }
}

=== FILE: text.dfy ===
/**
 * String primitives of Python's `str` and JavaScript's `String` that the plugins rely on:
 * ASCII case mapping, whitespace, strip, substring search, the split variants, slicing,
 * `capitalize`, `title`, `replace` and joining.
 *
 * Case mapping and the whitespace class are modelled on ASCII; see README "## Left out".
 */
module Text {
  import opened Wrappers

  // ---------------------------------------------------------------------------
  // Characters
  // ---------------------------------------------------------------------------

  /**
   * The six characters space, \t, \n, \r, \v and \f. Python's `str.split()`, `str.strip()` and
   * `\s` also count \x1c to \x1f, \x85 and the Unicode spaces, and JavaScript's `\s` the Unicode
   * spaces; those are not modelled.
   */
  const Ws: set<char> := {' ', '\t', '\n', '\r', '\U{000B}', '\U{000C}'}

  predicate IsSpace(c: char) { c in Ws }

  predicate IsUpperAscii(c: char) { 'A' <= c <= 'Z' }

  predicate IsLowerAscii(c: char) { 'a' <= c <= 'z' }

  predicate IsLetter(c: char) { IsUpperAscii(c) || IsLowerAscii(c) }

  predicate IsDigit(c: char) { '0' <= c <= '9' }

  /** The regex class `\w` of JavaScript: ASCII letters, digits and underscore. */
  predicate IsWordChar(c: char) { IsLetter(c) || IsDigit(c) || c == '_' }

  function Lower(c: char): (d: char)
    ensures !IsUpperAscii(d)
    ensures IsUpperAscii(c) <==> d != c
  {
    if IsUpperAscii(c) then (c as int + 32) as char else c
  }

  function Upper(c: char): (d: char)
    ensures !IsLowerAscii(d)
    ensures IsLowerAscii(c) <==> d != c
  {
    if IsLowerAscii(c) then (c as int - 32) as char else c
  }

  /** `str.lower()` / `String.prototype.toLowerCase()`. */
  function LowerStr(s: string): (r: string)
    ensures |r| == |s|
    ensures forall i :: 0 <= i < |s| ==> r[i] == Lower(s[i])
  {
    if s == [] then [] else [Lower(s[0])] + LowerStr(s[1..])
  }

  /** Lower-casing works character by character, so it distributes over concatenation. */
  lemma LowerStrAppend(a: string, b: string)
    ensures LowerStr(a + b) == LowerStr(a) + LowerStr(b)
  {
    assert forall i :: 0 <= i < |a + b| ==> LowerStr(a + b)[i] == (LowerStr(a) + LowerStr(b))[i];
  }

  /** Strings without ASCII upper-case letters: the image of `LowerStr`. */
  predicate IsLowerCase(s: string) {
    forall i :: 0 <= i < |s| ==> !IsUpperAscii(s[i])
  }

  // ---------------------------------------------------------------------------
  // Searching
  // ---------------------------------------------------------------------------

  /** `t` occurs in `s` at position `i`. */
  predicate OccursAt(s: string, t: string, i: nat) {
    i + |t| <= |s| && s[i..i + |t|] == t
  }

  predicate StartsWith(s: string, p: string) { OccursAt(s, p, 0) }

  /** The first occurrence of `t` in `s` at or after `from`. */
  function IndexFrom(s: string, t: string, from: nat): (r: Option<nat>)
    ensures r.Some? ==> from <= r.value && OccursAt(s, t, r.value)
    ensures r.Some? ==> forall j :: from <= j < r.value ==> !OccursAt(s, t, j)
    ensures r.None? ==> forall j :: from <= j ==> !OccursAt(s, t, j)
    decreases |s| - from
  {
    if from + |t| > |s| then None
    else if s[from..from + |t|] == t then Some(from)
    else IndexFrom(s, t, from + 1)
  }

  /** `s.find(t)` as an option: the first occurrence of `t` in `s`. */
  function IndexOf(s: string, t: string): Option<nat> { IndexFrom(s, t, 0) }

  /** Python's `t in s` and JavaScript's `s.includes(t)`. */
  predicate Contains(s: string, t: string) { IndexOf(s, t).Some? }

  lemma ContainsAt(s: string, t: string, i: nat)
    requires OccursAt(s, t, i)
    ensures Contains(s, t)
  {
  }

  /** An occurrence with none before it is the first one. */
  lemma IndexOfFirst(s: string, t: string, k: nat)
    requires OccursAt(s, t, k)
    requires forall j :: 0 <= j < k ==> !OccursAt(s, t, j)
    ensures IndexOf(s, t) == Some(k)
  {
  }

  /** A text containing `c` followed by `t` contains `t`. */
  lemma ContainsTail(s: string, c: char, t: string)
    requires Contains(s, [c] + t)
    ensures Contains(s, t)
  {
    var i := IndexOf(s, [c] + t).value;
    assert s[i + 1..i + 1 + |t|] == s[i..i + 1 + |t|][1..] == t;
    ContainsAt(s, t, i + 1);
  }

  /** Containment is transitive. */
  lemma ContainsTrans(s: string, t: string, u: string)
    requires Contains(s, t) && Contains(t, u)
    ensures Contains(s, u)
  {
    var i := IndexOf(s, t).value;
    var j := IndexOf(t, u).value;
    SliceOfSlice(s, i, i + |t|, j, j + |u|);
    ContainsAt(s, u, i + j);
  }

  /** A slice of a slice is a slice. */
  lemma SliceOfSlice(s: string, a: nat, b: nat, c: nat, d: nat)
    requires a <= b <= |s| && c <= d <= b - a
    ensures s[a..b][c..d] == s[a + c..a + d]
  {
    assert forall k :: 0 <= k < d - c ==> s[a..b][c..d][k] == s[a + c + k];
  }

  /** A text ends with what was appended to it, so it contains it. */
  lemma ContainsSuffix(s: string, t: string)
    ensures Contains(s + t, t)
  {
    assert (s + t)[|s|..|s| + |t|] == t;
    ContainsAt(s + t, t, |s|);
  }

  /** A text contains whatever was put in its middle. */
  lemma ContainsInfix(a: string, b: string, c: string)
    ensures Contains(a + b + c, b)
  {
    assert (a + b + c)[|a|..|a| + |b|] == b;
    ContainsAt(a + b + c, b, |a|);
  }

  /** A text that contains `t + u` contains `t`. */
  lemma ContainsPrefix(s: string, t: string, u: string)
    requires Contains(s, t + u)
    ensures Contains(s, t)
  {
    var i := IndexOf(s, t + u).value;
    assert s[i..i + |t|] == (t + u)[..|t|] == t;
    ContainsAt(s, t, i);
  }

  /** Appending keeps every occurrence. */
  lemma ContainsExtend(s: string, t: string, more: string)
    requires Contains(s, t)
    ensures Contains(s + more, t)
  {
    var i := IndexOf(s, t).value;
    assert (s + more)[i..i + |t|] == s[i..i + |t|];
    ContainsAt(s + more, t, i);
  }

  /** Python's `any(p in s for p in ps)`. */
  predicate ContainsAny(s: string, ps: seq<string>) {
    ps != [] && (Contains(s, ps[0]) || ContainsAny(s, ps[1..]))
  }

  /** `ContainsAny` holds exactly when one of the phrases occurs. */
  lemma {:induction false} ContainsAnyIff(s: string, ps: seq<string>)
    ensures ContainsAny(s, ps) <==> exists k :: 0 <= k < |ps| && Contains(s, ps[k])
  {
    if ps != [] {
      ContainsAnyIff(s, ps[1..]);
      if exists k :: 0 <= k < |ps| && Contains(s, ps[k]) {
        var k :| 0 <= k < |ps| && Contains(s, ps[k]);
        if k > 0 {
          assert ps[1..][k - 1] == ps[k];
        }
      }
    }
  }

  /** `s.split(sep, 1)[-1]`: the text after the first `sep`, or all of `s` when `sep` is absent. */
  function After(s: string, sep: string): (r: string)
    ensures |r| <= |s|
  {
    match IndexOf(s, sep)
    case Some(k) => s[k + |sep|..]
    case None => s
  }

  /** The first index at or after `from` whose character is in `cs`, or `|s|`. */
  function FirstIn(s: string, cs: set<char>, from: nat): (i: nat)
    requires from <= |s|
    ensures from <= i <= |s|
    ensures i < |s| ==> s[i] in cs
    ensures forall j :: from <= j < i ==> s[j] !in cs
    decreases |s| - from
  {
    if from == |s| || s[from] in cs then from else FirstIn(s, cs, from + 1)
  }

  /** The first index at or after `from` whose character is NOT in `cs`, or `|s|`. */
  function FirstNotIn(s: string, cs: set<char>, from: nat): (i: nat)
    requires from <= |s|
    ensures from <= i <= |s|
    ensures i < |s| ==> s[i] !in cs
    ensures forall j :: from <= j < i ==> s[j] in cs
    decreases |s| - from
  {
    if from == |s| || s[from] !in cs then from else FirstNotIn(s, cs, from + 1)
  }

  /** No character of `s` belongs to `cs`. */
  predicate NoneIn(s: string, cs: set<char>) {
    forall i :: 0 <= i < |s| ==> s[i] !in cs
  }

  // ---------------------------------------------------------------------------
  // Strip, slice, split, join
  // ---------------------------------------------------------------------------

  function StripLeft(s: string): (r: string)
    ensures |r| <= |s| && r == s[|s| - |r|..]
    ensures r == [] || !IsSpace(r[0])
    ensures forall i :: 0 <= i < |s| - |r| ==> IsSpace(s[i])
  {
    if s != [] && IsSpace(s[0]) then StripLeft(s[1..]) else s
  }

  function StripRight(s: string): (r: string)
    ensures |r| <= |s| && r == s[..|r|]
    ensures r == [] || !IsSpace(r[|r| - 1])
    ensures forall i :: |r| <= i < |s| ==> IsSpace(s[i])
  {
    if s != [] && IsSpace(s[|s| - 1]) then StripRight(s[..|s| - 1]) else s
  }

  /** `str.strip()`: drop leading and trailing whitespace. */
  function Strip(s: string): string { StripRight(StripLeft(s)) }

  /** A string is stripped when it neither starts nor ends with whitespace. */
  predicate IsStripped(s: string) {
    s == [] || (!IsSpace(s[0]) && !IsSpace(s[|s| - 1]))
  }

  lemma StripProps(s: string)
    ensures IsStripped(Strip(s))
    ensures |Strip(s)| <= |s|
    ensures exists i :: 0 <= i <= |s| && Strip(s) <= s[i..]
  {
    var l := StripLeft(s);
    var r := StripRight(l);
    var i := |s| - |l|;
    assert r == l[..|r|];
    assert l == s[i..];
    assert r <= s[i..];
  }

  /** Stripping keeps a text free of the characters it was free of. */
  lemma StripNoneIn(s: string, cs: set<char>)
    requires NoneIn(s, cs)
    ensures NoneIn(Strip(s), cs)
  {
    var l := StripLeft(s);
    forall k | 0 <= k < |l| ensures l[k] !in cs {
      assert l[k] == s[|s| - |l| + k];
    }
    var r := StripRight(l);
    forall k | 0 <= k < |r| ensures r[k] !in cs {
      assert r[k] == l[k];
    }
  }

  /** Python's `s[:n]`: at most the first `n` characters. */
  function Take<T>(s: seq<T>, n: nat): (r: seq<T>)
    ensures |r| <= n && |r| <= |s|
    ensures r == s[..|r|]
    ensures |s| <= n ==> r == s
    ensures |s| > n ==> |r| == n
  {
    if |s| <= n then s else s[..n]
  }

  /**
   * Splitting at every maximal run of characters in `seps`: JavaScript's `s.split(/[seps]+/)` and
   * Python's `re.split(r'[seps]+', s)`. A leading or trailing run gives an empty piece; the empty
   * string gives one empty piece.
   */
  function SplitRuns(s: string, seps: set<char>): (r: seq<string>)
    ensures |r| >= 1
    ensures forall k :: 0 <= k < |r| ==> NoneIn(r[k], seps)
    decreases |s|
  {
    var i := FirstIn(s, seps, 0);
    if i == |s| then [s]
    else
      var j := FirstNotIn(s, seps, i);
      [s[..i]] + SplitRuns(s[j..], seps)
  }

  /** The non-empty pieces of a sequence of strings (`filter(w => w.length > 0)`). */
  function NonEmpty(ps: seq<string>): (r: seq<string>)
    ensures |r| <= |ps|
    ensures forall k :: 0 <= k < |r| ==> r[k] != [] && r[k] in ps
    ensures forall k :: 0 <= k < |ps| && ps[k] != [] ==> ps[k] in r
  {
    if ps == [] then []
    else if ps[0] == [] then NonEmpty(ps[1..])
    else [ps[0]] + NonEmpty(ps[1..])
  }

  /** Python's `s.split()`: the non-empty whitespace-separated tokens. */
  function Words(s: string): seq<string> { NonEmpty(SplitRuns(s, Ws)) }

  /** The first whitespace-separated token of `s` is `s[i..e]`, when only whitespace precedes it. */
  lemma FirstWord(s: string, i: nat, e: nat)
    requires i < e <= |s|
    requires forall j :: 0 <= j < i ==> s[j] in Ws
    requires forall j :: i <= j < e ==> s[j] !in Ws
    requires e == |s| || s[e] in Ws
    ensures Words(s) != [] && Words(s)[0] == s[i..e]
  {
    if i == 0 {
      assert FirstIn(s, Ws, 0) == e;
      assert s[..e] != [];
    } else {
      assert FirstIn(s, Ws, 0) == 0;
      var r := FirstNotIn(s, Ws, 0);
      assert s[i] !in Ws;
      assert r <= i;
      assert r == i;
      assert SplitRuns(s, Ws) == [s[..0]] + SplitRuns(s[i..], Ws);
      assert NonEmpty(SplitRuns(s, Ws)) == NonEmpty(SplitRuns(s[i..], Ws));
      FirstWord(s[i..], 0, e - i);
      assert s[i..][0..e - i] == s[i..e];
    }
  }

  /** Python's `s.split(c)` and JavaScript's `s.split(c)` for a one-character separator. */
  function SplitChar(s: string, c: char): (r: seq<string>)
    ensures |r| >= 1
    ensures forall k :: 0 <= k < |r| ==> NoneIn(r[k], {c})
    decreases |s|
  {
    var i := FirstIn(s, {c}, 0);
    if i == |s| then [s] else [s[..i]] + SplitChar(s[i + 1..], c)
  }

  /** `sep.join(parts)`. */
  function Join(parts: seq<string>, sep: string): string {
    if parts == [] then []
    else if |parts| == 1 then parts[0]
    else parts[0] + sep + Join(parts[1..], sep)
  }

  /** Splitting at a character and joining with it again gives back the text. */
  lemma {:induction false} JoinSplitChar(s: string, c: char)
    ensures Join(SplitChar(s, c), [c]) == s
    decreases |s|
  {
    var i := FirstIn(s, {c}, 0);
    if i < |s| {
      JoinSplitChar(s[i + 1..], c);
      var rest := SplitChar(s[i + 1..], c);
      assert SplitChar(s, c) == [s[..i]] + rest;
      assert s == s[..i] + [c] + s[i + 1..];
    }
  }

  // ---------------------------------------------------------------------------
  // Case-changing and rewriting
  // ---------------------------------------------------------------------------

  /** `str.capitalize()`: first character upper-cased, the rest lower-cased. */
  function Capitalize(s: string): (r: string)
    ensures |r| == |s|
    ensures r != [] ==> !IsLowerAscii(r[0]) && IsLowerCase(r[1..])
  {
    if s == [] then [] else [Upper(s[0])] + LowerStr(s[1..])
  }

  /** `str.title()`: a letter after a letter is lower-cased, any other letter upper-cased. */
  function TitleFrom(s: string, prevCased: bool): (r: string)
    ensures |r| == |s|
  {
    if s == [] then []
    else [if prevCased then Lower(s[0]) else Upper(s[0])] + TitleFrom(s[1..], IsLetter(s[0]))
  }

  function Title(s: string): string { TitleFrom(s, false) }

  /** `s.replace(pat, rep)`: every non-overlapping occurrence, scanning left to right. */
  function ReplaceAll(s: string, pat: string, rep: string): string
    requires pat != []
    decreases |s|
  {
    if s == [] then []
    else if StartsWith(s, pat) then rep + ReplaceAll(s[|pat|..], pat, rep)
    else [s[0]] + ReplaceAll(s[1..], pat, rep)
  }

  /** Replacing a pattern that does not occur changes nothing. */
  lemma {:induction false} ReplaceAllAbsent(s: string, pat: string, rep: string)
    requires pat != []
    requires forall i :: 0 <= i < |s| ==> s[i] != pat[0]
    ensures ReplaceAll(s, pat, rep) == s
    decreases |s|
  {
    if s != [] {
      ReplaceAllAbsent(s[1..], pat, rep);
    }
  }

  /** Text free of the pattern's first character passes through a replacement unchanged. */
  lemma {:induction false} ReplaceAllFreePrefix(a: string, b: string, pat: string, rep: string)
    requires pat != [] && NoneIn(a, {pat[0]})
    ensures ReplaceAll(a + b, pat, rep) == a + ReplaceAll(b, pat, rep)
    decreases |a|
  {
    if a != [] {
      var s := a + b;
      assert s[0] == a[0] && s[1..] == a[1..] + b;
      assert !StartsWith(s, pat);
      ReplaceAllFreePrefix(a[1..], b, pat, rep);
      assert a == [a[0]] + a[1..];
    } else {
      assert a + b == b;
    }
  }

  /** A replacement passes over a prefix at which no occurrence of the pattern starts. */
  lemma {:induction false} ReplaceAllUntouched(a: string, b: string, pat: string, rep: string)
    requires pat != []
    requires forall j :: 0 <= j < |a| ==> !OccursAt(a + b, pat, j)
    ensures ReplaceAll(a + b, pat, rep) == a + ReplaceAll(b, pat, rep)
    decreases |a|
  {
    if a != [] {
      var s := a + b;
      assert s[0] == a[0] && s[1..] == a[1..] + b;
      assert !StartsWith(s, pat) by { assert !OccursAt(s, pat, 0); }
      forall j | 0 <= j < |a[1..]|
        ensures !OccursAt(a[1..] + b, pat, j)
      {
        OccursAtShift([a[0]], a[1..] + b, pat, j);
        assert [a[0]] + (a[1..] + b) == s;
        assert !OccursAt(s, pat, j + 1);
      }
      ReplaceAllUntouched(a[1..], b, pat, rep);
      assert a == [a[0]] + a[1..];
    } else {
      assert a + b == b;
    }
  }

  /** Occurrences in `s` are occurrences in `p + s`, shifted by `|p|`. */
  lemma OccursAtShift(p: string, s: string, t: string, j: nat)
    ensures OccursAt(p + s, t, |p| + j) <==> OccursAt(s, t, j)
  {
    if j + |t| <= |s| {
      assert (p + s)[|p| + j..|p| + j + |t|] == s[j..j + |t|];
    }
  }

  /** A pattern whose first character appears nowhere else in it, like an HTML tag. */
  predicate UniqueHead(pat: string) {
    pat != [] && forall i :: 0 < i < |pat| ==> pat[i] != pat[0]
  }

  /**
   * In `a + b`, where `b` starts with the head of a pattern that `a` does not contain, no
   * occurrence of the pattern starts inside `a`: one would have to reach into `b` and hold the
   * head a second time.
   */
  lemma NoOccurrenceInside(a: string, b: string, pat: string, j: nat)
    requires UniqueHead(pat) && !Contains(a, pat)
    requires b != [] && b[0] == pat[0]
    requires j < |a|
    ensures !OccursAt(a + b, pat, j)
  {
    var s := a + b;
    if j + |pat| <= |a| {
      assert s[j..j + |pat|] == a[j..j + |pat|];
      assert !OccursAt(a, pat, j);
    } else if j + |pat| <= |s| {
      assert s[j..j + |pat|][|a| - j] == s[|a|] == b[0];
    }
  }

  /** An occurrence at the start is replaced, and the scan resumes after it. */
  lemma ReplaceAllHead(b: string, pat: string, rep: string)
    requires pat != []
    ensures ReplaceAll(pat + b, pat, rep) == rep + ReplaceAll(b, pat, rep)
  {
    var s := pat + b;
    assert s[..|pat|] == pat && s[|pat|..] == b;
  }

  /** `re.sub('[cs]', '', s)`: delete every character of the class. */
  function RemoveChars(s: string, cs: set<char>): (r: string)
    ensures NoneIn(r, cs)
    ensures |r| <= |s|
  {
    if s == [] then []
    else if s[0] in cs then RemoveChars(s[1..], cs)
    else [s[0]] + RemoveChars(s[1..], cs)
  }

  /** Python slicing `s[a:b]` for `0 <= a, b`: empty when `a >= b`. */
  function Slice(s: string, a: nat, b: nat): (r: string)
    requires a <= |s| && b <= |s|
  {
    if a >= b then [] else s[a..b]
  }

  // ---------------------------------------------------------------------------
  // Decimal numerals
  // ---------------------------------------------------------------------------

  function DigitChar(d: nat): (c: char)
    requires d < 10
    ensures IsDigit(c)
  {
    ('0' as int + d) as char
  }

  /** `str(n)` for a natural number. */
  function NatToString(n: nat): (s: string)
    ensures |s| >= 1
    ensures forall i :: 0 <= i < |s| ==> IsDigit(s[i])
    decreases n
  {
    if n < 10 then [DigitChar(n)] else NatToString(n / 10) + [DigitChar(n % 10)]
  }

  /** The value of a string of decimal digits. */
  function DigitsValue(s: string): nat
    requires forall i :: 0 <= i < |s| ==> IsDigit(s[i])
    decreases |s|
  {
    if s == [] then 0
    else
      assert IsDigit(s[|s| - 1]);
      10 * DigitsValue(s[..|s| - 1]) + (s[|s| - 1] as int - '0' as int)
  }

  /** Reading a numeral back gives the number it was printed from. */
  lemma {:induction false} DigitsValueOfNat(n: nat)
    ensures DigitsValue(NatToString(n)) == n
    decreases n
  {
    if n >= 10 {
      DigitsValueOfNat(n / 10);
      var s := NatToString(n);
      assert s[..|s| - 1] == NatToString(n / 10);
    }
  }
}

=== FILE: thinking.dfy ===
/**
 * The "Thinking Claude" filter (thinking_claude.py): on the way in it adds step-by-step
 * instructions to the system prompt; on the way out it folds the assistant's `<thinking>` section
 * into a collapsible `<details>` block.
 */
module ThinkingClaude {
  import opened Wrappers
  import opened Text
  import opened Chat

  /** The instructions added to the system prompt, with the source's indentation kept. */
  const ThinkingPrompt: string :=
    "\n        Before answering, think step-by-step about the problem.\n        Show your reasoning process in a <thinking> section.\n        Then provide your final answer in an <answer> section.\n        "

  const OpenTag: string := "<thinking>"
  const CloseTag: string := "</thinking>"

  // ---------------------------------------------------------------------------
  // inlet
  // ---------------------------------------------------------------------------

  /** The index of the first system message. */
  function FirstSystem(ms: seq<Message>): (r: Option<nat>)
    ensures r.Some? ==> r.value < |ms| && ms[r.value].role == "system"
    ensures r.Some? ==> forall j :: 0 <= j < r.value ==> ms[j].role != "system"
    ensures r.None? ==> forall j :: 0 <= j < |ms| ==> ms[j].role != "system"
    decreases |ms|
  {
    if ms == [] then None
    else if ms[0].role == "system" then Some(0)
    else match FirstSystem(ms[1..]) case Some(k) => Some(k + 1) case None => None
  }

  /** A system message with none before it is the first one. */
  lemma FirstSystemAt(ms: seq<Message>, k: nat)
    requires k < |ms| && ms[k].role == "system"
    requires forall j :: 0 <= j < k ==> ms[j].role != "system"
    ensures FirstSystem(ms) == Some(k)
  {
  }

  /**
   * The messages after `inlet`: the prompt appended to the first system message, or, when there
   * is none, a new system message holding the prompt put in front.
   */
  function WithPrompt(ms: seq<Message>): (r: seq<Message>)
    ensures FirstSystem(ms).Some? ==> |r| == |ms|
    ensures FirstSystem(ms).Some? ==> var k := FirstSystem(ms).value;
      r[k] == Message("system", ms[k].content + "\n\n" + ThinkingPrompt)
      && forall j :: 0 <= j < |ms| && j != k ==> r[j] == ms[j]
    ensures FirstSystem(ms).None? ==> |r| == |ms| + 1 && r[0] == Message("system", ThinkingPrompt) && r[1..] == ms
  {
    match FirstSystem(ms)
    case Some(k) => ms[k := ms[k].(content := ms[k].content + "\n\n" + ThinkingPrompt)]
    case None => [Message("system", ThinkingPrompt)] + ms
  }

  /** After `inlet` there is a system message, and it is where the prompt went. */
  lemma WithPromptFirstSystem(ms: seq<Message>)
    ensures FirstSystem(WithPrompt(ms)) == Some(if FirstSystem(ms).Some? then FirstSystem(ms).value else 0)
  {
    var r := WithPrompt(ms);
    match FirstSystem(ms)
    case Some(k) =>
      assert forall j :: 0 <= j < k ==> r[j] == ms[j];
      FirstSystemAt(r, k);
    case None =>
      FirstSystemAt(r, 0);
  }

  /** `inlet` is not idempotent: a second pass appends the prompt once more. */
  lemma WithPromptNotIdempotent(ms: seq<Message>)
    ensures WithPrompt(WithPrompt(ms)) != WithPrompt(ms)
  {
    var r := WithPrompt(ms);
    WithPromptFirstSystem(ms);
    var k := FirstSystem(r).value;
    assert |WithPrompt(r)[k].content| > |r[k].content|;
  }

  // ---------------------------------------------------------------------------
  // outlet
  // ---------------------------------------------------------------------------

  const DivOpen: string := "<div style=\"padding: 10px; background: #f0f0f0; border-radius: 5px; margin: 10px 0;\">\n"

  /** The `<details>` block that replaces the thinking section. */
  function ThinkingBlock(caption: string, inner: string): string {
    "\n<details>\n<summary>" + caption + "</summary>\n"
    + DivOpen
    + inner + "\n</div>\n</details>\n"
  }

  /** `.replace("<thinking>", "").replace("</thinking>", "")`. */
  function Untagged(section: string): string {
    ReplaceAll(ReplaceAll(section, OpenTag, ""), CloseTag, "")
  }

  predicate HasThinking(content: string) {
    Contains(content, OpenTag) && Contains(content, CloseTag)
  }

  /**
   * The content with the span from the first `<thinking>` to the end of the first `</thinking>`
   * replaced by the block, using Python's slice rules for the section.
   */
  function Rewrite(content: string, caption: string): (r: string)
    requires HasThinking(content)
    ensures var s := IndexOf(content, OpenTag).value;
      s <= |r| && r[..s] == content[..s]
    ensures var e := IndexOf(content, CloseTag).value + |CloseTag|;
      e <= |content| && |content| - e <= |r| && r[|r| - (|content| - e)..] == content[e..]
  {
    var s := IndexOf(content, OpenTag).value;
    var e := IndexOf(content, CloseTag).value + |CloseTag|;
    var block := ThinkingBlock(caption, Untagged(Slice(content, s, e)));
    SpliceEnds(content[..s], block, content[e..]);
    content[..s] + block + content[e..]
  }

  /** Splicing `b` between `a` and `c` keeps `a` in front and `c` at the end. */
  lemma SpliceEnds<T>(a: seq<T>, b: seq<T>, c: seq<T>)
    ensures (a + b + c)[..|a|] == a
    ensures (a + b + c)[|a + b + c| - |c|..] == c
  {
  }

  /**
   * For a reply laid out as `pre <thinking> x </thinking> post`, where neither `pre` nor `x`
   * holds either tag, the rewrite keeps `pre` and `post` and puts exactly `x` in the block.
   */
  lemma RewriteWellFormed(pre: string, x: string, post: string, caption: string)
    requires !Contains(pre, OpenTag) && !Contains(pre, CloseTag)
    requires !Contains(x, OpenTag) && !Contains(x, CloseTag)
    ensures HasThinking(pre + OpenTag + x + CloseTag + post)
    ensures Rewrite(pre + OpenTag + x + CloseTag + post, caption) == pre + ThinkingBlock(caption, x) + post
  {
    FirstOpenTag(pre, x, post);
    FirstCloseTag(pre, x, post);
    Pieces(pre, x, post);
    UntaggedOf(x);
  }

  lemma Pieces(pre: string, x: string, post: string)
    ensures var c := pre + OpenTag + x + CloseTag + post;
      var e := |pre| + |OpenTag| + |x| + |CloseTag|;
      e <= |c| && c[|pre|..e] == OpenTag + x + CloseTag && c[..|pre|] == pre && c[e..] == post
  {
  }

  /** Both tags hold their '<' only at the front. */
  lemma TagsUniqueHead()
    ensures UniqueHead(OpenTag) && UniqueHead(CloseTag) && OpenTag[0] == CloseTag[0]
  {
  }

  lemma FirstOpenTag(pre: string, x: string, post: string)
    requires !Contains(pre, OpenTag)
    ensures IndexOf(pre + OpenTag + x + CloseTag + post, OpenTag) == Some(|pre|)
  {
    var c := pre + OpenTag + x + CloseTag + post;
    var rest := OpenTag + x + CloseTag + post;
    assert c == pre + rest;
    assert c[|pre|..|pre| + |OpenTag|] == OpenTag;
    TagsUniqueHead();
    forall j | 0 <= j < |pre|
      ensures !OccursAt(c, OpenTag, j)
    {
      NoOccurrenceInside(pre, rest, OpenTag, j);
    }
    IndexOfFirst(c, OpenTag, |pre|);
  }

  lemma FirstCloseTag(pre: string, x: string, post: string)
    requires !Contains(pre, CloseTag) && !Contains(x, CloseTag)
    ensures IndexOf(pre + OpenTag + x + CloseTag + post, CloseTag) == Some(|pre| + |OpenTag| + |x|)
  {
    var c := pre + OpenTag + x + CloseTag + post;
    var s := |pre|;
    var m := |pre| + |OpenTag| + |x|;
    var rest := OpenTag + x + CloseTag + post;
    assert c == pre + rest;
    assert c[m..m + |CloseTag|] == CloseTag;
    assert c[s..s + |OpenTag|] == OpenTag;
    TagsUniqueHead();
    forall j | 0 <= j < m
      ensures !OccursAt(c, CloseTag, j)
    {
      if j < s {
        NoOccurrenceInside(pre, rest, CloseTag, j);
      } else if j < s + |OpenTag| {
        CloseTagNotInOpenTag(c, s, j);
      } else {
        CloseTagNotInSection(pre, x, post, j - s - |OpenTag|);
      }
    }
    IndexOfFirst(c, CloseTag, m);
  }

  /** No `</thinking>` starts inside a `<thinking>`. */
  lemma CloseTagNotInOpenTag(c: string, s: nat, j: nat)
    requires OccursAt(c, OpenTag, s) && s <= j < s + |OpenTag|
    ensures !OccursAt(c, CloseTag, j)
  {
    assert c[j] == OpenTag[j - s];
    assert j == s ==> c[j + 1] == OpenTag[1];
  }

  /** No `</thinking>` starts inside a section free of it. */
  lemma CloseTagNotInSection(pre: string, x: string, post: string, i: nat)
    requires !Contains(x, CloseTag) && i < |x|
    ensures !OccursAt(pre + OpenTag + x + CloseTag + post, CloseTag, |pre| + |OpenTag| + i)
  {
    var tail := x + CloseTag + post;
    assert pre + OpenTag + x + CloseTag + post == (pre + OpenTag) + tail;
    assert tail == x + (CloseTag + post);
    TagsUniqueHead();
    NoOccurrenceInside(x, CloseTag + post, CloseTag, i);
    OccursAtShift(pre + OpenTag, tail, CloseTag, i);
  }

  /** The tags are dropped from a well-formed section, leaving its text. */
  lemma UntaggedOf(x: string)
    requires !Contains(x, OpenTag) && !Contains(x, CloseTag)
    ensures Untagged(OpenTag + x + CloseTag) == x
  {
    OpenTagDropped(x);
    CloseTagDropped(x);
  }

  lemma OpenTagDropped(x: string)
    requires !Contains(x, OpenTag)
    ensures ReplaceAll(OpenTag + x + CloseTag, OpenTag, "") == x + CloseTag
  {
    ReplaceAllHead(x + CloseTag, OpenTag, "");
    assert OpenTag + x + CloseTag == OpenTag + (x + CloseTag);
    TagsUniqueHead();
    forall j | 0 <= j < |x|
      ensures !OccursAt(x + CloseTag, OpenTag, j)
    {
      NoOccurrenceInside(x, CloseTag, OpenTag, j);
    }
    ReplaceAllUntouched(x, CloseTag, OpenTag, "");
    CloseTagKept();
  }

  lemma CloseTagKept()
    ensures ReplaceAll(CloseTag, OpenTag, "") == CloseTag
  {
    var t := CloseTag;
    assert !StartsWith(t, OpenTag) by { assert t[1] != OpenTag[1]; }
    assert NoneIn(t[1..], {OpenTag[0]});
    ReplaceAllFreePrefix(t[1..], [], OpenTag, "");
    assert t[1..] + [] == t[1..];
    assert t == [t[0]] + t[1..];
  }

  lemma CloseTagDropped(x: string)
    requires !Contains(x, CloseTag)
    ensures ReplaceAll(x + CloseTag, CloseTag, "") == x
  {
    TagsUniqueHead();
    forall j | 0 <= j < |x|
      ensures !OccursAt(x + CloseTag, CloseTag, j)
    {
      NoOccurrenceInside(x, CloseTag, CloseTag, j);
    }
    ReplaceAllUntouched(x, CloseTag, CloseTag, "");
    ReplaceAllHead([], CloseTag, "");
    assert CloseTag + [] == CloseTag;
  }

  /**
   * When the first `</thinking>` comes before the first `<thinking>`, the section is empty and the
   * text between the two tags is kept twice: before the block and after it.
   */
  lemma RewriteClosingFirst(content: string, caption: string)
    requires HasThinking(content)
    requires IndexOf(content, CloseTag).value + |CloseTag| <= IndexOf(content, OpenTag).value
    ensures var s := IndexOf(content, OpenTag).value;
      var e := IndexOf(content, CloseTag).value + |CloseTag|;
      Rewrite(content, caption) == content[..s] + ThinkingBlock(caption, "") + content[e..]
  {
    var s := IndexOf(content, OpenTag).value;
    var e := IndexOf(content, CloseTag).value + |CloseTag|;
    assert Slice(content, s, e) == [];
    assert Untagged([]) == [];
  }

  /**
   * The messages after `outlet`: the last message rewritten when it is an assistant message
   * holding both tags; otherwise nothing changes.
   */
  function WithThinkingBlock(ms: seq<Message>, caption: string): (r: seq<Message>)
    requires ms != []
    ensures |r| == |ms| && r[..|ms| - 1] == ms[..|ms| - 1]
    ensures r[|r| - 1].role == ms[|ms| - 1].role
    ensures ms[|ms| - 1].role != "assistant" || !HasThinking(ms[|ms| - 1].content) ==> r == ms
    ensures ms[|ms| - 1].role == "assistant" && HasThinking(ms[|ms| - 1].content) ==>
      r[|r| - 1].content == Rewrite(ms[|ms| - 1].content, caption)
  {
    var last := ms[|ms| - 1];
    if last.role == "assistant" && HasThinking(last.content) then
      ReplaceLast(ms, Message(last.role, Rewrite(last.content, caption)))
    else ms
  }

  // ---------------------------------------------------------------------------
  // The filter object
  // ---------------------------------------------------------------------------

  class ThinkingFilter {
    var showThinking: bool
    var thinkingLabel: string
    var enabled: bool

    /** The valves' defaults. */
    constructor ()
      ensures showThinking && thinkingLabel == "\U{1F914} Thinking..." && enabled
    {
      showThinking := true;
      thinkingLabel := "\U{1F914} Thinking...";
      enabled := true;
    }

    /** `inlet`: the loop over the messages that stops at the first system message. */
    method Inlet(body: Body)
      modifies body`messages
      ensures !enabled || old(body.messages) == [] ==> body.messages == old(body.messages)
      ensures enabled && old(body.messages) != [] ==> body.messages == WithPrompt(old(body.messages))
    {
      var messages := body.messages;
      if !enabled || messages == [] {
        return;
      }
      var i := 0;
      while i < |messages|
        invariant 0 <= i <= |messages|
        invariant forall j :: 0 <= j < i ==> messages[j].role != "system"
      {
        if messages[i].role == "system" {
          FirstSystemAt(messages, i);
          body.messages := messages[i := messages[i].(content := messages[i].content + "\n\n" + ThinkingPrompt)];
          return;
        }
        i := i + 1;
      }
      body.messages := [Message("system", ThinkingPrompt)] + messages;
    }

    /** `outlet`: rewrite the thinking section of the last message. */
    method Outlet(body: Body)
      modifies body`messages
      ensures !enabled || old(body.messages) == [] ==> body.messages == old(body.messages)
      ensures enabled && old(body.messages) != [] ==>
        body.messages == WithThinkingBlock(old(body.messages), thinkingLabel)
    {
      var messages := body.messages;
      if !enabled || messages == [] {
        return;
      }
      var last := messages[|messages| - 1];
      if last.role == "assistant" && HasThinking(last.content) {
        body.messages := ReplaceLast(messages, Message(last.role, Rewrite(last.content, thinkingLabel)));
      }
    }
  }
}

=== FILE: url.dfy ===
/**
 * Percent-encoding as `urllib.parse.quote(text)` does it (section 2.1 of RFC 3986): the text is
 * encoded as UTF-8 (RFC 3629), each byte that is an ASCII letter, digit, one of `_.-~` or the
 * default safe character `/` is kept, and every other byte becomes `%` and two upper-case hex
 * digits. The decoders here are the partner definitions the round trips are proved against.
 */
module Url {
  import opened Wrappers

  type Byte = b: int | 0 <= b < 256

  // ---------------------------------------------------------------------------
  // UTF-8
  // ---------------------------------------------------------------------------

  /** A continuation byte `10xxxxxx` carrying the low six bits of `n`. */
  function Cont(n: nat): Byte {
    0x80 + n % 64
  }

  /** The UTF-8 encoding of one scalar value: one to four bytes, shortest form. */
  function Utf8Char(c: char): (r: seq<Byte>)
    ensures 1 <= |r| <= 4
  {
    var cp := c as int;
    if cp < 0x80 then [cp]
    else if cp < 0x800 then [0xC0 + cp / 64, Cont(cp)]
    else if cp < 0x10000 then [0xE0 + cp / 64 / 64, Cont(cp / 64), Cont(cp)]
    else [0xF0 + cp / 64 / 64 / 64, Cont(cp / 64 / 64), Cont(cp / 64), Cont(cp)]
  }

  /** `text.encode("utf-8")`. */
  function Utf8(s: string): (r: seq<Byte>)
    ensures |s| <= |r| <= 4 * |s|
  {
    if s == [] then [] else Utf8Char(s[0]) + Utf8(s[1..])
  }

  predicate IsCont(b: Byte) { 0x80 <= b < 0xC0 }

  /** A code point that is a Unicode scalar value, that is, a Dafny `char`. */
  predicate IsScalar(v: int) { 0 <= v < 0xD800 || 0xE000 <= v < 0x110000 }

  /**
   * The first character of a UTF-8 byte sequence and the number of bytes it takes, rejecting
   * stray continuation bytes, overlong forms, surrogates and values past U+10FFFF.
   */
  function DecodeChar(bs: seq<Byte>): (r: Option<(char, nat)>)
    ensures r.Some? ==> 1 <= r.value.1 <= |bs| && r.value.1 <= 4
  {
    if bs == [] then None
    else
      var b0: int := bs[0];
      if b0 < 0x80 then Some((b0 as char, 1))
      else if 0xC0 <= b0 < 0xE0 && |bs| >= 2 && IsCont(bs[1]) then
        var v: int := (b0 - 0xC0) * 64 + (bs[1] - 0x80);
        if v >= 0x80 then Some((v as char, 2)) else None
      else if 0xE0 <= b0 < 0xF0 && |bs| >= 3 && IsCont(bs[1]) && IsCont(bs[2]) then
        var v: int := ((b0 - 0xE0) * 64 + (bs[1] - 0x80)) * 64 + (bs[2] - 0x80);
        if v >= 0x800 && IsScalar(v) then Some((v as char, 3)) else None
      else if 0xF0 <= b0 < 0xF8 && |bs| >= 4 && IsCont(bs[1]) && IsCont(bs[2]) && IsCont(bs[3]) then
        var v: int := (((b0 - 0xF0) * 64 + (bs[1] - 0x80)) * 64 + (bs[2] - 0x80)) * 64 + (bs[3] - 0x80);
        if v >= 0x10000 && IsScalar(v) then Some((v as char, 4)) else None
      else None
  }

  /** `bytes.decode("utf-8")`, or `None` where it would raise. */
  function DecodeUtf8(bs: seq<Byte>): Option<string>
    decreases |bs|
  {
    if bs == [] then Some([])
    else
      match DecodeChar(bs)
      case None => None
      case Some(p) =>
        match DecodeUtf8(bs[p.1..])
        case None => None
        case Some(rest) => Some([p.0] + rest)
  }

  /** Decoding the encoding of one character gives that character and its length back. */
  lemma DecodeUtf8Char(c: char, rest: seq<Byte>)
    ensures DecodeChar(Utf8Char(c) + rest) == Some((c, |Utf8Char(c)|))
  {
    var cp := c as int;
    if cp < 0x80 {
    } else if cp < 0x800 {
      DecodeTwo(c, rest);
    } else if cp < 0x10000 {
      DecodeThree(c, rest);
    } else {
      DecodeFour(c, rest);
    }
  }

  lemma DecodeTwo(c: char, rest: seq<Byte>)
    requires 0x80 <= c as int < 0x800
    ensures DecodeChar(Utf8Char(c) + rest) == Some((c, 2))
  {
    var cp := c as int;
    var bs := Utf8Char(c) + rest;
    assert bs[0] == 0xC0 + cp / 64 && bs[1] == 0x80 + cp % 64;
    assert (bs[0] as int - 0xC0) * 64 + (bs[1] as int - 0x80) == cp;
  }

  lemma DecodeThree(c: char, rest: seq<Byte>)
    requires 0x800 <= c as int < 0x10000
    ensures DecodeChar(Utf8Char(c) + rest) == Some((c, 3))
  {
    var cp := c as int;
    var bs := Utf8Char(c) + rest;
    var q := cp / 64;
    assert bs[0] == 0xE0 + q / 64 && bs[1] == 0x80 + q % 64 && bs[2] == 0x80 + cp % 64;
    assert (bs[0] - 0xE0) * 64 + (bs[1] - 0x80) == q;
    assert q * 64 + (bs[2] - 0x80) == cp;
  }

  lemma DecodeFour(c: char, rest: seq<Byte>)
    requires 0x10000 <= c as int
    ensures DecodeChar(Utf8Char(c) + rest) == Some((c, 4))
  {
    var cp := c as int;
    var bs := Utf8Char(c) + rest;
    var q := cp / 64;
    var qq := q / 64;
    assert bs[0] == 0xF0 + qq / 64 && bs[1] == 0x80 + qq % 64;
    assert bs[2] == 0x80 + q % 64 && bs[3] == 0x80 + cp % 64;
    assert (bs[0] - 0xF0) * 64 + (bs[1] - 0x80) == qq;
    assert qq * 64 + (bs[2] - 0x80) == q;
    assert q * 64 + (bs[3] - 0x80) == cp;
  }

  /** UTF-8 round trip: decoding the encoding of any text gives the text back. */
  lemma {:induction false} Utf8RoundTrip(s: string)
    ensures DecodeUtf8(Utf8(s)) == Some(s)
    decreases |s|
  {
    if s != [] {
      var bs := Utf8(s);
      DecodeUtf8Char(s[0], Utf8(s[1..]));
      assert bs[|Utf8Char(s[0])|..] == Utf8(s[1..]);
      Utf8RoundTrip(s[1..]);
      assert [s[0]] + s[1..] == s;
    }
  }

  // ---------------------------------------------------------------------------
  // Percent-encoding of bytes
  // ---------------------------------------------------------------------------

  /** The bytes `quote` keeps as they are: `A-Z a-z 0-9 _ . - ~` and the safe `/`. */
  predicate Unreserved(b: Byte) {
    || 'A' as int <= b <= 'Z' as int
    || 'a' as int <= b <= 'z' as int
    || '0' as int <= b <= '9' as int
    || b == '_' as int || b == '.' as int || b == '-' as int || b == '~' as int || b == '/' as int
  }

  /** An upper-case hexadecimal digit. */
  function Hex(n: nat): (c: char)
    requires n < 16
  {
    if n < 10 then ('0' as int + n) as char else ('A' as int + n - 10) as char
  }

  /** The value of a hexadecimal digit of either case. */
  function HexValue(c: char): (r: Option<nat>)
    ensures r.Some? ==> r.value < 16
  {
    if '0' <= c <= '9' then Some(c as int - '0' as int)
    else if 'A' <= c <= 'F' then Some(c as int - 'A' as int + 10)
    else if 'a' <= c <= 'f' then Some(c as int - 'a' as int + 10)
    else None
  }

  /** One byte quoted: itself when unreserved, `%XX` otherwise. */
  function QuoteByte(b: Byte): (r: string)
    ensures |r| == 1 || |r| == 3
  {
    if Unreserved(b) then [b as char] else ['%', Hex(b / 16), Hex(b % 16)]
  }

  function QuoteBytes(bs: seq<Byte>): (r: string)
    ensures |bs| <= |r| <= 3 * |bs|
  {
    if bs == [] then [] else QuoteByte(bs[0]) + QuoteBytes(bs[1..])
  }

  /** `urllib.parse.quote(text)`. */
  function Quote(s: string): (r: string)
    ensures |s| <= |r| <= 12 * |s|
  {
    QuoteBytes(Utf8(s))
  }

  /**
   * The bytes a quoted text stands for: `%XX` is the byte with that value, any other ASCII
   * character is itself; a `%` without two hex digits after it, or a non-ASCII character, makes
   * the text not a quoted one.
   */
  function UnquoteBytes(t: string): Option<seq<Byte>>
    decreases |t|
  {
    if t == [] then Some([])
    else if t[0] == '%' then
      if |t| < 3 then None
      else
        match (HexValue(t[1]), HexValue(t[2]))
        case (Some(hi), Some(lo)) =>
          (match UnquoteBytes(t[3..])
           case None => None
           case Some(rest) => Some([hi * 16 + lo] + rest))
        case _ => None
    else if t[0] as int < 0x80 then
      match UnquoteBytes(t[1..])
      case None => None
      case Some(rest) => Some([t[0] as int] + rest)
    else None
  }

  /** `urllib.parse.unquote` for texts that `quote` produced. */
  function Unquote(t: string): Option<string> {
    match UnquoteBytes(t)
    case None => None
    case Some(bs) => DecodeUtf8(bs)
  }

  lemma HexValueOfHex(n: nat)
    requires n < 16
    ensures HexValue(Hex(n)) == Some(n)
  {
  }

  /** Unquoting one quoted byte in front of more text gives that byte back. */
  lemma UnquoteByte(b: Byte, rest: string)
    ensures UnquoteBytes(QuoteByte(b) + rest) ==
      match UnquoteBytes(rest) case None => None case Some(bs) => Some([b] + bs)
  {
    var t := QuoteByte(b) + rest;
    if Unreserved(b) {
      assert t[0] == b as char && t[1..] == rest;
    } else {
      HexValueOfHex(b / 16);
      HexValueOfHex(b % 16);
      assert t[0] == '%' && t[1] == Hex(b / 16) && t[2] == Hex(b % 16) && t[3..] == rest;
    }
  }

  /** Percent-decoding undoes percent-encoding, byte for byte. */
  lemma {:induction false} UnquoteQuoteBytes(bs: seq<Byte>)
    ensures UnquoteBytes(QuoteBytes(bs)) == Some(bs)
    decreases |bs|
  {
    if bs != [] {
      UnquoteByte(bs[0], QuoteBytes(bs[1..]));
      UnquoteQuoteBytes(bs[1..]);
      assert [bs[0]] + bs[1..] == bs;
    }
  }

  /** The round trip of `quote`: any text, non-ASCII included, comes back from its quoted form. */
  lemma QuoteRoundTrip(s: string)
    ensures UnquoteBytes(Quote(s)) == Some(Utf8(s))
    ensures Unquote(Quote(s)) == Some(s)
  {
    UnquoteQuoteBytes(Utf8(s));
    Utf8RoundTrip(s);
  }

  /** A character `quote` may emit: an unreserved ASCII character, `%` or an upper-case hex digit. */
  predicate QuotedChar(c: char) {
    (c as int < 0x80 && Unreserved(c as int)) || c == '%' || ('A' <= c <= 'F')
  }

  /** Quoted text uses only unreserved characters, `%` and hex digits, so it is safe in a URL. */
  lemma {:induction false} QuoteBytesAlphabet(bs: seq<Byte>)
    ensures forall i :: 0 <= i < |QuoteBytes(bs)| ==> QuotedChar(QuoteBytes(bs)[i])
    decreases |bs|
  {
    if bs != [] {
      QuoteBytesAlphabet(bs[1..]);
      var head := QuoteByte(bs[0]);
      var t := QuoteBytes(bs);
      assert t == head + QuoteBytes(bs[1..]);
      forall i | 0 <= i < |t|
        ensures QuotedChar(t[i])
      {
        if i >= |head| {
          assert t[i] == QuoteBytes(bs[1..])[i - |head|];
        }
      }
    }
  }

  /** Text made only of unreserved ASCII characters is left as it is. */
  lemma {:induction false} QuoteUnreserved(s: string)
    requires forall i :: 0 <= i < |s| ==> s[i] as int < 0x80 && Unreserved(s[i] as int)
    ensures Quote(s) == s
    decreases |s|
  {
    if s != [] {
      QuoteUnreserved(s[1..]);
      assert Utf8(s) == [s[0] as int] + Utf8(s[1..]);
      assert QuoteBytes(Utf8(s)) == QuoteByte(s[0] as int) + QuoteBytes(Utf8(s[1..]));
      assert [s[0]] + s[1..] == s;
    }
  }
}

=== FILE: webui_dashboard.dfy ===
/** The OpenWebUI dashboard filter (openwebui_dashboard.py): a command appends the command list. */
module WebuiDashboard {
  import opened Text
  import opened Chat
  import Dashboard

  const Triggers: seq<string> := ["/dashboard", "/tools", "/help", "/commands"]

  /** The command list, represented by its first line, its heading line and its last line. */
  const CommandCenter: string := "\n## \U{1F3AF} OpenWebUI Command Center\n\U{2026}\n"

  predicate Asks(ms: seq<Message>) {
    ms != [] && ContainsAny(LastContentLower(ms), Triggers)
  }

  /** The message list after `inlet`: the command list appended after a command, nothing removed. */
  function InletMessages(enabled: bool, ms: seq<Message>): (r: seq<Message>)
    ensures r == ms || r == ms + [Message("assistant", CommandCenter)]
    ensures r != ms <==> enabled && Asks(ms)
  {
    if enabled && Asks(ms) then ms + [Message("assistant", CommandCenter)] else ms
  }

  /**
   * With both dashboards installed, every command this one answers is also one the MindX
   * dashboard answers ("show commands" is the MindX dashboard's alone).
   */
  lemma {:induction false} CommandsShared(lower: string)
    requires ContainsAny(lower, Triggers)
    ensures ContainsAny(lower, Dashboard.Triggers)
  {
    ContainsAnyIff(lower, Triggers);
    ContainsAnyIff(lower, Dashboard.Triggers);
    var k :| 0 <= k < |Triggers| && Contains(lower, Triggers[k]);
    var j := if k == 0 then 0 else if k == 1 then 3 else if k == 2 then 1 else 2;
    assert Dashboard.Triggers[j] == Triggers[k];
  }

  /** The filter with its `enabled` valve. */
  class WebuiDashboardFilter {
    var enabled: bool

    constructor ()
      ensures enabled
    {
      enabled := true;
    }

    /** `inlet`: the command list appended to the body's own list. */
    method Inlet(body: Body)
      modifies body`messages
      ensures body.messages == InletMessages(enabled, old(body.messages))
    {
      var ms := body.messages;
      if !enabled || ms == [] {
        return;
      }
      var lower := LastContentLower(ms);
      if ContainsAny(lower, Triggers) {
        body.messages := ms + [Message("assistant", CommandCenter)];
      }
    }

    /** `outlet` of openwebui_dashboard.py (lines 80-81): an identity, `return body`. */
    method Outlet(body: Body) returns (r: Body)
      ensures r == body
    {
      return body;
    }
  }
}

=== FILE: wrappers.dfy ===
/** Option and the outcome of a Python call, shared by every module of the model. */
module Wrappers {

  /** The conventional Some/None datatype, used for dictionary lookups and first-match searches. */
  datatype Option<T> = None | Some(value: T)

  /** The Python exceptions the plugins can raise. */
  datatype PyError = NameError(name: string) | IndexError

  /** The outcome of a Python call: a value, or an exception that propagates to the host. */
  datatype Py<T> = Ok(value: T) | Raise(error: PyError)

}
